=== FILE: README.md ===
# AI File Renamer: a Dafny model of the naming pipeline

This project models the decision logic of the AI File Renamer. The renamer
reads the text of a document and cleans it. It then extracts metadata:
dates, an organisation, a person and keywords. It classifies the document
type with a keyword rule table and builds a file name from a per-type
template, with fallbacks when fields are missing. The name is sanitised and
capped in length, and the file is moved next to the original. Under the
default `version` conflict strategy the move never clobbers another file;
the `timestamp` and `hash` strategies can. A batch driver counts successes, failures and
skips, and a validator checks the configuration.

The model is purely functional. Strings are `seq<char>` and the file system
is the finite set of paths that exist. Scores and thresholds are integer
tenths. The world enters as parameters: the extractor's text, the regex
matches for dates and entities, the date parser, the file's modification
time, the clock, the MD5 digest and the error of the move.

Modules, one per source file, plus shared primitives:

- `Wrappers`: `Option` and `Result`.
- `PyText`: the Python `str` primitives the code relies on. These are
  `lower`, `in`, `strip`, `re.sub` of a character run, order-preserving
  de-duplication, slices with Python's bound rules and decimal rendering.
- `PosixPath`: `dirname`, `basename`, `splitext` and `join`.
- `StableSort`: a stable descending sort on (key, weight) entries. It stands
  for Python's `sorted(..., reverse=True)` and `list.sort(..., reverse=True)`.
- `TextCleaner`: `clean_text` and its three steps.
- `RuleClassifier`: the rule table, `_calculate_score` and `classify`.
- `MetadataExtractor`: `extract`, `extract_dates`, `extract_entities` and
  `extract_keywords`.
- `TemplateGenerator`: the default templates and `generate` with its
  helpers.
- `FileHandler`: `_is_supported_file`, `_resolve_conflict` and
  `rename_file`.
- `ConfigLoader`: `_validate_config`.
- `Pipeline`: component construction, `process_file` and
  `process_folder`.

`Pipeline.ProcessFile` takes its stages as a `Stages` record of functions.
`Pipeline.Standard` wires in the cleaner, extractor, classifier, generator
and file handler of this model. Properties that hold for any stages, such
as the skip rule and the counters, are proved once for every `Stages`
value. Properties of the built pipeline are proved for `Standard(s)`.

Where the documented design and the code differ, the model follows the
code:

- `_enforce_length` breaks the length bound for `max_length` 3 or 4
  (`TemplateGenerator.EnforceLengthBoundIff`).
- An unknown conflict strategy raises instead of defaulting to `version`,
  because `_resolve_conflict_version` does not exist.
- A person pattern that matches without its group makes extraction fail
  (`MetadataExtractor.HonorificWithoutNameFails`).
- The last-resort name is used only when filling the template raises. That
  happens when there is no template for the type and no `default` one.
- Cleaning is not idempotent when the text has tabs
  (`TextCleaner.CleanNotIdempotentWithTabs`).
- The `timestamp` and `hash` conflict strategies do not check that the
  suffixed path is free, so a move can overwrite an existing file
  (`FileHandler.SuffixStrategiesDoNotRecheck`,
  `FileHandler.RenameOntoTakenPathLosesFile`).

## Model

| member | source | states |
|---|---|---|
| TemplateGenerator.ChooseTemplate | src/naming/template_generator.py:54 | the type's own template if present, else the `default` one, else none |
| TemplateGenerator.VariableAliases | src/naming/template_generator.py:84-97 | vendor, parties and bank read the organisation; date and issue_date read the date; primary_entity is the organisation if set, else the person; the variable names are exactly the twelve of the table |
| TemplateGenerator.FillTemplate | src/naming/template_generator.py:99-112 | when every placeholder has a non-empty value the template is rendered; otherwise the whole name is the fallback name, never a partial substitution |
| TemplateGenerator.MissingFieldFallsBack | src/naming/template_generator.py:100-105 | one placeholder with an absent or empty value sends the whole template to the fallback logic |
| TemplateGenerator.RenderAppend | src/naming/template_generator.py:109 | formatting a template is the concatenation of formatting its pieces |
| TemplateGenerator.ApplyFallbackLogic | src/naming/template_generator.py:114-147 | with an entity the name is type_entity_stamp; without one it is type_date when a date is set, else type_stamp_NoMetadata; the stamp is the date, else the file date, else the clock |
| TemplateGenerator.FallbackParts | src/naming/template_generator.py:125-145 | parts are the type, then the entity if any, then the date, else the file date, else the clock; `NoMetadata` is added exactly when neither entity nor date is set |
| TemplateGenerator.LastResortStem | src/naming/template_generator.py:162-164 | the last-resort name is the original without its last extension (kept whole without a dot), an underscore and the time |
| TemplateGenerator.Sanitize | src/naming/template_generator.py:166-189 | the result has no banned character, no space, no `__`, and no `_` or `.` at either end; it uses only input characters or `_` and is no longer than the input; every character other than the banned ones, the space, `_` and `.` survives, in order; where the `_` separators land is stated by the three lemmas below |
| TemplateGenerator.SanitizeKeepsNameChars | src/naming/template_generator.py:176-189 | each step keeps the untouched characters: the regex drops only banned ones, the replace rewrites only spaces, the run collapse removes only `_`, and the strip cuts only `_` and `.` |
| TemplateGenerator.SanitizeWords | src/naming/template_generator.py:176-189 | a name of valid characters that gains no `__` when its spaces become `_`, and whose ends are not space, `_` or `.`, comes out with each space turned into `_` and nothing else changed; existing `_` and interior dots stay in place, so `Invoice_Acme Corp_2024-01-15` becomes `Invoice_Acme_Corp_2024-01-15` |
| TemplateGenerator.SanitizeCollapsesUnderscores | src/naming/template_generator.py:176-189 | a `__` anywhere in the name sanitises exactly like a single `_`, as the run collapse merges it |
| TemplateGenerator.SanitizeSpaceIsUnderscore | src/naming/template_generator.py:176-189 | a space anywhere in the name sanitises exactly like `_`, as the replace turns it into one |
| TemplateGenerator.SanitizeSteps | src/naming/template_generator.py:176-189 | the four sanitising steps, composed in source order, give a clean name drawn from the input |
| TemplateGenerator.SanitizeFixedPoint | src/naming/template_generator.py:166-189 | sanitising leaves a name unchanged exactly when it is already clean, and sanitising twice equals sanitising once |
| TemplateGenerator.SanitizeClean | src/naming/template_generator.py:176-189 | a clean name passes through the sanitiser unchanged |
| TemplateGenerator.EnforceLength | src/naming/template_generator.py:201-206 | short names are unchanged; a longer name with max_length of at least 5 keeps its first and last h characters around `...`, h = (max_length-3)//2, within the limit; with max_length 3 or 4 the whole name follows the ellipsis |
| TemplateGenerator.EnforceLengthBoundIff | src/naming/template_generator.py:205-206 | after truncation the bound holds exactly when max_length is at least 5 |
| TemplateGenerator.EnforceLengthKeepsClean | src/naming/template_generator.py:201-206 | truncating a clean name with room for the ellipsis keeps it clean |
| TemplateGenerator.GenerateSource | src/naming/template_generator.py:51-61 | the raw name is the type's template, else the default template, rendered when complete and the fallback name otherwise; with no template at all it is the last-resort name |
| TemplateGenerator.Generate | src/naming/template_generator.py:38-69 | the generated name is the sanitised raw name when that fits max_length; otherwise, with max_length at least 5, its first and last (max_length - 3) // 2 characters around `...`, and for max_length 3 or 4 the name after `...`; with max_length at least 5 the name is clean and within max_length; when the sanitised name fits, every untouched character of the raw name survives in order; a raw name already clean and short enough comes out unchanged |
| TemplateGenerator.DefaultTemplatesNeedUnextractedFields | src/naming/template_generator.py:28-36 | with the built-in table, Invoice, Receipt and BankStatement fall back whenever the metadata lacks invoice_number, amount and year |
| RuleClassifier.CountOccurring | src/classification/rule_based_classifier.py:124-136 | the number of listed keywords occurring in the text; positive exactly when one occurs |
| RuleClassifier.Score | src/classification/rule_based_classifier.py:111-152 | 0 exactly when no required keyword occurs; otherwise 0.9, 0.7, 0.6 or 0.3 for three or more, two, one or no strong matches, plus 0.1 when two or more weak keywords occur; at least 0.6 exactly when required and strong keywords occur |
| RuleClassifier.ScoreMonotone | src/classification/rule_based_classifier.py:139-150 | with the required keywords present, more strong or weak matches never lower the score |
| RuleClassifier.CountOccurringMonotone | src/classification/rule_based_classifier.py:132-136 | a text containing every keyword another contains matches at least as many |
| RuleClassifier.ScoreGrowsWithText | src/classification/rule_based_classifier.py:124-152 | a text containing every rule keyword another contains scores at least as high |
| RuleClassifier.Scored | src/classification/rule_based_classifier.py:88-91 | one (type, score) entry per rule, in table order |
| RuleClassifier.Classify | src/classification/rule_based_classifier.py:78-109 | empty text is Unknown at 0.1; any other result is Unknown or a table type whose confidence is a possible score at or above the threshold |
| RuleClassifier.ClassifyPicksFirstBest | src/classification/rule_based_classifier.py:89-108 | the result is the first type with the maximal score, or Unknown when that score is below the threshold |
| RuleClassifier.RuleTypesDistinct | src/classification/rule_based_classifier.py:30-66 | the seven types are distinct and none is `Unknown` |
| RuleClassifier.NoRequiredNeverReturned | src/classification/rule_based_classifier.py:99-128 | with a positive threshold, a type none of whose required keywords occur is never returned |
| RuleClassifier.ZeroThresholdReturnsInvoice | src/classification/rule_based_classifier.py:94-109 | with a threshold of zero or less and no required keyword anywhere, Invoice is returned at 0.0 |
| RuleClassifier.RequiredAreStrong | src/classification/rule_based_classifier.py:30-66 | every required keyword of every type but Resume is also strong |
| RuleClassifier.RequiredScoresAtLeastSix | src/classification/rule_based_classifier.py:124-146 | meeting the required set of any type but Resume scores at least 0.6 |
| RuleClassifier.ClassifyCaseInsensitive | src/classification/rule_based_classifier.py:85 | classifying the lower-cased text gives the same result |
| RuleClassifier.CvInsideWordCounts | src/classification/rule_based_classifier.py:124-128 | `cv` inside any word meets Resume's required set, with no word boundary |
| MetadataExtractor.ExtractDates | src/utils/metadata_extractor.py:66-90 | the dates are distinct, pattern by pattern and match by match, and are exactly the parsable matches' formatted values |
| MetadataExtractor.AddPatternDates | src/utils/metadata_extractor.py:78-88 | one pattern's matches extend the list as de-duplication of all parsed matches so far |
| MetadataExtractor.DatesStep | src/utils/metadata_extractor.py:79-88 | a match adds its formatted value at the end only when it parses to a value not yet listed |
| MetadataExtractor.DatesHead | src/utils/metadata_extractor.py:36-38 | the document's date is the first match that parses |
| MetadataExtractor.FirstMatch | src/utils/metadata_extractor.py:116-132 | when no pattern matches, the value is None |
| MetadataExtractor.FirstMatchWins | src/utils/metadata_extractor.py:116-132 | the first matching pattern decides: its stripped group, or a failure when the group did not take part |
| MetadataExtractor.ExtractEntities | src/utils/metadata_extractor.py:102-134 | both keys are always set, to the first match's value or None; it fails exactly when a first match lacks its group |
| MetadataExtractor.HonorificWithoutNameFails | src/utils/metadata_extractor.py:125-131 | a person match without a group makes the whole extraction fail |
| MetadataExtractor.Words | src/utils/metadata_extractor.py:159 | the tokens are non-empty runs of word characters |
| MetadataExtractor.FilterWords | src/utils/metadata_extractor.py:159-165 | a candidate is a whole word of four or more letters a-z that is not a stop word |
| MetadataExtractor.CountFrequencies | src/utils/metadata_extractor.py:162-165 | the counting loop yields one entry per distinct word, in first-occurrence order, with its count |
| MetadataExtractor.CountStep | src/utils/metadata_extractor.py:163-165 | one word bumps a known count or appends a new word with count 1 |
| MetadataExtractor.FrequencyTable | src/utils/metadata_extractor.py:162-165 | the table lists the distinct words in first-occurrence order with their counts |
| MetadataExtractor.RankedFacts | src/utils/metadata_extractor.py:168 | the ranking is non-increasing in count, key-distinct, and lists every distinct word with its count |
| MetadataExtractor.RankedStable | src/utils/metadata_extractor.py:162-168 | words of equal frequency keep their first-occurrence order |
| MetadataExtractor.TopWordsSpec | src/utils/metadata_extractor.py:168-171 | for a non-negative limit, exactly min(limit, distinct words) words; distinct input words in non-increasing count, ties in first-occurrence order; no word left out occurs more often than a kept one, or as often but earlier; none exactly when there are no words |
| MetadataExtractor.RankedTies | src/utils/metadata_extractor.py:162-168 | two ranked words of equal count appear in the order of their first occurrence in the text |
| MetadataExtractor.TopWordsMaximal | src/utils/metadata_extractor.py:168-171 | a word left out occurs less often than a kept word, or as often but first occurs later |
| MetadataExtractor.TopWordsSize | src/utils/metadata_extractor.py:171 | the slice keeps min(limit, distinct words) words, and for a negative limit all but the last -limit |
| MetadataExtractor.ExtractKeywords | src/utils/metadata_extractor.py:136-173 | keywords are exactly min(max_keywords, distinct candidates) distinct whole words of four or more letters a-z, not stop words, in non-increasing frequency with ties in first-occurrence order, and no candidate left out beats a kept one |
| MetadataExtractor.DateFields | src/utils/metadata_extractor.py:36-43 | `date` is the first extracted date; only with no date, the flag on and a path given is it the file time, also set as `file_modified_date`; reading that time is the only failure |
| MetadataExtractor.Extract | src/utils/metadata_extractor.py:22-54 | extraction fails exactly on a failed file time during the fallback or a group-less first entity match; on success both entity keys are set and no key other than the date, file date and entity keys is |
| MetadataExtractor.ExtractDateRules | src/utils/metadata_extractor.py:33-54 | the date rules hold of the assembled metadata, and `file_modified_date` is set only by the fallback |
| MetadataExtractor.ExtractEntityAndKeywordRules | src/utils/metadata_extractor.py:45-54 | both entity keys are present; `keywords` is present exactly when the list is non-empty; extraction fails exactly on a failed file time or a group-less first match |
| FileHandler.IsSupported | src/utils/file_handler.py:55-66 | support is decided by the lower-cased extension of the file's own name; a dot in a directory does not count |
| FileHandler.SupportedByExtension | src/utils/file_handler.py:55-66 | a file is supported exactly when its lower-cased extension is listed |
| FileHandler.HiddenFileUnsupported | src/utils/file_handler.py:65-66 | a file named `.pdf` has no extension and is not supported |
| FileHandler.UpperCaseExtensionSupported | src/utils/file_handler.py:65-66 | `.PDF` is supported by the default list |
| FileHandler.VersionPathsDistinct | src/utils/file_handler.py:121-122 | different version numbers give different candidate paths |
| FileHandler.TakenBound | src/utils/file_handler.py:119-125 | if candidates 2 to k are taken the file system has at least k-1 paths, so the probe ends |
| FileHandler.FirstFreeVersion | src/utils/file_handler.py:119-125 | the probe returns a free candidate, and every earlier one is taken |
| FileHandler.ResolveConflict | src/utils/file_handler.py:99-143 | a free target is kept; `version` returns a free path in the same directory; an unknown strategy fails |
| FileHandler.VersionIsLeastFree | src/utils/file_handler.py:117-125 | `version` returns `name_v{k}ext` for the least free k from 2 |
| FileHandler.SuffixStrategiesDoNotRecheck | src/utils/file_handler.py:127-139 | `timestamp` and `hash` return the suffixed path without checking that it is free |
| FileHandler.RenameFile | src/utils/file_handler.py:68-97 | a missing source fails first; a conflict-resolution error propagates unchanged; without a move error the rename succeeds exactly when the conflict is resolved; success moves the file to the resolved path; a move error is reported |
| FileHandler.RenameVersionKeepsEveryFile | src/utils/file_handler.py:90-95 | with `version` the new path was free and the number of files is unchanged |
| FileHandler.RenameOntoTakenPathLosesFile | src/utils/file_handler.py:90-95 | a move onto another existing file replaces it, and one file is lost |
| FileHandler.TargetShape | src/utils/file_handler.py:83-87 | the target keeps the original's directory and extension and has the new name as stem |
| FileHandler.RenameVersionShape | src/utils/file_handler.py:83-125 | a `version` rename stays in the original's directory and keeps its extension |
| PosixPath.JoinSplits | src/utils/file_handler.py:83-87 | `dirname` and `basename` of `join(d, b)` give back `d` and `b` |
| PosixPath.ExtOfBaseName | src/utils/file_handler.py:113-115 | `splitext` of a path and of its base name give the same extension |
| TextCleaner.RemoveNonPrintable | src/cleaning/text_cleaner.py:38-49 | keeps exactly the printable characters, spaces, tabs and newlines |
| TextCleaner.RemoveNonPrintableDropsCr | src/cleaning/text_cleaner.py:49 | a carriage return is dropped |
| TextCleaner.NormalizeWhitespace | src/cleaning/text_cleaner.py:51-67 | no tab is left, only a space is added, and without tabs it is space-run collapsing |
| TextCleaner.ReplaceCrLf | src/cleaning/text_cleaner.py:80 | the replacement only shortens, adds nothing, and is the identity without `\r` |
| TextCleaner.ReplaceCrLfAppend | src/cleaning/text_cleaner.py:80 | the replacement works piece by piece, except across a cut between `\r` and `\n` |
| TextCleaner.ReplaceCrLfPair | src/cleaning/text_cleaner.py:80 | each `\r\n` anywhere becomes exactly one `\n` |
| TextCleaner.ReplaceCrLfLoneCr | src/cleaning/text_cleaner.py:80 | a `\r` not followed by `\n` is kept |
| TextCleaner.CapNewlines | src/cleaning/text_cleaner.py:84 | no three newlines in a row remain, both ends are kept, and nothing is added |
| TextCleaner.CapNewlinesTriple | src/cleaning/text_cleaner.py:84 | a run of three or more newlines may be shortened by one without changing the result |
| TextCleaner.CapNewlinesRun | src/cleaning/text_cleaner.py:84 | a run of n >= 2 newlines gives the same result as exactly two, so every run of three or more becomes two |
| TextCleaner.CapNewlinesNoop | src/cleaning/text_cleaner.py:84 | text without three newlines in a row is unchanged |
| TextCleaner.LineFeedsTwoPass | src/cleaning/text_cleaner.py:80-81 | the two replacements turn each `\r\n`, each other `\r` and each `\n` into one line feed |
| TextCleaner.NormalizeLineBreaksSpec | src/cleaning/text_cleaner.py:69-86 | the result is the universal-newline translation with every run of three or more line feeds cut to two; text without `\r` or triple newlines is unchanged |
| TextCleaner.Normalized | src/cleaning/text_cleaner.py:24-31 | after the three steps there is no tab, no `\r` and no triple newline, and every character is printable or a newline from the input, or a space |
| TextCleaner.Clean | src/cleaning/text_cleaner.py:11-36 | empty text gives empty text; the result is printable or newlines, has no tab, `\r` or triple newline, no whitespace at either end, and comes from the input |
| TextCleaner.CleanKeepsVisibleText | src/cleaning/text_cleaner.py:11-36 | cleaning keeps every printable non-space character, in order |
| TextCleaner.CarriageReturnIgnored | src/cleaning/text_cleaner.py:49-81 | a carriage return anywhere has no effect on the result |
| TextCleaner.CleanOfSpaces | src/cleaning/text_cleaner.py:21-34 | text of spaces only cleans to the empty string |
| TextCleaner.CleanNoDoubledSpace | src/cleaning/text_cleaner.py:62 | text without tabs cleans to text without two spaces in a row |
| TextCleaner.CleanFixedPoint | src/cleaning/text_cleaner.py:11-36 | clean text without doubled spaces is unchanged by cleaning |
| TextCleaner.CleanIdempotentWithoutTabs | src/cleaning/text_cleaner.py:62-65 | without tabs, cleaning twice equals cleaning once |
| TextCleaner.CleanOfTwoTabs | src/cleaning/text_cleaner.py:62-65 | `a`, two tabs, `b` cleans to `a`, two spaces, `b` |
| TextCleaner.CleanNotIdempotentWithTabs | src/cleaning/text_cleaner.py:62-65 | cleaning that text again changes it, so cleaning is not idempotent |
| ConfigLoader.FirstMissing | src/utils/config_loader.py:51-53 | the first required section that is absent, or none exactly when all are present |
| ConfigLoader.ValidateConfig | src/utils/config_loader.py:38-65 | a configuration is accepted exactly when it has the three sections and listed classifier and generator types |
| ConfigLoader.ValidateOrder | src/utils/config_loader.py:49-65 | the first missing section in order, then the classifier type, then the generator type, decides the error message |
| ConfigLoader.MissingTypeRejected | src/utils/config_loader.py:56-65 | an absent classifier or generator type is rejected |
| ConfigLoader.ValidateIgnoresOtherSections | src/utils/config_loader.py:49-53 | extra top-level keys do not change the verdict |
| Pipeline.InitClassifier | src/core/pipeline.py:54-63 | only `rule_based` builds a classifier, and any other type fails with its name |
| Pipeline.InitGenerator | src/core/pipeline.py:65-74 | only `template` builds a generator, and any other type fails with its name |
| Pipeline.InitDefaults | src/core/pipeline.py:56-67 | without the sections, the defaults `rule_based` and `template` are built |
| Pipeline.Build | src/core/pipeline.py:33-43 | a pipeline is built exactly when the sections are present and the types are `rule_based` and `template`; a validation error, then a classifier error, is reported first |
| Pipeline.ValidatedClassifierMayFail | src/core/pipeline.py:58-63 | a validated configuration with another classifier type cannot be built |
| Pipeline.ValidatedGeneratorMayFail | src/core/pipeline.py:69-74 | a validated configuration with another generator type cannot be built |
| Pipeline.MlValidButUnbuildable | src/utils/config_loader.py:56-59 | the `ml` classifier passes validation but fails construction |
| Pipeline.ExtractText | src/extraction/base.py:37-38 | a missing file fails with `File not found:` and the path |
| Pipeline.ProcessFile | src/core/pipeline.py:118-172 | a file is skipped exactly when its text is empty; a missing file, a text error, a metadata error or a rename error fails with that error; it succeeds exactly when the file exists, has text, and the metadata and rename stages succeed; only success changes the file system; success reports the input's base name and the moved path's base name |
| Pipeline.SuccessRanEveryStage | src/core/pipeline.py:139-165 | a success ran extraction, classification and rename on the cleaned text and reports their results |
| Pipeline.EmptyTextSkipsEveryStage | src/core/pipeline.py:134-137 | empty text is skipped the same way whatever the stages, so none of them runs |
| Pipeline.BlankTextNotSkipped | src/core/pipeline.py:134-140 | text of spaces only is not skipped, although it cleans to nothing |
| Pipeline.ProcessFileKeepsFileCount | src/core/pipeline.py:155-172 | when renames keep the file count, so does processing a file |
| Pipeline.VersionKeepsFileCount | src/core/pipeline.py:156 | with the `version` strategy the built pipeline's rename keeps the file count |
| Pipeline.Tally | src/core/pipeline.py:92-111 | total is the number of outcomes, and success, failed and skipped add up to it |
| Pipeline.ProcessFolder | src/core/pipeline.py:76-116 | the loop's counters are the tally of processing the files in order; total is the number of files and the three counters add up to it |
| Pipeline.ExtractedMetadataFallsBack | src/utils/metadata_extractor.py:22-54 | the extractor never sets invoice_number, amount or year, so with the built-in templates Invoice, Receipt and BankStatement are always named by the fallback logic |
| Pipeline.RunKeepsFileCount | src/core/pipeline.py:100-111 | when renames keep the file count, a whole batch keeps it |
| StableSort.SortDesc | src/classification/rule_based_classifier.py:94 | the sort returns a permutation of its input |
| StableSort.SortDescSorted | src/classification/rule_based_classifier.py:94 | the result is non-increasing in weight |
| StableSort.SortDescStable | src/utils/metadata_extractor.py:168 | entries of equal weight keep their input order |
| StableSort.SortDescTies | src/utils/metadata_extractor.py:168 | of two equally heavy sorted entries, the earlier one comes from the earlier input position |
| StableSort.OriginSpec | src/utils/metadata_extractor.py:168 | each sorted entry is the input entry at its origin position |
| StableSort.SortDescHead | src/classification/rule_based_classifier.py:94-97 | the head of the sort is the first entry of maximal weight |
| PyText.ContainsIff | src/classification/rule_based_classifier.py:126 | `in` holds exactly when the keyword occurs at some position |
| PyText.StripSpec | src/cleaning/text_cleaner.py:34 | `strip` returns a slice with no stripped character at either end and only stripped characters cut |
| PyText.CollapseRuns | src/naming/template_generator.py:184 | no doubled character is left, other characters are unchanged and in order |
| PyText.Dedup | src/utils/metadata_extractor.py:84-85 | the result is distinct and has the same members |
| PyText.DedupOrder | src/utils/metadata_extractor.py:162-165 | de-duplication lists words in the order of their first occurrence |
| PyText.PySlices | src/naming/template_generator.py:205-206 | `s[:k]` and `s[k:]` split `s`; for k >= 0 `s[:k]` is the first min(k, len) items; for h > 0 `s[-h:]` is the last min(h, len) items; and `s[-0:]` is the whole of `s` |

## Left out

- Reading files, the PDF, DOCX and TXT extractors and `TextExtractor`'s routing are left out. They are I/O, so the extractor's answer is a parameter. The `Unsupported file extension` error is one possible `Failure` of that parameter.
- `load_config` is left out: YAML reading is I/O. A configuration is modelled by its top-level keys and the two `type` entries.
- A `classifier` or `filename_generator` section that is present but is not a mapping is left out. A null `type` is treated like an absent one.
- The logger and `main.py` are left out: they hold no decision logic.
- `scan_folder` is left out: it is directory I/O. The file list is a parameter of `Pipeline.ProcessFolder`.
- `datetime.now`, `os.path.getmtime`, `dateutil.parser.parse`, `strftime` and `hashlib.md5` are left out. Each is a parameter, already formatted, or a partial function.
- The date and entity regular expressions are left out. Their matches come from oracles, one ordered list per pattern, and an entity match may lack its group.
- MetadataExtractor.IsWordChar: the keyword tokeniser `\b[a-z]{4,}\b` is modelled on word runs, and word characters are ASCII letters, digits, `_` and the Latin-1 letters, not the full Unicode `\w`.
- PyText.Lower: `str.lower` is ASCII-only in the model, because Unicode case mapping is a table.
- TextCleaner.IsPrintable: a fixed approximation of `str.isprintable`. It rejects the control characters, the separators other than the space, the common format characters and the private-use areas. Unassigned code points count as printable.
- Templates are given pre-parsed into literal and placeholder pieces. A malformed format string, and the `KeyError` branch it would reach, are not modelled.
- `doc_type` defaulting to `Unknown` is left out: the pipeline always passes the classifier's type.
- Pipeline.ProcessFile: the extraction oracle reads the text of the path as given. It does not see contents changed by earlier renames in the same batch; only existence is tracked.
- Pipeline.ProcessFolder: the `except` branch of the loop is unreachable, because `process_file` catches every exception itself. It is therefore not modelled.
- Floating-point scores are modelled as integer tenths. The one float effect that changes a decision is kept: 0.7 plus 0.1 falls below a threshold of 0.8. Rounding to two places is exact on tenths.
- TemplateGenerator.Generate: for a max_length below 3 the contract does not describe the truncated name. The body keeps Python's slice rules there; the default limit is 150 (template_generator.py:24), and such a small limit only comes from an unusual configuration.
- Concurrency and the atomicity of `shutil.move` are left out: the file system is a set updated in one step.
- Paths follow `posixpath` only. Windows separators and drive letters (`ntpath`), path normalisation, symbolic links and case-insensitive file systems are not modelled: a path exists exactly when the same string is in the set.

=== FILE: config_loader.dfy ===
/** The configuration validator: a loaded configuration must have the three
    required sections, and the classifier and generator types must be among
    the known ones. Checks run in a fixed order and the first failing check
    names the error. */
module ConfigLoader {
  import opened Wrappers

  /** What is read of a loaded configuration: its top-level keys and the
      `type` entries of the classifier and generator sections (`None` when
      the section or its `type` key is absent). */
  datatype Config = Config(sections: set<string>, classifierType: Option<string>, generatorType: Option<string>)

  const RequiredSections: seq<string> := ["supported_extensions", "classifier", "filename_generator"]

  const ClassifierTypes: seq<string> := ["rule_based", "ml", "llm", "transformer", "zero_shot"]

  const GeneratorTypes: seq<string> := ["template", "dynamic_template", "llm", "summarization"]

  /** Python's `str` of a type entry that may be missing. */
  function Show(t: Option<string>): string {
    match t
    case Some(s) => s
    case None => "None"
  }

  /** `t in allowed`, where a missing entry is `None` and never listed. */
  predicate ValidType(t: Option<string>, allowed: seq<string>) {
    t.Some? && t.value in allowed
  }

  /** Every required section is a key of the configuration. */
  predicate HasSections(present: set<string>) {
    forall i :: 0 <= i < |RequiredSections| ==> RequiredSections[i] in present
  }

  /** The message of the `ValueError` for a missing section. */
  function MissingSection(section: string): string {
    "Missing required config section: " + section
  }

  /** The position of the first of `required` missing from `present`. */
  function FirstMissing(present: set<string>, required: seq<string>): (r: Option<nat>)
    ensures r.None? <==> forall i :: 0 <= i < |required| ==> required[i] in present
    ensures r.Some? ==> r.value < |required| && required[r.value] !in present
    ensures r.Some? ==> forall i :: 0 <= i < r.value ==> required[i] in present
  {
    if required == [] then None
    else if required[0] !in present then Some(0)
    else
      assert forall i :: 1 <= i < |required| ==> required[i] == required[1..][i - 1];
      match FirstMissing(present, required[1..])
      case None => None
      case Some(i) => Some(i + 1)
  }

  /** `_validate_config`: `Success` carries the configuration unchanged, a
      `Failure` the `ValueError` message. */
  function ValidateConfig(c: Config): (r: Result<Config, string>)
    ensures r.Success? <==>
      HasSections(c.sections) && ValidType(c.classifierType, ClassifierTypes) && ValidType(c.generatorType, GeneratorTypes)
    ensures r.Success? ==> r.value == c
  {
    match FirstMissing(c.sections, RequiredSections)
    case Some(i) => Failure(MissingSection(RequiredSections[i]))
    case None =>
      if !ValidType(c.classifierType, ClassifierTypes) then
        Failure("Invalid classifier type: " + Show(c.classifierType))
      else if !ValidType(c.generatorType, GeneratorTypes) then
        Failure("Invalid generator type: " + Show(c.generatorType))
      else Success(c)
  }

  /** The checks run in order: the first missing section in the order
      `supported_extensions`, `classifier`, `filename_generator`, then the
      classifier type, then the generator type. */
  lemma ValidateOrder(c: Config)
    ensures "supported_extensions" !in c.sections ==>
      ValidateConfig(c) == Failure(MissingSection("supported_extensions"))
    ensures "supported_extensions" in c.sections && "classifier" !in c.sections ==>
      ValidateConfig(c) == Failure(MissingSection("classifier"))
    ensures "supported_extensions" in c.sections && "classifier" in c.sections && "filename_generator" !in c.sections ==>
      ValidateConfig(c) == Failure(MissingSection("filename_generator"))
    ensures HasSections(c.sections) && !ValidType(c.classifierType, ClassifierTypes) ==>
      ValidateConfig(c) == Failure("Invalid classifier type: " + Show(c.classifierType))
    ensures HasSections(c.sections) && ValidType(c.classifierType, ClassifierTypes)
            && !ValidType(c.generatorType, GeneratorTypes) ==>
      ValidateConfig(c) == Failure("Invalid generator type: " + Show(c.generatorType))
  {
    var m := FirstMissing(c.sections, RequiredSections);
    assert RequiredSections[0] == "supported_extensions";
    assert RequiredSections[1] == "classifier";
    assert RequiredSections[2] == "filename_generator";
    if "supported_extensions" !in c.sections {
      assert m == Some(0);
    } else if "classifier" !in c.sections {
      assert m == Some(1);
    } else if "filename_generator" !in c.sections {
      assert m == Some(2);
    }
  }

  /** A configuration without a `type` entry for the classifier or the
      generator is rejected, even though the pipeline has defaults for
      both. */
  lemma MissingTypeRejected(c: Config)
    requires c.classifierType.None? || c.generatorType.None?
    ensures ValidateConfig(c).Failure?
  {
  }

  /** Keys other than the required sections play no part in validation. */
  lemma ValidateIgnoresOtherSections(c: Config, extra: string)
    requires extra !in RequiredSections
    ensures ValidateConfig(c.(sections := c.sections + {extra})).Success? == ValidateConfig(c).Success?
  {
    var c' := c.(sections := c.sections + {extra});
    assert HasSections(c'.sections) <==> HasSections(c.sections) by {
      if HasSections(c'.sections) {
        forall i | 0 <= i < |RequiredSections|
          ensures RequiredSections[i] in c.sections
        {
          assert RequiredSections[i] != extra;
        }
      }
    }
  }
}

=== FILE: file_handler.dfy ===
/** The file handler: which files are supported, where a renamed file goes,
    and how a name clash is resolved.

    The file system is the set of paths that exist; `os.path.exists` is
    membership, with no normalisation of paths. */
module FileHandler {
  import opened Wrappers
  import opened PyText
  import opened PosixPath

  datatype HandlerConfig = HandlerConfig(supportedExtensions: seq<string>, conflictStrategy: string)

  const DefaultExtensions: seq<string> := [".pdf", ".txt", ".docx"]

  const DefaultConfig := HandlerConfig(DefaultExtensions, "version")

  /** `_is_supported_file`: the lower-cased extension is listed. Only the
      file's own name counts: a dot in a directory name is no extension. */
  function IsSupported(cfg: HandlerConfig, path: string): (b: bool)
    ensures b <==> Lower(Ext(BaseName(path))) in cfg.supportedExtensions
  {
    ExtOfBaseName(path);
    Lower(Ext(path)) in cfg.supportedExtensions
  }

  /** For a file name with a stem, support is decided by its extension
      alone, ignoring case. */
  lemma SupportedByExtension(cfg: HandlerConfig, dir: string, stem: string, ext: string)
    requires IsDirName(dir)
    requires '/' !in stem && exists k :: 0 <= k < |stem| && stem[k] != '.'
    requires ext != [] && ext[0] == '.' && '.' !in ext[1..] && '/' !in ext
    ensures IsSupported(cfg, Join(dir, stem + ext)) <==> Lower(ext) in cfg.supportedExtensions
  {
    var p := Join(dir, stem + ext);
    JoinSplits(dir, stem + ext);
    ExtOfBaseName(p);
    SplitStemExt(stem, ext);
  }

  /** A file named only by its extension is a hidden file without one, so
      it is not supported. */
  lemma HiddenFileUnsupported()
    ensures !IsSupported(DefaultConfig, "d/.pdf")
  {
    assert LastIndexOf("d/.pdf", '/') == 1;
    assert LastIndexOf("d/.pdf", '.') == 2;
    assert ExtStart("d/.pdf") == 6;
  }

  /** The extension is compared in lower case: an upper-case `.PDF` is
      supported by default. */
  lemma UpperCaseExtensionSupported(dir: string, stem: string)
    requires IsDirName(dir)
    requires '/' !in stem && exists k :: 0 <= k < |stem| && stem[k] != '.'
    ensures IsSupported(DefaultConfig, Join(dir, stem + ".PDF"))
  {
    assert '.' !in ".PDF"[1..];
    assert Lower(".PDF") in DefaultExtensions by {
      assert Lower(".PDF") == ".pdf";
    }
    SupportedByExtension(DefaultConfig, dir, stem, ".PDF");
  }

  // ------------------------------------------------------------ conflicts

  /** The `version` candidate number `k`: `{name}_v{k}{ext}` next to the
      target. */
  function VersionPath(dir: string, name: string, ext: string, k: nat): string {
    Join(dir, name + "_v" + NatToString(k) + ext)
  }

  /** Different version numbers give different paths. */
  lemma VersionPathsDistinct(dir: string, name: string, ext: string, j: nat, k: nat)
    requires '/' !in name && j != k
    ensures VersionPath(dir, name, ext, j) != VersionPath(dir, name, ext, k)
  {
    var sj, sk := NatToString(j), NatToString(k);
    NatToStringDistinct(j, k);
    var xj, xk := name + "_v" + sj + ext, name + "_v" + sk + ext;
    assert xj[0] != '/' && xk[0] != '/' by {
      if name != [] { assert name[0] in name; }
    }
    var pre := if dir == [] || dir[|dir| - 1] == '/' then dir else dir + "/";
    assert VersionPath(dir, name, ext, j) == pre + xj;
    assert VersionPath(dir, name, ext, k) == pre + xk;
    var lo := |pre| + |name| + 2;
    if |sj| == |sk| {
      VersionNumberAt(pre, name, sj, ext);
      VersionNumberAt(pre, name, sk, ext);
    } else {
      assert |pre + xj| != |pre + xk|;
    }
  }

  /** Where the version number sits in a versioned path. */
  lemma VersionNumberAt(pre: string, name: string, s: string, ext: string)
    ensures var x, lo := pre + (name + "_v" + s + ext), |pre| + |name| + 2;
      lo + |s| <= |x| && x[lo..lo + |s|] == s
  {
    var x, lo := pre + (name + "_v" + s + ext), |pre| + |name| + 2;
    forall i | 0 <= i < |s|
      ensures x[lo + i] == s[i]
    {
    }
  }

  /** Pigeonhole: if candidates 2..k are all taken, the file system holds
      at least k - 1 paths. */
  lemma {:induction false} TakenBound(dir: string, name: string, ext: string, fs: set<string>, k: nat)
    requires '/' !in name && k >= 2
    requires forall j :: 2 <= j <= k ==> VersionPath(dir, name, ext, j) in fs
    ensures |fs| >= k - 1
    decreases k
  {
    if k > 2 {
      var rest := fs - {VersionPath(dir, name, ext, k)};
      forall j | 2 <= j <= k - 1
        ensures VersionPath(dir, name, ext, j) in rest
      {
        VersionPathsDistinct(dir, name, ext, j, k);
      }
      TakenBound(dir, name, ext, rest, k - 1);
    }
  }

  /** The loop of the `version` strategy, from candidate `k` on: the first
      free candidate. It exists because the file system is finite. */
  function FirstFreeVersion(dir: string, name: string, ext: string, fs: set<string>, k: nat): (r: nat)
    requires '/' !in name && k >= 2
    requires forall j :: 2 <= j < k ==> VersionPath(dir, name, ext, j) in fs
    ensures r >= k && VersionPath(dir, name, ext, r) !in fs
    ensures forall j :: 2 <= j < r ==> VersionPath(dir, name, ext, j) in fs
    decreases |fs| + 2 - k
  {
    if VersionPath(dir, name, ext, k) !in fs then k
    else
      TakenBound(dir, name, ext, fs, k);
      FirstFreeVersion(dir, name, ext, fs, k + 1)
  }

  /** The error raised for an unknown strategy: the fallback it calls does
      not exist. */
  const MissingVersionMethod := "'FileHandler' object has no attribute '_resolve_conflict_version'"

  /** `_resolve_conflict`. `timestamp` is the current time as
      `%Y%m%d_%H%M%S`; `md5Hex` is the hexadecimal MD5 digest of a name. A
      free target is kept; otherwise `version` takes the first free
      `_v2`, `_v3`, ...; `timestamp` and `hash` add a suffix without checking
      it; any other strategy fails. */
  function ResolveConflict(cfg: HandlerConfig, target: string, fs: set<string>,
                           timestamp: string, md5Hex: string -> string): (r: Result<string, string>)
    ensures target !in fs ==> r == Success(target)
    ensures target in fs && cfg.conflictStrategy == "version" ==>
      r.Success? && r.value !in fs && DirName(r.value) == DirName(target)
    ensures target in fs && cfg.conflictStrategy !in {"version", "timestamp", "hash"} ==>
      r == Failure(MissingVersionMethod)
  {
    if target !in fs then Success(target)
    else
      var dir, file := DirName(target), BaseName(target);
      var name, ext := Root(file), Ext(file);
      RootOfBaseName(target);
      if cfg.conflictStrategy == "version" then
        var k := FirstFreeVersion(dir, name, ext, fs, 2);
        JoinSplits(dir, name + "_v" + NatToString(k) + ext);
        Success(VersionPath(dir, name, ext, k))
      else if cfg.conflictStrategy == "timestamp" then
        Success(Join(dir, name + "_" + timestamp + ext))
      else if cfg.conflictStrategy == "hash" then
        Success(Join(dir, name + "_" + PyPrefix(md5Hex(name), 8) + ext))
      else Failure(MissingVersionMethod)
  }

  /** The stem `splitext` leaves of a base name has no slash. */
  lemma RootOfBaseName(p: string)
    ensures '/' !in Root(BaseName(p))
  {
    var file := BaseName(p);
    var name := Root(file);
    assert file == name + Ext(file);
    forall i | 0 <= i < |name|
      ensures name[i] != '/'
    {
      assert name[i] == file[i];
    }
  }

  /** The `version` strategy picks the smallest free number from 2 up:
      every smaller candidate is taken. */
  lemma VersionIsLeastFree(cfg: HandlerConfig, target: string, fs: set<string>,
                           timestamp: string, md5Hex: string -> string)
    requires target in fs && cfg.conflictStrategy == "version"
    ensures var dir, name, ext := DirName(target), Root(BaseName(target)), Ext(BaseName(target));
      exists k: nat :: k >= 2
        && ResolveConflict(cfg, target, fs, timestamp, md5Hex) == Success(VersionPath(dir, name, ext, k))
        && (forall j :: 2 <= j < k ==> VersionPath(dir, name, ext, j) in fs)
  {
    var dir, file := DirName(target), BaseName(target);
    var name, ext := Root(file), Ext(file);
    RootOfBaseName(target);
    var k := FirstFreeVersion(dir, name, ext, fs, 2);
    assert ResolveConflict(cfg, target, fs, timestamp, md5Hex) == Success(VersionPath(dir, name, ext, k));
  }

  /** The `timestamp` and `hash` strategies do not check their candidate:
      the result is the suffixed path even when that path is taken (two
      clashes in the same second, or the same name clashing twice). */
  lemma SuffixStrategiesDoNotRecheck(cfg: HandlerConfig, target: string, fs: set<string>,
                                     timestamp: string, md5Hex: string -> string)
    requires target in fs
    ensures var dir, name, ext := DirName(target), Root(BaseName(target)), Ext(BaseName(target));
      && (cfg.conflictStrategy == "timestamp" ==>
            ResolveConflict(cfg, target, fs, timestamp, md5Hex) == Success(Join(dir, name + "_" + timestamp + ext)))
      && (cfg.conflictStrategy == "hash" ==>
            ResolveConflict(cfg, target, fs, timestamp, md5Hex) == Success(Join(dir, name + "_" + PyPrefix(md5Hex(name), 8) + ext)))
  {
  }

  // ------------------------------------------------------------- renaming

  /** A completed move: the new path and the file system after it. */
  datatype Renamed = Renamed(newPath: string, fs: set<string>)

  /** Where `rename_file` aims before resolving clashes: the original's
      directory, the new name and the original's extension. */
  function RenameTarget(originalPath: string, newFilename: string): string {
    Join(DirName(originalPath), newFilename + Ext(originalPath))
  }

  /** `rename_file`. `moveError` is the error `shutil.move` raises, if any;
      moving onto an existing path replaces it. */
  function RenameFile(cfg: HandlerConfig, originalPath: string, newFilename: string, fs: set<string>,
                      timestamp: string, md5Hex: string -> string, moveError: Option<string>): (r: Result<Renamed, string>)
    ensures originalPath !in fs ==> r == Failure("File not found: " + originalPath)
    ensures r.Success? ==>
      && ResolveConflict(cfg, RenameTarget(originalPath, newFilename), fs, timestamp, md5Hex) == Success(r.value.newPath)
      && r.value.fs == fs - {originalPath} + {r.value.newPath}
    ensures (moveError.Some? && originalPath in fs
             && ResolveConflict(cfg, RenameTarget(originalPath, newFilename), fs, timestamp, md5Hex).Success?) ==>
      r == Failure("Failed to rename file: " + moveError.value)
    ensures originalPath in fs && moveError.None? ==>
      (r.Success? <==> ResolveConflict(cfg, RenameTarget(originalPath, newFilename), fs, timestamp, md5Hex).Success?)
    ensures originalPath in fs && ResolveConflict(cfg, RenameTarget(originalPath, newFilename), fs, timestamp, md5Hex).Failure? ==>
      r == Failure(ResolveConflict(cfg, RenameTarget(originalPath, newFilename), fs, timestamp, md5Hex).error)
  {
    if originalPath !in fs then Failure("File not found: " + originalPath)
    else
      match ResolveConflict(cfg, RenameTarget(originalPath, newFilename), fs, timestamp, md5Hex)
      case Failure(e) => Failure(e)
      case Success(p) =>
        match moveError
        case Some(e) => Failure("Failed to rename file: " + e)
        case None => Success(Renamed(p, fs - {originalPath} + {p}))
  }

  /** With the `version` strategy a rename loses no file: the new path was
      free, the original is gone, and the number of files is unchanged. */
  lemma RenameVersionKeepsEveryFile(cfg: HandlerConfig, originalPath: string, newFilename: string, fs: set<string>,
                                    timestamp: string, md5Hex: string -> string)
    requires cfg.conflictStrategy == "version"
    requires RenameFile(cfg, originalPath, newFilename, fs, timestamp, md5Hex, None).Success?
    ensures var r := RenameFile(cfg, originalPath, newFilename, fs, timestamp, md5Hex, None).value;
      && r.newPath !in fs && originalPath in fs
      && r.newPath in r.fs && originalPath !in r.fs
      && |r.fs| == |fs|
  {
    var r := RenameFile(cfg, originalPath, newFilename, fs, timestamp, md5Hex, None).value;
    assert r.newPath != originalPath;
    assert fs - {originalPath} + {r.newPath} == (fs - {originalPath}) + {r.newPath};
  }

  /** A move onto a path that already holds another file replaces it: one
      file is lost. With `timestamp` or `hash` this happens whenever the
      suffixed path is taken. */
  lemma RenameOntoTakenPathLosesFile(cfg: HandlerConfig, originalPath: string, newFilename: string, fs: set<string>,
                                     timestamp: string, md5Hex: string -> string)
    requires RenameFile(cfg, originalPath, newFilename, fs, timestamp, md5Hex, None).Success?
    requires var r := RenameFile(cfg, originalPath, newFilename, fs, timestamp, md5Hex, None).value;
      r.newPath in fs && r.newPath != originalPath
    ensures |RenameFile(cfg, originalPath, newFilename, fs, timestamp, md5Hex, None).value.fs| == |fs| - 1
  {
    var r := RenameFile(cfg, originalPath, newFilename, fs, timestamp, md5Hex, None);
    MoveOntoTaken(fs, originalPath, r.value.newPath);
  }

  /** Moving a present file onto another present path leaves one file fewer. */
  lemma MoveOntoTaken(fs: set<string>, a: string, b: string)
    requires a in fs && b in fs && a != b
    ensures |fs - {a} + {b}| == |fs| - 1
  {
    assert fs - {a} + {b} == fs - {a};
  }

  /** The rename target of a slash-free name with a stem keeps the
      original's directory and extension. */
  lemma TargetShape(originalPath: string, newFilename: string)
    requires '/' !in newFilename && exists k :: 0 <= k < |newFilename| && newFilename[k] != '.'
    requires Ext(originalPath) != []
    ensures var t, ext := RenameTarget(originalPath, newFilename), Ext(originalPath);
      && DirName(t) == DirName(originalPath)
      && BaseName(t) == newFilename + ext
      && Root(BaseName(t)) == newFilename && Ext(BaseName(t)) == ext
      && Ext(t) == ext
  {
    var ext := Ext(originalPath);
    JoinSplits(DirName(originalPath), newFilename + ext);
    SplitStemExt(newFilename, ext);
    ExtOfBaseName(RenameTarget(originalPath, newFilename));
  }

  /** A version candidate keeps the directory and the extension. */
  lemma VersionShape(dir: string, name: string, ext: string, k: nat)
    requires IsDirName(dir)
    requires '/' !in name && exists i :: 0 <= i < |name| && name[i] != '.'
    requires ext != [] && ext[0] == '.' && '.' !in ext[1..] && '/' !in ext
    ensures var p := VersionPath(dir, name, ext, k);
      && DirName(p) == dir
      && BaseName(p) == name + "_v" + NatToString(k) + ext
      && Ext(p) == ext
  {
    var stem := name + "_v" + NatToString(k);
    assert stem + ext == name + "_v" + NatToString(k) + ext;
    var j :| 0 <= j < |name| && name[j] != '.';
    assert stem[j] != '.';
    assert '/' !in stem by {
      forall i | 0 <= i < |stem|
        ensures stem[i] != '/'
      {
        if i >= |name| + 2 {
          assert IsAsciiDigit(stem[i]);
        }
      }
    }
    JoinSplits(dir, stem + ext);
    SplitStemExt(stem, ext);
    ExtOfBaseName(VersionPath(dir, name, ext, k));
  }

  /** Where a successful `version` rename puts the file: in the original's
      directory, with the original's extension, named by the new name,
      followed by `_v{k}` when that name was taken. */
  lemma RenameVersionShape(cfg: HandlerConfig, originalPath: string, newFilename: string, fs: set<string>,
                           timestamp: string, md5Hex: string -> string)
    requires cfg.conflictStrategy == "version"
    requires '/' !in newFilename && exists k :: 0 <= k < |newFilename| && newFilename[k] != '.'
    requires Ext(originalPath) != []
    requires RenameFile(cfg, originalPath, newFilename, fs, timestamp, md5Hex, None).Success?
    ensures var p, ext := RenameFile(cfg, originalPath, newFilename, fs, timestamp, md5Hex, None).value.newPath, Ext(originalPath);
      && DirName(p) == DirName(originalPath)
      && Ext(p) == ext
      && (BaseName(p) == newFilename + ext
          || exists k: nat :: k >= 2 && BaseName(p) == newFilename + "_v" + NatToString(k) + ext)
  {
    var p := RenameFile(cfg, originalPath, newFilename, fs, timestamp, md5Hex, None).value.newPath;
    var dir, ext := DirName(originalPath), Ext(originalPath);
    var target := RenameTarget(originalPath, newFilename);
    TargetShape(originalPath, newFilename);
    assert ResolveConflict(cfg, target, fs, timestamp, md5Hex) == Success(p);
    if target in fs {
      VersionIsLeastFree(cfg, target, fs, timestamp, md5Hex);
      var k: nat :| k >= 2 && ResolveConflict(cfg, target, fs, timestamp, md5Hex) == Success(VersionPath(dir, newFilename, ext, k));
      VersionShape(dir, newFilename, ext, k);
    }
  }
}

=== FILE: metadata_extractor.dfy ===
/** The metadata extractor: dates (de-duplicated, first wins, with the file's
    modification time as fallback), organisation and person names (first
    matching pattern wins) and a frequency-ranked keyword list.

    The date and entity regular expressions and the date parser are not
    modelled: their results are inputs. For dates, `perPattern[p]` lists the
    text matched by the p-th date pattern, in text order, and `parse` is the
    parser followed by the output formatter (`None` when parsing raises). For
    entities, each pattern's `re.search` result is an `EntityMatch`. */
module MetadataExtractor {
  import opened Wrappers
  import opened PyText
  import opened StableSort

  /** The metadata dictionary: its string-or-None entries, and the
      `keywords` entry, present only when some keyword was found. */
  datatype Metadata = Metadata(fields: map<string, Option<string>>, keywords: Option<seq<string>>)

  datatype ExtractorConfig = ExtractorConfig(maxKeywords: int, useFileDateFallback: bool)

  const DefaultConfig := ExtractorConfig(3, true)

  /** The result of `re.search` for one entity pattern: no match, or a match
      whose group 1 took part (`Some`) or did not (`None`). */
  datatype EntityMatch = NoMatch | Matched(group: Option<string>)

  // ---------------------------------------------------------------- dates

  function Flatten(xss: seq<seq<string>>): (r: seq<string>)
    ensures forall x :: x in r <==> exists p :: 0 <= p < |xss| && x in xss[p]
  {
    if xss == [] then []
    else
      assert forall p :: 1 <= p < |xss| ==> xss[p] == xss[1..][p - 1];
      xss[0] + Flatten(xss[1..])
  }

  lemma {:induction false} FlattenSnoc(xss: seq<seq<string>>, xs: seq<string>)
    ensures Flatten(xss + [xs]) == Flatten(xss) + xs
    decreases |xss|
  {
    if xss == [] {
      assert [] + [xs] == [xs];
    } else {
      assert (xss + [xs])[1..] == xss[1..] + [xs];
      FlattenSnoc(xss[1..], xs);
    }
  }

  /** The formatted values of the matches that parse, in order. */
  function Parsed(matches: seq<string>, parse: string -> Option<string>): (r: seq<string>)
    ensures forall d :: d in r <==> exists i :: 0 <= i < |matches| && parse(matches[i]) == Some(d)
  {
    if matches == [] then []
    else
      assert forall i :: 1 <= i < |matches| ==> matches[i] == matches[1..][i - 1];
      (if parse(matches[0]).Some? then [parse(matches[0]).value] else []) + Parsed(matches[1..], parse)
  }

  lemma {:induction false} ParsedSnoc(matches: seq<string>, m: string, parse: string -> Option<string>)
    ensures Parsed(matches + [m], parse) ==
      Parsed(matches, parse) + (if parse(m).Some? then [parse(m).value] else [])
    decreases |matches|
  {
    if matches == [] {
      assert [] + [m] == [m];
      assert [m][1..] == [];
    } else {
      assert (matches + [m])[1..] == matches[1..] + [m];
      ParsedSnoc(matches[1..], m, parse);
    }
  }

  /** The dates `extract_dates` returns: every parsable match, pattern by
      pattern and within a pattern in text order, keeping the first copy of
      each formatted value. */
  function Dates(perPattern: seq<seq<string>>, parse: string -> Option<string>): seq<string> {
    Dedup(Parsed(Flatten(perPattern), parse))
  }

  /** One step of the date loop: a match either adds its formatted value at
      the end, when it parses to a value not yet seen, or changes nothing. */
  lemma DatesStep(seen: seq<string>, m: string, parse: string -> Option<string>)
    ensures var before := Dedup(Parsed(seen, parse));
      Dedup(Parsed(seen + [m], parse)) ==
        if parse(m).Some? && parse(m).value !in before then before + [parse(m).value] else before
  {
    ParsedSnoc(seen, m, parse);
    if parse(m).Some? {
      DedupAppendOne(Parsed(seen, parse), parse(m).value);
    } else {
      assert Parsed(seen + [m], parse) == Parsed(seen, parse);
    }
  }

  /** `extract_dates`, loop for loop. */
  method ExtractDates(perPattern: seq<seq<string>>, parse: string -> Option<string>)
    returns (dates: seq<string>)
    ensures dates == Dates(perPattern, parse)
    ensures Distinct(dates)
    ensures forall d :: d in dates <==> d in Parsed(Flatten(perPattern), parse)
  {
    dates := [];
    ghost var seen: seq<string> := [];
    var p := 0;
    while p < |perPattern|
      invariant 0 <= p <= |perPattern|
      invariant seen == Flatten(perPattern[..p])
      invariant dates == Dedup(Parsed(seen, parse))
    {
      dates := AddPatternDates(dates, seen, perPattern[p], parse);
      TakeNext(perPattern, p);
      FlattenSnoc(perPattern[..p], perPattern[p]);
      seen := seen + perPattern[p];
      p := p + 1;
    }
    TakeAll(perPattern);
  }

  /** The inner loop of `extract_dates`: the matches of one pattern, in
      text order, each added when it parses to a value not yet seen. */
  method AddPatternDates(dates: seq<string>, ghost seen: seq<string>, pattern: seq<string>,
                         parse: string -> Option<string>)
    returns (r: seq<string>)
    requires dates == Dedup(Parsed(seen, parse))
    ensures r == Dedup(Parsed(seen + pattern, parse))
  {
    r := dates;
    AppendTakeNone(seen, pattern);
    var k := 0;
    while k < |pattern|
      invariant 0 <= k <= |pattern|
      invariant r == Dedup(Parsed(seen + pattern[..k], parse))
    {
      var m := pattern[k];
      DatesStep(seen + pattern[..k], m, parse);
      match parse(m) {
        case Some(f) =>
          if f !in r {
            r := r + [f];
          }
        case None =>
      }
      AppendTakeNext(seen, pattern, k);
      k := k + 1;
    }
    TakeAll(pattern);
  }

  /** The document's date is the first match that parses. */
  lemma DatesHead(perPattern: seq<seq<string>>, parse: string -> Option<string>)
    requires Parsed(Flatten(perPattern), parse) != []
    ensures Dates(perPattern, parse) != []
    ensures Dates(perPattern, parse)[0] == Parsed(Flatten(perPattern), parse)[0]
  {
    DedupHead(Parsed(Flatten(perPattern), parse));
  }

  // ------------------------------------------------------------- entities

  /** The value the first matching pattern yields: `None` when no pattern
      matches, the stripped group when the first match has one, and a failure
      (`.strip()` called on `None`) when its group did not take part. */
  function FirstMatch(matches: seq<EntityMatch>): (r: Result<Option<string>, string>)
    ensures (forall j :: 0 <= j < |matches| ==> matches[j] == NoMatch) ==> r == Success(None)
    decreases |matches|
  {
    if matches == [] then Success(None)
    else match matches[0]
      case NoMatch =>
        assert forall j :: 1 <= j < |matches| ==> matches[j] == matches[1..][j - 1];
        FirstMatch(matches[1..])
      case Matched(Some(g)) => Success(Some(Strip(g, Whitespace)))
      case Matched(None) => Failure("'NoneType' object has no attribute 'strip'")
  }

  /** First match wins: the outcome is decided by the earliest pattern that
      matches, and later patterns are not consulted. */
  lemma {:induction false} FirstMatchWins(matches: seq<EntityMatch>, k: nat)
    requires k < |matches| && matches[k].Matched?
    requires forall j :: 0 <= j < k ==> matches[j] == NoMatch
    ensures matches[k].group.Some? ==> FirstMatch(matches) == Success(Some(Strip(matches[k].group.value, Whitespace)))
    ensures matches[k].group.None? ==> FirstMatch(matches).Failure?
    decreases k
  {
    if k > 0 {
      assert matches[1..][k - 1] == matches[k];
      FirstMatchWins(matches[1..], k - 1);
    }
  }

  /** `extract_entities`: both keys are always set, to `None` when nothing
      matched; organisation patterns are tried before person patterns. */
  function ExtractEntities(org: seq<EntityMatch>, person: seq<EntityMatch>): (r: Result<map<string, Option<string>>, string>)
    ensures r.Success? ==> r.value.Keys == {"organization_name", "person_name"}
    ensures r.Success? <==> FirstMatch(org).Success? && FirstMatch(person).Success?
    ensures r.Success? ==>
      r.value["organization_name"] == FirstMatch(org).value && r.value["person_name"] == FirstMatch(person).value
  {
    match FirstMatch(org)
    case Failure(e) => Failure(e)
    case Success(o) =>
      match FirstMatch(person)
      case Failure(e) => Failure(e)
      case Success(p) => Success(map["organization_name" := o, "person_name" := p])
  }

  // ------------------------------------------------------------- keywords

  const StopWords: set<string> := {
    "the", "a", "an", "and", "or", "but", "in", "on", "at", "to", "for",
    "of", "with", "by", "from", "as", "is", "was", "are", "were", "been",
    "be", "have", "has", "had", "do", "does", "did", "will", "would",
    "could", "should", "may", "might", "must", "can", "this", "that",
    "these", "those", "i", "you", "he", "she", "it", "we", "they"
  }

  /** The characters the regex class `\w` matches, for ASCII and Latin-1. */
  predicate IsWordChar(c: char) {
    || IsAsciiLower(c) || IsAsciiUpper(c) || IsAsciiDigit(c) || c == '_'
    || c == '\U{aa}' || c == '\U{b2}' || c == '\U{b3}' || c == '\U{b5}' || c == '\U{b9}'
    || c == '\U{ba}' || c == '\U{bc}' || c == '\U{bd}' || c == '\U{be}'
    || ('\U{c0}' <= c <= '\U{ff}' && c != '\U{d7}' && c != '\U{f7}')
  }

  /** Length of the run of word characters at the start of `s`. */
  function WordRunLength(s: string): (n: nat)
    ensures n <= |s|
    ensures forall i :: 0 <= i < n ==> IsWordChar(s[i])
    ensures n < |s| ==> !IsWordChar(s[n])
  {
    if s == [] || !IsWordChar(s[0]) then 0 else 1 + WordRunLength(s[1..])
  }

  /** The maximal runs of word characters, in order: the candidates that
      `\b...\b` can delimit. */
  function Words(s: string): (ws: seq<string>)
    ensures forall w :: w in ws ==> w != [] && forall i :: 0 <= i < |w| ==> IsWordChar(w[i])
    decreases |s|
  {
    if s == [] then []
    else if !IsWordChar(s[0]) then Words(s[1..])
    else
      var n := WordRunLength(s);
      [s[..n]] + Words(s[n..])
  }

  /** A whole word that `\b[a-z]{4,}\b` matches: four or more letters a-z. */
  predicate IsKeywordShape(w: string) {
    |w| >= 4 && forall i :: 0 <= i < |w| ==> IsAsciiLower(w[i])
  }

  function FilterWords(ws: seq<string>): (r: seq<string>)
    ensures forall w :: w in r <==> w in ws && IsKeywordShape(w) && w !in StopWords
  {
    if ws == [] then []
    else
      assert forall i :: 1 <= i < |ws| ==> ws[i] == ws[1..][i - 1];
      (if IsKeywordShape(ws[0]) && ws[0] !in StopWords then [ws[0]] else []) + FilterWords(ws[1..])
  }

  /** The words counted by `extract_keywords`, in text order, with repeats. */
  function Candidates(text: string): seq<string> {
    FilterWords(Words(Lower(text)))
  }

  /** The frequency dictionary as Python builds it: one entry per distinct
      word, in first-occurrence order, with its count. */
  function FrequencyTable(words: seq<string>): (t: seq<Entry>)
    ensures |t| == |Dedup(words)|
    ensures forall i :: 0 <= i < |t| ==> t[i] == Entry(Dedup(words)[i], Count(words, Dedup(words)[i]))
  {
    var keys := Dedup(words);
    seq(|keys|, i requires 0 <= i < |keys| => Entry(keys[i], Count(words, keys[i])))
  }

  lemma CountSnoc(xs: seq<string>, w: string, x: string)
    ensures Count(xs + [w], x) == Count(xs, x) + (if x == w then 1 else 0)
  {
    CountAppend(xs, [w], x);
    assert [w][1..] == [];
  }

  /** The dictionary and its insertion order after counting `words`. */
  ghost predicate Counted(words: seq<string>, order: seq<string>, freq: map<string, nat>) {
    && order == Dedup(words)
    && (forall w :: w in freq <==> w in order)
    && (forall w :: w in freq ==> freq[w] == Count(words, w))
  }

  /** One word of the counting loop: a known word has its count bumped,
      a new one is appended to the insertion order with count 1. */
  lemma CountStep(prefix: seq<string>, w: string, order: seq<string>, freq: map<string, nat>)
    requires Counted(prefix, order, freq)
    ensures Counted(prefix + [w], if w in freq then order else order + [w],
                    if w in freq then freq[w := freq[w] + 1] else freq[w := 1])
  {
    DedupAppendOne(prefix, w);
    forall x | x in freq || x == w
      ensures Count(prefix + [w], x) == Count(prefix, x) + (if x == w then 1 else 0)
    {
      CountSnoc(prefix, w, x);
    }
  }

  /** The counting loop of `extract_keywords`: a dictionary updated word by
      word, whose insertion order is first occurrence. */
  method CountFrequencies(words: seq<string>) returns (table: seq<Entry>)
    ensures table == FrequencyTable(words)
  {
    var order: seq<string> := [];
    var freq: map<string, nat> := map[];
    var i := 0;
    while i < |words|
      invariant 0 <= i <= |words|
      invariant Counted(words[..i], order, freq)
    {
      var w := words[i];
      CountStep(words[..i], w, order, freq);
      TakeNext(words, i);
      if w in freq {
        freq := freq[w := freq[w] + 1];
      } else {
        order := order + [w];
        freq := freq[w := 1];
      }
      i := i + 1;
    }
    TakeAll(words);
    TableOfCounts(words, order, freq);
    table := TableOf(order, freq);
  }

  /** When the dictionary holds the counts of `words` in first-occurrence
      order, its items are the frequency table. */
  lemma TableOfCounts(words: seq<string>, order: seq<string>, freq: map<string, nat>)
    requires Counted(words, order, freq)
    ensures forall w :: w in order ==> w in freq
    ensures TableOf(order, freq) == FrequencyTable(words)
  {
  }

  /** The dictionary's items in insertion order. */
  function TableOf(order: seq<string>, freq: map<string, nat>): (t: seq<Entry>)
    requires forall w :: w in order ==> w in freq
    ensures |t| == |order|
    ensures forall k :: 0 <= k < |order| ==> t[k] == Entry(order[k], freq[order[k]])
  {
    seq(|order|, k requires 0 <= k < |order| => Entry(order[k], freq[order[k]]))
  }

  function Keys(s: seq<Entry>): (ks: seq<string>)
    ensures |ks| == |s|
    ensures forall i :: 0 <= i < |s| ==> ks[i] == s[i].key
  {
    seq(|s|, i requires 0 <= i < |s| => s[i].key)
  }

  /** The frequency table ranked by the stable descending sort. */
  function Ranked(text: string): seq<Entry> {
    SortDesc(FrequencyTable(Candidates(text)))
  }

  /** The first `limit` words of the ranking of `words` (a Python slice, so
      a negative limit drops words from the end). */
  function TopWords(words: seq<string>, limit: int): seq<string> {
    PyPrefix(Keys(SortDesc(FrequencyTable(words))), limit)
  }

  /** `extract_keywords`: the top words among the whole words of at least
      four letters a-z of the lower-cased text that are not stop words. */
  function ExtractKeywords(text: string, maxKeywords: int): (kw: seq<string>)
    ensures var words := Candidates(text);
      && (maxKeywords >= 0 ==> |kw| == Min(maxKeywords, |Dedup(words)|))
      && (forall w :: w in kw ==> IsKeywordShape(w) && w !in StopWords && w in Words(Lower(text)))
      && DrawnDistinct(words, kw)
      && RankOrder(words, kw)
      && NoneBetterLeftOut(words, kw)
      && (maxKeywords >= 1 ==> (kw == [] <==> words == []))
  {
    TopWordsSpec(Candidates(text), maxKeywords);
    TopWords(Candidates(text), maxKeywords)
  }

  /** The ranking is a non-increasing, key-distinct permutation of the
      frequency table: each ranked word occurs in the input with its count. */
  lemma RankedFacts(words: seq<string>)
    ensures var ranked := SortDesc(FrequencyTable(words));
      && NonIncreasing(ranked)
      && Distinct(Keys(ranked))
      && |ranked| == |Dedup(words)|
      && (forall i :: 0 <= i < |ranked| ==> ranked[i].key in words && ranked[i].weight == Count(words, ranked[i].key))
  {
    var table := FrequencyTable(words);
    var ranked := SortDesc(table);
    SortDescSorted(table);
    assert Keys(table) == Dedup(words);
    forall i | 0 <= i < |ranked|
      ensures ranked[i].key in words && ranked[i].weight == Count(words, ranked[i].key)
    {
      assert ranked[i] in multiset(table);
      var k :| 0 <= k < |table| && table[k] == ranked[i];
      assert Dedup(words)[k] in Dedup(words);
    }
    forall i, j | 0 <= i < j < |ranked|
      ensures Keys(ranked)[i] != Keys(ranked)[j]
    {
      DistinctRanked(table, ranked, i, j);
    }
  }

  /** The ranking is stable: the words of each frequency keep their
      first-occurrence order. */
  lemma RankedStable(words: seq<string>, c: int)
    ensures WithWeight(SortDesc(FrequencyTable(words)), c) == WithWeight(FrequencyTable(words), c)
    ensures Keys(FrequencyTable(words)) == Dedup(words)
  {
    SortDescStable(FrequencyTable(words), c);
  }

  /** Equal counts keep first-occurrence order in the ranking. */
  lemma RankedTies(words: seq<string>, i: nat, j: nat)
    requires var ranked := SortDesc(FrequencyTable(words));
      i < j < |ranked| && ranked[i].weight == ranked[j].weight
    ensures var ranked := SortDesc(FrequencyTable(words));
      IndexOf(words, ranked[i].key) < IndexOf(words, ranked[j].key)
  {
    var table := FrequencyTable(words);
    SortDescTies(table, i, j);
    OriginSpec(table, i);
    OriginSpec(table, j);
    DedupOrder(words, Origin(table, i), Origin(table, j));
  }

  /** Every input word has a place in the ranking. */
  lemma RankOf(words: seq<string>, w: string) returns (r: nat)
    requires w in words
    ensures var ranked := SortDesc(FrequencyTable(words));
      r < |ranked| && ranked[r].key == w
  {
    var table := FrequencyTable(words);
    var k :| 0 <= k < |Dedup(words)| && Dedup(words)[k] == w;
    assert table[k] in multiset(SortDesc(table));
    r :| 0 <= r < |SortDesc(table)| && SortDesc(table)[r] == table[k];
  }

  /** `top` lists distinct words of `words`. */
  predicate DrawnDistinct(words: seq<string>, top: seq<string>) {
    (forall w :: w in top ==> w in words) && Distinct(top)
  }

  /** `top` is in non-increasing count, ties in first-occurrence order. */
  predicate RankOrder(words: seq<string>, top: seq<string>) {
    forall i, j :: 0 <= i < j < |top| ==>
      Count(words, top[i]) > Count(words, top[j])
      || (Count(words, top[i]) == Count(words, top[j]) && IndexOf(words, top[i]) < IndexOf(words, top[j]))
  }

  /** No word of `words` left out of `top` beats one kept: it occurs less
      often, or as often but first occurs later. */
  predicate NoneBetterLeftOut(words: seq<string>, top: seq<string>) {
    forall w, t :: w in words && w !in top && t in top ==>
      Count(words, w) < Count(words, t)
      || (Count(words, w) == Count(words, t) && IndexOf(words, t) < IndexOf(words, w))
  }

  /** How many words `TopWords` keeps: `limit` of the distinct ones, all of
      them when there are fewer, and for a negative limit all but the last
      `-limit`. */
  lemma TopWordsSize(words: seq<string>, limit: int)
    ensures var top, n := TopWords(words, limit), |Dedup(words)|;
      && (limit >= 0 ==> |top| == Min(limit, n))
      && (limit < 0 ==> |top| == if n + limit < 0 then 0 else n + limit)
  {
    RankedFacts(words);
  }

  /** The top words follow the ranking order. */
  lemma TopWordsOrder(words: seq<string>, limit: int)
    ensures RankOrder(words, TopWords(words, limit))
  {
    var ranked := SortDesc(FrequencyTable(words));
    var top := TopWords(words, limit);
    RankedFacts(words);
    forall i, j | 0 <= i < j < |top|
      ensures Count(words, top[i]) > Count(words, top[j])
        || (Count(words, top[i]) == Count(words, top[j]) && IndexOf(words, top[i]) < IndexOf(words, top[j]))
    {
      assert top[i] == ranked[i].key && top[j] == ranked[j].key;
      if ranked[i].weight == ranked[j].weight {
        RankedTies(words, i, j);
      }
    }
  }

  /** One word left out against one kept. */
  lemma TopWordsMaximal(words: seq<string>, limit: int, w: string, t: string)
    requires w in words && w !in TopWords(words, limit) && t in TopWords(words, limit)
    ensures Count(words, w) < Count(words, t)
      || (Count(words, w) == Count(words, t) && IndexOf(words, t) < IndexOf(words, w))
  {
    var ranked := SortDesc(FrequencyTable(words));
    var top := TopWords(words, limit);
    RankedFacts(words);
    var i :| 0 <= i < |top| && top[i] == t;
    assert ranked[i].key == t;
    var r := RankOf(words, w);
    if ranked[i].weight == ranked[r].weight {
      RankedTies(words, i, r);
    }
  }

  /** No word left out of the top words beats one kept. */
  lemma TopWordsNoneBetter(words: seq<string>, limit: int)
    ensures NoneBetterLeftOut(words, TopWords(words, limit))
  {
    forall w, t | w in words && w !in TopWords(words, limit) && t in TopWords(words, limit)
      ensures Count(words, w) < Count(words, t)
        || (Count(words, w) == Count(words, t) && IndexOf(words, t) < IndexOf(words, w))
    {
      TopWordsMaximal(words, limit, w, t);
    }
  }

  /** The top words: for a non-negative limit, `limit` of the distinct
      words or all of them when there are fewer; distinct input words in
      non-increasing count with ties in first-occurrence order; no word
      left out beats a word kept; none exactly when the input is empty
      (for a positive limit). */
  lemma TopWordsSpec(words: seq<string>, limit: int)
    ensures var top := TopWords(words, limit);
      && (limit >= 0 ==> |top| == Min(limit, |Dedup(words)|))
      && DrawnDistinct(words, top)
      && RankOrder(words, top)
      && NoneBetterLeftOut(words, top)
      && (limit >= 1 ==> (top == [] <==> words == []))
  {
    TopWordsSize(words, limit);
    TopWordsShape(words, limit);
    TopWordsOrder(words, limit);
    TopWordsNoneBetter(words, limit);
  }

  /** The shape of the top words: distinct input words in non-increasing
      count, none exactly when the input is empty (for a positive limit). */
  lemma TopWordsShape(words: seq<string>, limit: int)
    ensures var top := TopWords(words, limit);
      && DrawnDistinct(words, top)
      && (forall i, j :: 0 <= i < j < |top| ==> Count(words, top[i]) >= Count(words, top[j]))
      && (limit >= 1 ==> (top == [] <==> words == []))
  {
    var ranked := SortDesc(FrequencyTable(words));
    var top := TopWords(words, limit);
    RankedFacts(words);
    var n := PyIndex(limit, |ranked|);
    assert top == Keys(ranked)[..n];
    forall w | w in top
      ensures w in words
    {
      var i :| 0 <= i < |top| && top[i] == w;
      assert w == ranked[i].key;
    }
    forall i, j | 0 <= i < j < |top|
      ensures Count(words, top[i]) >= Count(words, top[j]) && top[i] != top[j]
    {
      assert top[i] == Keys(ranked)[i] && top[j] == Keys(ranked)[j];
    }
    if words != [] {
      assert words[0] in Dedup(words);
    }
  }

  /** A permutation of a table with distinct keys has distinct keys. */
  lemma DistinctRanked(table: seq<Entry>, ranked: seq<Entry>, i: nat, j: nat)
    requires multiset(ranked) == multiset(table) && Distinct(Keys(table))
    requires i < j < |ranked|
    ensures ranked[i].key != ranked[j].key
  {
    assert ranked[i] in multiset(table) && ranked[j] in multiset(table);
    var a :| 0 <= a < |table| && table[a] == ranked[i];
    var b :| 0 <= b < |table| && table[b] == ranked[j];
    if a == b {
      MultisetTwoPositions(ranked, i, j);
      assert multiset(table)[table[a]] >= 2;
      CountOnce(table, a);
    } else {
      assert Keys(table)[a] != Keys(table)[b];
    }
  }

  /** An element at two positions occurs at least twice. */
  lemma MultisetTwoPositions(s: seq<Entry>, i: nat, j: nat)
    requires i < j < |s| && s[i] == s[j]
    ensures multiset(s)[s[i]] >= 2
  {
    assert s == s[..i] + [s[i]] + s[i + 1..j] + [s[j]] + s[j + 1..];
  }

  /** In a table with distinct keys every entry occurs once. */
  lemma {:induction false} CountOnce(table: seq<Entry>, a: nat)
    requires a < |table| && Distinct(Keys(table))
    ensures multiset(table)[table[a]] == 1
    decreases |table|
  {
    var t := table;
    assert t == t[..a] + [t[a]] + t[a + 1..];
    forall k | 0 <= k < |t| && k != a
      ensures t[k] != t[a]
    {
      assert Keys(t)[k] != Keys(t)[a];
    }
    assert t[a] !in t[..a];
    assert t[a] !in t[a + 1..];
  }

  // --------------------------------------------------------------- extract

  /** Whether the date fallback applies: no date was found, the flag is on
      and a file path was given (`file_path` is truthy). */
  predicate UsesFileDate(cfg: ExtractorConfig, dates: seq<string>, filePath: Option<string>) {
    dates == [] && cfg.useFileDateFallback && filePath.Some? && filePath.value != ""
  }

  /** The date entries of `extract`: `date` is the first extracted date;
      only when there is none, the fallback is on and a path is given is it
      the file's time, which then also becomes `file_modified_date`. Reading
      that time is the only date step that can fail. */
  function DateFields(cfg: ExtractorConfig, dates: seq<string>, filePath: Option<string>,
                      mtime: Result<string, string>): (r: Result<map<string, Option<string>>, string>)
    ensures r.Failure? <==> UsesFileDate(cfg, dates, filePath) && mtime.Failure?
    ensures r.Success? ==> r.value.Keys <= {"date", "file_modified_date"}
    ensures r.Success? && dates != [] ==> r.value == map["date" := Some(dates[0])]
    ensures r.Success? && UsesFileDate(cfg, dates, filePath) ==>
      r.value == map["date" := Some(mtime.value), "file_modified_date" := Some(mtime.value)]
    ensures r.Success? && dates == [] && !UsesFileDate(cfg, dates, filePath) ==> r.value == map[]
  {
    if dates != [] then Success(map["date" := Some(dates[0])])
    else if UsesFileDate(cfg, dates, filePath) then
      match mtime
      case Success(d) => Success(map["date" := Some(d), "file_modified_date" := Some(d)])
      case Failure(e) => Failure(e)
    else Success(map[])
  }

  /** `extract`. `mtime` is the file's modification time formatted with the
      output date format, or the error that reading it raised. */
  function Extract(cfg: ExtractorConfig, text: string, filePath: Option<string>,
                   dateMatches: seq<seq<string>>, parse: string -> Option<string>,
                   org: seq<EntityMatch>, person: seq<EntityMatch>,
                   mtime: Result<string, string>): (r: Result<Metadata, string>)
    ensures r.Failure? <==>
      (UsesFileDate(cfg, Dates(dateMatches, parse), filePath) && mtime.Failure?)
      || FirstMatch(org).Failure? || FirstMatch(person).Failure?
    ensures r.Success? ==>
      && {"organization_name", "person_name"} <= r.value.fields.Keys
      && r.value.fields.Keys <= {"date", "file_modified_date", "organization_name", "person_name"}
  {
    match DateFields(cfg, Dates(dateMatches, parse), filePath, mtime)
    case Failure(e) => Failure(e)
    case Success(df) =>
      match ExtractEntities(org, person)
      case Failure(e) => Failure(e)
      case Success(entities) =>
        var kw := ExtractKeywords(text, cfg.maxKeywords);
        Success(Metadata(df + entities, if kw != [] then Some(kw) else None))
  }

  /** The date rules of `extract`: `date` is the first extracted date; only
      when there is none, the fallback is on and a path is given does it
      become the file's time, which is then also `file_modified_date`; that
      key is never set otherwise. */
  lemma ExtractDateRules(cfg: ExtractorConfig, text: string, filePath: Option<string>,
                         dateMatches: seq<seq<string>>, parse: string -> Option<string>,
                         org: seq<EntityMatch>, person: seq<EntityMatch>,
                         mtime: Result<string, string>)
    ensures var r, dates := Extract(cfg, text, filePath, dateMatches, parse, org, person, mtime), Dates(dateMatches, parse);
      && (r.Success? && dates != [] ==>
            "date" in r.value.fields && r.value.fields["date"] == Some(dates[0])
            && "file_modified_date" !in r.value.fields)
      && (r.Success? && UsesFileDate(cfg, dates, filePath) ==>
            mtime.Success? && "date" in r.value.fields && "file_modified_date" in r.value.fields
            && r.value.fields["date"] == Some(mtime.value)
            && r.value.fields["file_modified_date"] == Some(mtime.value))
      && (r.Success? && dates == [] && !UsesFileDate(cfg, dates, filePath) ==>
            "date" !in r.value.fields && "file_modified_date" !in r.value.fields)
  {
    var dates := Dates(dateMatches, parse);
    var df := DateFields(cfg, dates, filePath, mtime);
    var en := ExtractEntities(org, person);
    if df.Success? && en.Success? {
      var fields := df.value + en.value;
      assert "date" in fields <==> "date" in df.value;
      assert "file_modified_date" in fields <==> "file_modified_date" in df.value;
      assert "date" in df.value ==> fields["date"] == df.value["date"];
      assert "file_modified_date" in df.value ==> fields["file_modified_date"] == df.value["file_modified_date"];
    }
  }

  /** The entity and keyword rules of `extract`: both entity keys are always
      present; `keywords` is present exactly when the list is non-empty; and
      extraction fails exactly when reading the file time fails during the
      fallback or the first matching entity pattern has no group. */
  lemma ExtractEntityAndKeywordRules(cfg: ExtractorConfig, text: string, filePath: Option<string>,
                                     dateMatches: seq<seq<string>>, parse: string -> Option<string>,
                                     org: seq<EntityMatch>, person: seq<EntityMatch>,
                                     mtime: Result<string, string>)
    ensures var r, dates := Extract(cfg, text, filePath, dateMatches, parse, org, person, mtime), Dates(dateMatches, parse);
      && (r.Failure? <==>
            (UsesFileDate(cfg, dates, filePath) && mtime.Failure?)
            || FirstMatch(org).Failure? || FirstMatch(person).Failure?)
      && (r.Success? ==>
            && "organization_name" in r.value.fields && "person_name" in r.value.fields
            && r.value.fields["organization_name"] == FirstMatch(org).value
            && r.value.fields["person_name"] == FirstMatch(person).value
            && (r.value.keywords.Some? <==> ExtractKeywords(text, cfg.maxKeywords) != [])
            && (r.value.keywords.Some? ==> r.value.keywords.value == ExtractKeywords(text, cfg.maxKeywords)))
  {
  }

  /** A person pattern that matches without its group (the `Mr.`, `Ms.` and
      `Mrs.` alternatives of the second pattern) makes the whole extraction
      fail rather than leave the name unset. */
  lemma HonorificWithoutNameFails(cfg: ExtractorConfig, text: string, filePath: Option<string>,
                                  dateMatches: seq<seq<string>>, parse: string -> Option<string>,
                                  org: seq<EntityMatch>, mtime: Result<string, string>)
    requires FirstMatch(org).Success?
    ensures Extract(cfg, text, filePath, dateMatches, parse, org, [NoMatch, Matched(None)], mtime).Failure?
  {
    FirstMatchWins([NoMatch, Matched(None)], 1);
  }
}

=== FILE: pipeline.dfy ===
/** The pipeline: building the swappable components from the configuration,
    taking one file through extraction, cleaning, metadata, classification,
    naming and renaming, and counting the outcomes over a folder.

    The file system is the set of existing paths and is threaded from one
    file to the next, so a later file sees the renames of earlier ones. What
    the outside world contributes for a file (the extracted text, the regular
    expression matches, the clock, the digest, a failing move) is a `FileIO`
    record. */
module Pipeline {
  import opened Wrappers
  import opened PyText
  import opened PosixPath
  import opened ConfigLoader
  import TextCleaner
  import MetadataExtractor
  import RuleClassifier
  import TemplateGenerator
  import FileHandler

  // ------------------------------------------------------------ components

  datatype ClassifierKind = RuleBased

  datatype GeneratorKind = TemplateBased

  datatype Components = Components(classifier: ClassifierKind, generator: GeneratorKind)

  /** `config.get('classifier', {}).get('type', 'rule_based')`. */
  function ClassifierType(c: Config): string {
    if "classifier" in c.sections then c.classifierType.GetOr("rule_based") else "rule_based"
  }

  /** `config.get('filename_generator', {}).get('type', 'template')`. */
  function GeneratorType(c: Config): string {
    if "filename_generator" in c.sections then c.generatorType.GetOr("template") else "template"
  }

  /** `_initialize_classifier`: only the rule-based classifier exists. */
  function InitClassifier(c: Config): (r: Result<ClassifierKind, string>)
    ensures r.Success? <==> ClassifierType(c) == "rule_based"
    ensures r.Failure? ==> r.error == "Unknown classifier type: " + ClassifierType(c)
  {
    var t := ClassifierType(c);
    if t == "rule_based" then Success(RuleBased)
    else Failure("Unknown classifier type: " + t)
  }

  /** `_initialize_generator`: only the template generator exists. */
  function InitGenerator(c: Config): (r: Result<GeneratorKind, string>)
    ensures r.Success? <==> GeneratorType(c) == "template"
    ensures r.Failure? ==> r.error == "Unknown generator type: " + GeneratorType(c)
  {
    var t := GeneratorType(c);
    if t == "template" then Success(TemplateBased)
    else Failure("Unknown generator type: " + t)
  }

  /** The pipeline's constructor: the configuration is validated when it is
      loaded, then the classifier and the generator are built, in that
      order, and the first error stops construction. A pipeline is built
      exactly when the required sections are there and the types are
      spelled out as `rule_based` and `template`: the validator rejects a
      missing type, so the defaults are never used. */
  function Build(c: Config): (r: Result<Components, string>)
    ensures r.Success? <==>
      HasSections(c.sections) && c.classifierType == Some("rule_based") && c.generatorType == Some("template")
    ensures ValidateConfig(c).Failure? ==> r == Failure(ValidateConfig(c).error)
    ensures ValidateConfig(c).Success? && InitClassifier(c).Failure? ==> r == Failure(InitClassifier(c).error)
  {
    assert RequiredSections[1] == "classifier" && RequiredSections[2] == "filename_generator";
    match ValidateConfig(c)
    case Failure(e) => Failure(e)
    case Success(_) =>
      match InitClassifier(c)
      case Failure(e) => Failure(e)
      case Success(k) =>
        match InitGenerator(c)
        case Failure(e) => Failure(e)
        case Success(g) => Success(Components(k, g))
  }

  /** Without the sections, both components fall back to their defaults. */
  lemma InitDefaults(c: Config)
    requires "classifier" !in c.sections && "filename_generator" !in c.sections
    ensures InitClassifier(c) == Success(RuleBased) && InitGenerator(c) == Success(TemplateBased)
  {
  }

  /** Passing validation does not make a pipeline: a classifier type the
      validator lists but the pipeline cannot build fails construction. */
  lemma ValidatedClassifierMayFail(c: Config)
    requires ValidateConfig(c).Success?
    requires c.classifierType != Some("rule_based")
    ensures Build(c) == Failure("Unknown classifier type: " + c.classifierType.value)
  {
    assert "classifier" in c.sections by { assert RequiredSections[1] == "classifier"; }
  }

  /** The same for the generator, once the classifier is buildable. */
  lemma ValidatedGeneratorMayFail(c: Config)
    requires ValidateConfig(c).Success?
    requires c.classifierType == Some("rule_based") && c.generatorType != Some("template")
    ensures Build(c) == Failure("Unknown generator type: " + c.generatorType.value)
  {
    assert "classifier" in c.sections by { assert RequiredSections[1] == "classifier"; }
    assert "filename_generator" in c.sections by { assert RequiredSections[2] == "filename_generator"; }
  }

  /** For example, `ml` is a valid classifier type that no pipeline builds. */
  lemma MlValidButUnbuildable(sections: set<string>)
    requires HasSections(sections)
    ensures var c := Config(sections, Some("ml"), Some("template"));
      ValidateConfig(c).Success? && Build(c).Failure?
  {
    var c := Config(sections, Some("ml"), Some("template"));
    assert ClassifierTypes[1] == "ml";
    assert GeneratorTypes[0] == "template";
    ValidatedClassifierMayFail(c);
  }

  // ------------------------------------------------------------- one file

  /** The settings the components read from the configuration. */
  datatype Settings = Settings(
    extractor: MetadataExtractor.ExtractorConfig,
    threshold: int,
    templates: map<string, TemplateGenerator.Template>,
    maxLength: int,
    handler: FileHandler.HandlerConfig)

  const DefaultSettings := Settings(MetadataExtractor.DefaultConfig, RuleClassifier.DefaultThreshold,
                                    TemplateGenerator.DefaultTemplates, TemplateGenerator.DefaultMaxLength,
                                    FileHandler.DefaultConfig)

  /** What the world contributes when a file is processed: the format
      extractor's answer (`None` for no text, `Failure` for an error), the
      matches of the date and entity patterns in a text, the date parser,
      the file's modification time, the clock as the generator and the
      conflict resolver format it, the MD5 digest, and the error of the
      move, if any. */
  datatype FileIO = FileIO(
    text: Result<Option<string>, string>,
    dateMatches: string -> seq<seq<string>>,
    parseDate: string -> Option<string>,
    orgMatches: string -> seq<MetadataExtractor.EntityMatch>,
    personMatches: string -> seq<MetadataExtractor.EntityMatch>,
    mtime: Result<string, string>,
    now: string,
    timestamp: string,
    md5Hex: string -> string,
    moveError: Option<string>)

  /** The stages `process_file` calls, one after the other: cleaning,
      metadata extraction (given the cleaned text and the path), the
      classifier, the name generator (given the metadata, the
      classification and the original base name) and the rename (given the
      path, the new name and the file system). */
  datatype Stages = Stages(
    clean: string -> string,
    extract: (string, string, FileIO) -> Result<MetadataExtractor.Metadata, string>,
    classify: string -> RuleClassifier.Classification,
    generate: (MetadataExtractor.Metadata, RuleClassifier.Classification, string, FileIO) -> string,
    rename: (string, string, set<string>, FileIO) -> Result<FileHandler.Renamed, string>)

  /** The stages of a built pipeline: the text cleaner, the metadata
      extractor, the rule-based classifier, the template generator and the
      file handler of this model, with their settings. */
  function Standard(s: Settings): Stages {
    Stages(
      TextCleaner.Clean,
      (t: string, p: string, io: FileIO) =>
        MetadataExtractor.Extract(s.extractor, t, Some(p), io.dateMatches(t), io.parseDate,
                                  io.orgMatches(t), io.personMatches(t), io.mtime),
      (t: string) => RuleClassifier.Classify(t, s.threshold),
      (md: MetadataExtractor.Metadata, cls: RuleClassifier.Classification, original: string, io: FileIO) =>
        TemplateGenerator.Generate(s.templates, s.maxLength, md.fields, cls.documentType, original, io.now),
      (p: string, name: string, fs: set<string>, io: FileIO) =>
        FileHandler.RenameFile(s.handler, p, name, fs, io.timestamp, io.md5Hex, io.moveError))
  }

  /** The result dictionary of `process_file`, by status. */
  datatype Outcome =
    | Succeeded(original: string, newName: string,
                classification: RuleClassifier.Classification, metadata: MetadataExtractor.Metadata)
    | Skipped(reason: string)
    | Failed(error: string)

  /** An outcome and the file system after it. */
  datatype Step = Step(outcome: Outcome, fs: set<string>)

  /** `extract_text`: a missing file is an error; otherwise the format
      extractor answers. */
  function ExtractText(path: string, fs: set<string>, text: Result<Option<string>, string>): (r: Result<Option<string>, string>)
    ensures path !in fs ==> r == Failure("File not found: " + path)
    ensures path in fs ==> r == text
  {
    if path !in fs then Failure("File not found: " + path) else text
  }

  /** Python's truth value of the extracted text. */
  predicate HasText(raw: Option<string>) {
    raw.Some? && raw.value != []
  }

  /** `process_file`: every error of a stage becomes a failed outcome. */
  function ProcessFile(st: Stages, path: string, fs: set<string>, io: FileIO): (r: Step)
    ensures !r.outcome.Succeeded? ==> r.fs == fs
    ensures r.outcome.Skipped? <==> path in fs && io.text.Success? && !HasText(io.text.value)
    ensures r.outcome.Skipped? ==> r.outcome.reason == "empty_text"
    ensures path !in fs ==> r.outcome == Failed("File not found: " + path)
    ensures path in fs && io.text.Failure? ==> r.outcome == Failed(io.text.error)
    ensures r.outcome.Succeeded? ==> path in fs && r.outcome.original == BaseName(path)
    ensures r.outcome.Succeeded? ==> io.text.Success? && HasText(io.text.value)
    ensures path in fs && io.text.Success? && HasText(io.text.value) ==>
      var cleaned := st.clean(io.text.value.value);
      var ex := st.extract(cleaned, path, io);
      && (ex.Failure? ==> r.outcome == Failed(ex.error))
      && (ex.Success? ==>
            var rn := st.rename(path, st.generate(ex.value, st.classify(cleaned), BaseName(path), io), fs, io);
            && (rn.Failure? ==> r.outcome == Failed(rn.error))
            && (rn.Success? ==> r.outcome.Succeeded? && r.fs == rn.value.fs
                                && r.outcome.newName == BaseName(rn.value.newPath)))
  {
    var original := BaseName(path);
    match ExtractText(path, fs, io.text)
    case Failure(e) => Step(Failed(e), fs)
    case Success(raw) =>
      if !HasText(raw) then Step(Skipped("empty_text"), fs)
      else
        var cleaned := st.clean(raw.value);
        match st.extract(cleaned, path, io)
        case Failure(e) => Step(Failed(e), fs)
        case Success(md) =>
          var cls := st.classify(cleaned);
          var name := st.generate(md, cls, original, io);
          match st.rename(path, name, fs, io)
          case Failure(e) => Step(Failed(e), fs)
          case Success(rn) => Step(Succeeded(original, BaseName(rn.newPath), cls, md), rn.fs)
  }

  /** A success went through every stage in order on the cleaned text: the
      classification and metadata are those of the cleaned text, the name
      was generated from them, the file was moved where the rename put it,
      and the reported new name is that path's base name. */
  lemma SuccessRanEveryStage(st: Stages, path: string, fs: set<string>, io: FileIO)
    requires ProcessFile(st, path, fs, io).outcome.Succeeded?
    ensures io.text.Success? && HasText(io.text.value)
    ensures var cleaned, r := st.clean(io.text.value.value), ProcessFile(st, path, fs, io);
      var o := r.outcome;
      && st.extract(cleaned, path, io) == Success(o.metadata)
      && o.classification == st.classify(cleaned)
      && var rn := st.rename(path, st.generate(o.metadata, o.classification, BaseName(path), io), fs, io);
         rn.Success? && o.newName == BaseName(rn.value.newPath) && r.fs == rn.value.fs
  {
  }

  /** An empty extraction stops the file before any other stage: the
      outcome is the same whatever the other stages would do. */
  lemma EmptyTextSkipsEveryStage(st: Stages, other: Stages, path: string, fs: set<string>, io: FileIO)
    requires path in fs && io.text.Success? && !HasText(io.text.value)
    ensures ProcessFile(st, path, fs, io) == ProcessFile(other, path, fs, io) == Step(Skipped("empty_text"), fs)
  {
  }

  /** The emptiness check looks at the raw text: a file of spaces is not
      skipped, its cleaned text is empty, and a success classifies it as
      Unknown. */
  lemma BlankTextNotSkipped(s: Settings, path: string, fs: set<string>, io: FileIO)
    requires path in fs && io.text.Success? && HasText(io.text.value)
    requires forall i :: 0 <= i < |io.text.value.value| ==> io.text.value.value[i] == ' '
    ensures !ProcessFile(Standard(s), path, fs, io).outcome.Skipped?
    ensures ProcessFile(Standard(s), path, fs, io).outcome.Succeeded? ==>
      ProcessFile(Standard(s), path, fs, io).outcome.classification == RuleClassifier.UnknownResult
  {
    TextCleaner.CleanOfSpaces(io.text.value.value);
    if ProcessFile(Standard(s), path, fs, io).outcome.Succeeded? {
      SuccessRanEveryStage(Standard(s), path, fs, io);
    }
  }

  /** The metadata extractor never sets `invoice_number`, `amount` or
      `year`, so with the built-in templates every Invoice, Receipt and
      BankStatement is named by the fallback logic. */
  lemma ExtractedMetadataFallsBack(cfg: MetadataExtractor.ExtractorConfig, text: string, filePath: Option<string>,
                                   dateMatches: seq<seq<string>>, parse: string -> Option<string>,
                                   org: seq<MetadataExtractor.EntityMatch>, person: seq<MetadataExtractor.EntityMatch>,
                                   mtime: Result<string, string>, docType: string, now: string)
    requires MetadataExtractor.Extract(cfg, text, filePath, dateMatches, parse, org, person, mtime).Success?
    ensures var m := MetadataExtractor.Extract(cfg, text, filePath, dateMatches, parse, org, person, mtime).value.fields;
      && TemplateGenerator.FillTemplate(TemplateGenerator.DefaultTemplates["Invoice"], m, docType, now)
           == TemplateGenerator.ApplyFallbackLogic(m, docType, now)
      && TemplateGenerator.FillTemplate(TemplateGenerator.DefaultTemplates["Receipt"], m, docType, now)
           == TemplateGenerator.ApplyFallbackLogic(m, docType, now)
      && TemplateGenerator.FillTemplate(TemplateGenerator.DefaultTemplates["BankStatement"], m, docType, now)
           == TemplateGenerator.ApplyFallbackLogic(m, docType, now)
  {
    var m := MetadataExtractor.Extract(cfg, text, filePath, dateMatches, parse, org, person, mtime).value.fields;
    NotExtractedKeys(m);
    TemplateGenerator.DefaultTemplatesNeedUnextractedFields(m, docType, now);
  }

  /** The keys the extractor may set leave out those of the invoice,
      receipt and statement templates. */
  lemma NotExtractedKeys(m: map<string, Option<string>>)
    requires m.Keys <= {"date", "file_modified_date", "organization_name", "person_name"}
    ensures "invoice_number" !in m && "amount" !in m && "year" !in m
  {
    assert "invoice_number"[0] == 'i' && "amount"[0] == 'a' && "year"[0] == 'y';
  }

  /** A rename stage that never changes the number of files. */
  ghost predicate KeepsFileCount(st: Stages) {
    forall p, name, fs, io :: st.rename(p, name, fs, io).Success? ==> |st.rename(p, name, fs, io).value.fs| == |fs|
  }

  /** The file handler with the `version` strategy is such a stage. */
  lemma VersionKeepsFileCount(s: Settings)
    requires s.handler.conflictStrategy == "version"
    ensures KeepsFileCount(Standard(s))
  {
    forall p, name, fs, io | Standard(s).rename(p, name, fs, io).Success?
      ensures |Standard(s).rename(p, name, fs, io).value.fs| == |fs|
    {
      assert io.moveError == None;
      FileHandler.RenameVersionKeepsEveryFile(s.handler, p, name, fs, io.timestamp, io.md5Hex);
    }
  }

  /** With such a rename stage, processing a file keeps the number of
      files, whatever its outcome. */
  lemma ProcessFileKeepsFileCount(st: Stages, path: string, fs: set<string>, io: FileIO)
    requires KeepsFileCount(st)
    ensures |ProcessFile(st, path, fs, io).fs| == |fs|
  {
    if ProcessFile(st, path, fs, io).outcome.Succeeded? {
      SuccessRanEveryStage(st, path, fs, io);
    }
  }

  // ---------------------------------------------------------------- folder

  /** The outcomes of a batch, in file order, and the final file system. */
  datatype Batch = Batch(outcomes: seq<Outcome>, fs: set<string>)

  /** The files processed one after the other, each seeing the file system
      the previous ones left. */
  function Run(st: Stages, files: seq<string>, fs: set<string>, io: string -> FileIO): (b: Batch)
    ensures |b.outcomes| == |files|
    decreases |files|
  {
    if files == [] then Batch([], fs)
    else
      var last := files[|files| - 1];
      var before := Run(st, files[..|files| - 1], fs, io);
      var step := ProcessFile(st, last, before.fs, io(last));
      Batch(before.outcomes + [step.outcome], step.fs)
  }

  /** The statistics dictionary of `process_folder`. */
  datatype Stats = Stats(total: nat, success: nat, failed: nat, skipped: nat)

  /** One more outcome counted: success and skipped by status, anything
      else as failed. */
  function Count(st: Stats, o: Outcome): Stats {
    match o
    case Succeeded(_, _, _, _) => st.(success := st.success + 1)
    case Skipped(_) => st.(skipped := st.skipped + 1)
    case Failed(_) => st.(failed := st.failed + 1)
  }

  /** The counters over a list of outcomes. */
  function Tally(outcomes: seq<Outcome>): (t: Stats)
    ensures t.total == |outcomes|
    ensures t.success + t.failed + t.skipped == |outcomes|
    decreases |outcomes|
  {
    if outcomes == [] then Stats(0, 0, 0, 0)
    else
      var t := Tally(outcomes[..|outcomes| - 1]);
      Count(t, outcomes[|outcomes| - 1]).(total := |outcomes|)
  }

  /** `process_folder` over the files `scan_folder` found: every file adds
      one to exactly one counter, so the counters add up to the total. */
  method ProcessFolder(st: Stages, files: seq<string>, fs: set<string>, io: string -> FileIO)
    returns (stats: Stats, fsAfter: set<string>)
    ensures stats.total == |files|
    ensures stats.success + stats.failed + stats.skipped == stats.total
    ensures stats == Tally(Run(st, files, fs, io).outcomes)
    ensures fsAfter == Run(st, files, fs, io).fs
  {
    stats := Stats(|files|, 0, 0, 0);
    fsAfter := fs;
    ghost var outcomes: seq<Outcome> := [];
    var i := 0;
    while i < |files|
      invariant 0 <= i <= |files|
      invariant Run(st, files[..i], fs, io) == Batch(outcomes, fsAfter)
      invariant stats == Tally(outcomes).(total := |files|)
    {
      var path := files[i];
      var step := ProcessFile(st, path, fsAfter, io(path));
      stats := Count(stats, step.outcome);
      RunNext(st, files, i, fs, io);
      TallyNext(outcomes, step.outcome);
      outcomes := outcomes + [step.outcome];
      fsAfter := step.fs;
      i := i + 1;
    }
    TakeAll(files);
  }

  /** One more file of the batch. */
  lemma RunNext(st: Stages, files: seq<string>, i: nat, fs: set<string>, io: string -> FileIO)
    requires i < |files|
    ensures var b := Run(st, files[..i], fs, io);
      var step := ProcessFile(st, files[i], b.fs, io(files[i]));
      Run(st, files[..i + 1], fs, io) == Batch(b.outcomes + [step.outcome], step.fs)
  {
    assert files[..i + 1][..i] == files[..i];
  }

  /** One more outcome of the batch. */
  lemma TallyNext(outcomes: seq<Outcome>, o: Outcome)
    ensures Tally(outcomes + [o]) == Count(Tally(outcomes), o).(total := |outcomes| + 1)
  {
    assert (outcomes + [o])[..|outcomes|] == outcomes;
  }

  /** With a rename stage that keeps the number of files, so does a batch;
      in particular with the `version` strategy no file is ever lost. */
  lemma {:induction false} RunKeepsFileCount(st: Stages, files: seq<string>, fs: set<string>, io: string -> FileIO)
    requires KeepsFileCount(st)
    ensures |Run(st, files, fs, io).fs| == |fs|
    decreases |files|
  {
    if files != [] {
      var last := files[|files| - 1];
      var before := Run(st, files[..|files| - 1], fs, io);
      RunKeepsFileCount(st, files[..|files| - 1], fs, io);
      ProcessFileKeepsFileCount(st, last, before.fs, io(last));
    }
  }
}

=== FILE: posix_path.dfy ===
/** The parts of Python's `posixpath` the file handler relies on:
    `dirname`, `basename`, `splitext` and two-argument `join`, on plain
    strings with `/` as the only separator. */
module PosixPath {
  import opened PyText

  predicate AllSlashes(s: string) {
    forall i :: 0 <= i < |s| ==> s[i] == '/'
  }

  /** Everything up to and including the last slash. */
  function Head(p: string): (h: string)
    ensures |h| <= |p| && h == p[..|h|]
    ensures h == [] || h[|h| - 1] == '/'
    ensures '/' !in p[|h|..]
  {
    p[..LastIndexOf(p, '/') + 1]
  }

  /** `os.path.basename`: everything after the last slash. */
  function BaseName(p: string): (b: string)
    ensures '/' !in b
    ensures p == Head(p) + b
  {
    p[|Head(p)|..]
  }

  /** What `dirname` can return: empty, only slashes, or not ending in one. */
  predicate IsDirName(d: string) {
    d == [] || AllSlashes(d) || d[|d| - 1] != '/'
  }

  /** `os.path.dirname`: the head, without its trailing slashes unless it
      is made of slashes only. */
  function DirName(p: string): (d: string)
    ensures IsDirName(d)
    ensures |d| <= |Head(p)| && d == p[..|d|]
  {
    var head := Head(p);
    if head != [] && !AllSlashes(head) then StripRight(head, {'/'}) else head
  }

  /** Where `splitext` cuts: the last dot after the last slash, provided
      the file name has something other than dots before it; `|p|` when
      there is no extension. */
  function ExtStart(p: string): (i: nat)
    ensures i <= |p|
    ensures i < |p| ==> p[i] == '.' && '.' !in p[i + 1..] && '/' !in p[i..]
  {
    var sep := LastIndexOf(p, '/');
    var dot := LastIndexOf(p, '.');
    if dot > sep && HasNonDot(p, sep + 1, dot) then dot else |p|
  }

  /** Some character of `p[lo..hi]` is not a dot. */
  predicate HasNonDot(p: string, lo: int, hi: int)
    requires 0 <= lo <= hi <= |p|
  {
    exists k :: lo <= k < hi && p[k] != '.'
  }

  /** `os.path.splitext(p)[0]`. */
  function Root(p: string): string {
    p[..ExtStart(p)]
  }

  /** `os.path.splitext(p)[1]`: empty, or a dot followed by neither dots
      nor slashes. */
  function Ext(p: string): (e: string)
    ensures Root(p) + e == p
    ensures e == [] || (e[0] == '.' && '.' !in e[1..] && '/' !in e)
  {
    p[ExtStart(p)..]
  }

  /** `os.path.join(a, b)`. */
  function Join(a: string, b: string): (r: string)
    ensures |b| > 0 && b[0] == '/' ==> r == b
    ensures !(|b| > 0 && b[0] == '/') ==> exists pre :: r == pre + b && JoinPrefix(a, pre)
  {
    if |b| > 0 && b[0] == '/' then b
    else
      var pre := if a == [] || a[|a| - 1] == '/' then a else a + "/";
      assert JoinPrefix(a, pre);
      pre + b
  }

  /** The text `join` puts before a relative second part: `a`, followed by
      a slash unless it is empty or already ends in one. */
  predicate JoinPrefix(a: string, pre: string) {
    pre == (if a == [] || a[|a| - 1] == '/' then a else a + "/")
  }

  /** The head of `pre + b`, when `pre` is empty or ends in a slash and
      `b` has no slash, is `pre`. */
  lemma HeadOfAppend(pre: string, b: string)
    requires pre == [] || pre[|pre| - 1] == '/'
    requires '/' !in b
    ensures Head(pre + b) == pre
  {
    LastIndexOfAppend(pre, b, '/');
    assert (pre + b)[..|pre|] == pre;
  }

  /** Joining a directory name with a slash-free file name and splitting
      the result again gives back both parts. */
  lemma JoinSplits(d: string, b: string)
    requires IsDirName(d) && '/' !in b
    ensures DirName(Join(d, b)) == d
    ensures BaseName(Join(d, b)) == b
  {
    var pre := if d == [] || d[|d| - 1] == '/' then d else d + "/";
    assert Join(d, b) == pre + b by {
      if |b| > 0 { assert b[0] in b; }
    }
    HeadOfAppend(pre, b);
    DirNameOfPrefix(d, pre);
  }

  /** The directory name of the text `join` puts before a file name is the
      directory name joined. */
  lemma DirNameOfPrefix(d: string, pre: string)
    requires IsDirName(d) && JoinPrefix(d, pre)
    ensures pre == [] || pre[|pre| - 1] == '/'
    ensures Head(pre) == pre ==> (if pre != [] && !AllSlashes(pre) then StripRight(pre, {'/'}) else pre) == d
  {
    if d != [] && d[|d| - 1] != '/' {
      assert pre == d + "/";
      assert pre[|d| - 1] == d[|d| - 1] != '/';
      assert !AllSlashes(pre);
      assert StripRight(pre, {'/'}) == d;
    } else if d != [] {
      assert AllSlashes(d) && pre == d;
    }
  }

  /** `splitext` looks only at the part after the last slash: prefixing a
      directory that is empty or ends in a slash shifts the cut. */
  lemma ExtStartShift(pre: string, x: string)
    requires pre == [] || pre[|pre| - 1] == '/'
    requires '/' !in x
    ensures ExtStart(pre + x) == |pre| + ExtStart(x)
  {
    var p := pre + x;
    LastIndexOfAppend(pre, x, '/');
    LastIndexOfAppend(pre, x, '.');
    var sep := LastIndexOf(p, '/');
    var dot := LastIndexOf(p, '.');
    assert sep == |pre| - 1;
    if '.' in x {
      var dx := LastIndexOf(x, '.');
      assert dot == |pre| + dx;
      assert HasNonDot(p, sep + 1, dot) <==> HasNonDot(x, 0, dx) by {
        forall k | 0 <= k < dx
          ensures p[|pre| + k] == x[k]
        {
        }
        if HasNonDot(x, 0, dx) {
          var k :| 0 <= k < dx && x[k] != '.';
          assert p[|pre| + k] != '.';
        }
        if HasNonDot(p, sep + 1, dot) {
          var k :| sep + 1 <= k < dot && p[k] != '.';
          assert x[k - |pre|] != '.';
        }
      }
    } else {
      assert dot <= sep;
    }
  }

  /** `splitext` of a whole path agrees with `splitext` of its base name. */
  lemma ExtOfBaseName(p: string)
    ensures Ext(p) == Ext(BaseName(p))
  {
    ExtStartShift(Head(p), BaseName(p));
  }

  /** A file name made of a stem with a non-dot character and an extension
      as `splitext` produces splits back into the two. */
  lemma SplitStemExt(stem: string, ext: string)
    requires '/' !in stem && exists k :: 0 <= k < |stem| && stem[k] != '.'
    requires ext != [] && ext[0] == '.' && '.' !in ext[1..] && '/' !in ext
    ensures Ext(stem + ext) == ext && Root(stem + ext) == stem
  {
    var x := stem + ext;
    LastIndexOfAppend(stem, ext, '/');
    LastIndexOfAppend(stem, ext, '.');
    assert '.' in ext;
    var de := LastIndexOf(ext, '.');
    forall j | 1 <= j < |ext|
      ensures ext[j] != '.'
    {
      assert ext[j] == ext[1..][j - 1];
    }
    assert de == 0;
    var k :| 0 <= k < |stem| && stem[k] != '.';
    assert x[k] != '.';
    assert HasNonDot(x, 0, |stem|);
    assert ExtStart(x) == |stem|;
  }
}

=== FILE: pytext.dfy ===
/** The handful of Python `str` and `list` primitives the renamer relies on,
    written out over `seq<char>`: lower-casing, substring search, `strip`,
    run collapsing, de-duplication, slicing with Python's bound rules and
    decimal rendering of integers. */
module PyText {

  /** The characters Python's `str.isspace` accepts (and so `str.strip()` and
      the regex class `\s` remove). */
  const Whitespace: set<char> := {
    '\t', '\n', '\U{0b}', '\U{0c}', '\r', '\U{1c}', '\U{1d}', '\U{1e}', '\U{1f}', ' ',
    '\U{85}', '\U{a0}', '\U{1680}',
    '\U{2000}', '\U{2001}', '\U{2002}', '\U{2003}', '\U{2004}', '\U{2005}',
    '\U{2006}', '\U{2007}', '\U{2008}', '\U{2009}', '\U{200a}',
    '\U{2028}', '\U{2029}', '\U{202f}', '\U{205f}', '\U{3000}'
  }

  predicate IsAsciiUpper(c: char) {
    'A' <= c <= 'Z'
  }

  predicate IsAsciiLower(c: char) {
    'a' <= c <= 'z'
  }

  predicate IsAsciiDigit(c: char) {
    '0' <= c <= '9'
  }

  function LowerChar(c: char): (r: char)
    ensures !IsAsciiUpper(r)
    ensures IsAsciiUpper(c) ==> IsAsciiLower(r) && r as int == c as int + 32
    ensures !IsAsciiUpper(c) ==> r == c
  {
    if IsAsciiUpper(c) then (c as int + 32) as char else c
  }

  /** `str.lower()`, restricted to the ASCII letters. */
  function Lower(s: string): (r: string)
    ensures |r| == |s|
    ensures forall i :: 0 <= i < |s| ==> r[i] == LowerChar(s[i])
  {
    seq(|s|, i requires 0 <= i < |s| => LowerChar(s[i]))
  }

  lemma LowerIdempotent(s: string)
    ensures Lower(Lower(s)) == Lower(s)
  {
  }

  predicate StartsWith(s: string, prefix: string) {
    |prefix| <= |s| && s[..|prefix|] == prefix
  }

  /** Python's `needle in hay` for strings: substring containment, with no
      notion of word boundaries. */
  function Contains(hay: string, needle: string): bool
    decreases |hay|
  {
    if StartsWith(hay, needle) then true
    else if hay == [] then false
    else Contains(hay[1..], needle)
  }

  /** `needle` sits in `hay` at position `i`. */
  predicate OccursAt(hay: string, needle: string, i: int) {
    0 <= i && i + |needle| <= |hay| && hay[i..i + |needle|] == needle
  }

  /** A string that has `needle` at some position contains it. */
  lemma {:induction false} ContainsAt(hay: string, needle: string, i: int)
    requires OccursAt(hay, needle, i)
    ensures Contains(hay, needle)
    decreases i
  {
    if i > 0 && !StartsWith(hay, needle) {
      forall k | 0 <= k < |needle|
        ensures hay[1..][i - 1..i - 1 + |needle|][k] == needle[k]
      {
        assert hay[i..i + |needle|][k] == needle[k];
      }
      assert hay[1..][i - 1..i - 1 + |needle|] == needle;
      ContainsAt(hay[1..], needle, i - 1);
    }
  }

  /** `Contains` agrees with the positional definition of a substring. */
  lemma {:induction false} ContainsIff(hay: string, needle: string)
    ensures Contains(hay, needle) <==> exists i :: OccursAt(hay, needle, i)
    decreases |hay|
  {
    if StartsWith(hay, needle) {
      assert OccursAt(hay, needle, 0);
    } else if hay != [] {
      ContainsIff(hay[1..], needle);
      if Contains(hay, needle) {
        var i :| OccursAt(hay[1..], needle, i);
        assert hay[i + 1..i + 1 + |needle|] == hay[1..][i..i + |needle|];
        assert OccursAt(hay, needle, i + 1);
      }
    }
    forall i | OccursAt(hay, needle, i)
      ensures Contains(hay, needle)
    {
      ContainsAt(hay, needle, i);
    }
  }

  /** Taking one more element of a sequence appends that element. */
  lemma TakeNext<T>(s: seq<T>, i: nat)
    requires i < |s|
    ensures s[..i + 1] == s[..i] + [s[i]]
  {
  }

  lemma TakeAll<T>(s: seq<T>)
    ensures s[..|s|] == s
  {
  }

  /** `TakeNext` behind a fixed prefix `a`. */
  lemma AppendTakeNext<T>(a: seq<T>, s: seq<T>, i: nat)
    requires i < |s|
    ensures a + s[..i + 1] == (a + s[..i]) + [s[i]]
  {
    TakeNext(s, i);
  }

  lemma AppendTakeNone<T>(a: seq<T>, s: seq<T>)
    ensures a + s[..0] == a
  {
  }

  /** `s.lstrip(chars)`: drops the longest prefix made of `cs`. */
  function StripLeft(s: string, cs: set<char>): (r: string)
    ensures |r| <= |s| && r == s[|s| - |r|..]
    ensures r == [] || r[0] !in cs
    ensures forall i :: 0 <= i < |s| - |r| ==> s[i] in cs
    decreases |s|
  {
    if s != [] && s[0] in cs then StripLeft(s[1..], cs) else s
  }

  /** `s.rstrip(chars)`: drops the longest suffix made of `cs`. */
  function StripRight(s: string, cs: set<char>): (r: string)
    ensures |r| <= |s| && r == s[..|r|]
    ensures r == [] || r[|r| - 1] !in cs
    ensures forall i :: |r| <= i < |s| ==> s[i] in cs
    decreases |s|
  {
    if s != [] && s[|s| - 1] in cs then StripRight(s[..|s| - 1], cs) else s
  }

  /** `s.strip(chars)`. */
  function Strip(s: string, cs: set<char>): string {
    StripRight(StripLeft(s, cs), cs)
  }

  /** The meaning of `strip`: the result is the piece of `s` starting at
      `lo`, neither end of it is in `cs`, and everything cut away on either
      side is in `cs`. */
  lemma StripSpec(s: string, cs: set<char>)
    ensures var r, lo := Strip(s, cs), |s| - |StripLeft(s, cs)|;
      && lo + |r| <= |s| && r == s[lo..lo + |r|]
      && (forall i :: 0 <= i < lo ==> s[i] in cs)
      && (forall i :: lo + |r| <= i < |s| ==> s[i] in cs)
      && (r == [] || (r[0] !in cs && r[|r| - 1] !in cs))
  {
    StripIsSlice(s, cs);
    StripRightCut(s, cs);
    StripEnds(s, cs);
  }

  /** The stripped string is the piece of `s` starting at `lo`. */
  lemma StripIsSlice(s: string, cs: set<char>)
    ensures var r, lo := Strip(s, cs), |s| - |StripLeft(s, cs)|;
      lo + |r| <= |s| && r == s[lo..lo + |r|]
  {
    var l := StripLeft(s, cs);
    PrefixOfSuffix(s, l, StripRight(l, cs));
  }

  /** A prefix of a suffix of `s` is a slice of `s`. */
  lemma PrefixOfSuffix(s: string, l: string, r: string)
    requires |l| <= |s| && l == s[|s| - |l|..]
    requires |r| <= |l| && r == l[..|r|]
    ensures r == s[|s| - |l|..|s| - |l| + |r|]
  {
    var lo := |s| - |l|;
    forall i | 0 <= i < |r|
      ensures r[i] == s[lo + i]
    {
      assert r[i] == l[i];
    }
  }

  /** Everything cut away on the right is in `cs`. */
  lemma StripRightCut(s: string, cs: set<char>)
    ensures var r, lo := Strip(s, cs), |s| - |StripLeft(s, cs)|;
      forall i :: lo + |r| <= i < |s| ==> s[i] in cs
  {
    var l := StripLeft(s, cs);
    CutOfSuffix(s, l, |StripRight(l, cs)|, cs);
  }

  /** What is cut from the end of a suffix of `s` is cut from `s`. */
  lemma CutOfSuffix(s: string, l: string, n: nat, cs: set<char>)
    requires |l| <= |s| && l == s[|s| - |l|..] && n <= |l|
    requires forall i :: n <= i < |l| ==> l[i] in cs
    ensures forall i :: |s| - |l| + n <= i < |s| ==> s[i] in cs
  {
    var lo := |s| - |l|;
    forall i | lo + n <= i < |s|
      ensures s[i] in cs
    {
      assert s[i] == l[i - lo];
    }
  }

  /** Neither end of a stripped string is in `cs`. */
  lemma StripEnds(s: string, cs: set<char>)
    ensures var r := Strip(s, cs); r == [] || (r[0] !in cs && r[|r| - 1] !in cs)
  {
    var l := StripLeft(s, cs);
    var r := StripRight(l, cs);
    if r != [] {
      assert r[0] == l[0];
    }
  }

  /** `strip` only removes characters. */
  lemma StripMembers(s: string, cs: set<char>)
    ensures forall x :: x in Strip(s, cs) ==> x in s
  {
    StripIsSlice(s, cs);
    var r, lo := Strip(s, cs), |s| - |StripLeft(s, cs)|;
    forall x | x in r
      ensures x in s
    {
      var i :| 0 <= i < |r| && r[i] == x;
      assert r[i] == s[lo + i];
    }
  }

  /** `strip` joins no two copies of a character. */
  lemma StripNoDoubled(s: string, cs: set<char>, c: char)
    requires NoDoubled(s, c)
    ensures NoDoubled(Strip(s, cs), c)
  {
    StripIsSlice(s, cs);
    var l := StripLeft(s, cs);
    SliceNoDoubled(s, StripRight(l, cs), |s| - |l|, c);
  }

  /** `strip` leaves a string alone when neither end is in `cs`. */
  lemma StripNoop(s: string, cs: set<char>)
    requires s == [] || (s[0] !in cs && s[|s| - 1] !in cs)
    ensures Strip(s, cs) == s
  {
  }

  /** No two adjacent copies of `c`. */
  predicate NoDoubled(s: string, c: char) {
    forall i :: 0 <= i < |s| - 1 ==> !DoubledAt(s, i, c)
  }

  /** Two copies of `c` start at `i`. */
  predicate DoubledAt(s: string, i: nat, c: char)
    requires i + 1 < |s|
  {
    s[i] == c && s[i + 1] == c
  }

  lemma NoDoubledTail(s: string, c: char)
    requires s != [] && NoDoubled(s, c)
    ensures NoDoubled(s[1..], c)
  {
    forall i | 0 <= i < |s[1..]| - 1
      ensures !DoubledAt(s[1..], i, c)
    {
      assert !DoubledAt(s, i + 1, c);
      assert s[1..][i] == s[i + 1] && s[1..][i + 1] == s[i + 2];
    }
  }

  lemma NoDoubledCons(x: char, t: string, c: char)
    requires NoDoubled(t, c) && (t == [] || !(x == c && t[0] == c))
    ensures NoDoubled([x] + t, c)
  {
    var r := [x] + t;
    forall i | 0 <= i < |r| - 1
      ensures !DoubledAt(r, i, c)
    {
      if i > 0 {
        assert !DoubledAt(t, i - 1, c);
        assert r[i] == t[i - 1] && r[i + 1] == t[i];
      }
    }
  }

  /** A piece of a string with no doubled `c` has none either. */
  lemma NoDoubledSlice(s: string, c: char, lo: nat, len: nat)
    requires lo + len <= |s| && NoDoubled(s, c)
    ensures NoDoubled(s[lo..lo + len], c)
  {
    var t := s[lo..lo + len];
    forall i | 0 <= i < |t| - 1
      ensures !DoubledAt(t, i, c)
    {
      assert !DoubledAt(s, lo + i, c);
      assert t[i] == s[lo + i] && t[i + 1] == s[lo + i + 1];
    }
  }

  lemma SliceNoDoubled(s: string, r: string, lo: nat, c: char)
    requires lo + |r| <= |s| && r == s[lo..lo + |r|] && NoDoubled(s, c)
    ensures NoDoubled(r, c)
  {
    NoDoubledSlice(s, c, lo, |r|);
  }

  /** Two strings without doubled `c` join into one, unless the join
      itself puts two copies side by side. */
  lemma NoDoubledAppend(a: string, b: string, c: char)
    requires NoDoubled(a, c) && NoDoubled(b, c)
    requires a == [] || b == [] || !(a[|a| - 1] == c && b[0] == c)
    ensures NoDoubled(a + b, c)
  {
    var r := a + b;
    forall i | 0 <= i < |r| - 1
      ensures !DoubledAt(r, i, c)
    {
      if i + 1 < |a| {
        assert !DoubledAt(a, i, c);
        assert r[i] == a[i] && r[i + 1] == a[i + 1];
      } else if i >= |a| {
        assert !DoubledAt(b, i - |a|, c);
        assert r[i] == b[i - |a|] && r[i + 1] == b[i - |a| + 1];
      } else {
        assert r[i] == a[|a| - 1] && r[i + 1] == b[0];
      }
    }
  }

  /** `s` with every `c` removed. */
  function Without(s: string, c: char): (r: string)
    ensures c !in r
    ensures |r| <= |s|
    ensures forall x :: x != c ==> (x in r <==> x in s)
  {
    if s == [] then [] else (if s[0] == c then [] else [s[0]]) + Without(s[1..], c)
  }

  lemma WithoutCons(x: char, s: string, c: char)
    ensures Without([x] + s, c) == (if x == c then [] else [x]) + Without(s, c)
  {
    assert ([x] + s)[1..] == s;
  }

  /** `re.sub(c + '+', c, s)`: every maximal run of `c` becomes a single `c`.
      The characters other than `c` are untouched, in order. */
  function CollapseRuns(s: string, c: char): (r: string)
    ensures NoDoubled(r, c)
    ensures Without(r, c) == Without(s, c)
    ensures s != [] ==> r != [] && r[0] == s[0]
    ensures s == [] ==> r == []
    ensures |r| <= |s|
    ensures forall x :: x in r <==> x in s
    decreases |s|
  {
    if s == [] then []
    else if |s| >= 2 && s[0] == c && s[1] == c then
      WithoutCons(s[0], s[1..], c);
      assert s == [s[0]] + s[1..];
      CollapseRuns(s[1..], c)
    else
      var rt := CollapseRuns(s[1..], c);
      NoDoubledCons(s[0], rt, c);
      WithoutCons(s[0], rt, c);
      WithoutCons(s[0], s[1..], c);
      assert s == [s[0]] + s[1..];
      [s[0]] + rt
  }

  /** A string with no doubled `c` is a fixed point of `CollapseRuns`. */
  lemma {:induction false} CollapseRunsNoop(s: string, c: char)
    requires NoDoubled(s, c)
    ensures CollapseRuns(s, c) == s
    decreases |s|
  {
    if s != [] {
      NoDoubledTail(s, c);
      CollapseRunsNoop(s[1..], c);
      if |s| >= 2 {
        assert !DoubledAt(s, 0, c);
      }
    }
  }

  /** `s.replace(a, b)` for single characters. */
  function ReplaceChar(s: string, a: char, b: char): (r: string)
    ensures |r| == |s|
    ensures forall i :: 0 <= i < |s| ==> r[i] == (if s[i] == a then b else s[i])
    ensures a !in s ==> r == s
  {
    seq(|s|, i requires 0 <= i < |s| => if s[i] == a then b else s[i])
  }

  /** `s[:k]` with Python's treatment of negative and out-of-range bounds. */
  function PyIndex(k: int, n: nat): (r: nat)
    ensures r <= n
    ensures 0 <= k <= n ==> r == k
    ensures k > n ==> r == n
    ensures k < 0 && n + k >= 0 ==> r == n + k
    ensures k < 0 && n + k < 0 ==> r == 0
  {
    if k < 0 then (if n + k < 0 then 0 else n + k) else (if k > n then n else k)
  }

  function PyPrefix<T>(s: seq<T>, k: int): (r: seq<T>)
    ensures r == s[..PyIndex(k, |s|)]
    ensures k >= 0 ==> |r| <= k
  {
    s[..PyIndex(k, |s|)]
  }

  function PySuffix<T>(s: seq<T>, k: int): (r: seq<T>)
    ensures r == s[PyIndex(k, |s|)..]
  {
    s[PyIndex(k, |s|)..]
  }

  function Min(a: int, b: int): int {
    if a <= b then a else b
  }

  /** Python's two slices around one bound split a sequence: `s[:k]` is its
      first `k` elements and `s[k:]` the rest, and for a negative `k`, `s[k:]`
      is its last `-k` elements (the whole of it when `k` is zero). */
  lemma PySlices<T>(s: seq<T>, k: int)
    ensures PyPrefix(s, k) + PySuffix(s, k) == s
    ensures k >= 0 ==> PyPrefix(s, k) == s[..Min(k, |s|)]
    ensures k > 0 ==> PySuffix(s, -k) == s[|s| - Min(k, |s|)..]
    ensures PySuffix(s, 0) == s
  {
    assert s[..PyIndex(k, |s|)] + s[PyIndex(k, |s|)..] == s;
  }

  /** Number of occurrences of `x` in `xs`. */
  function Count(xs: seq<string>, x: string): (n: nat)
    ensures n <= |xs|
    ensures n > 0 <==> x in xs
  {
    if xs == [] then 0 else (if xs[0] == x then 1 else 0) + Count(xs[1..], x)
  }

  lemma {:induction false} CountAppend(xs: seq<string>, ys: seq<string>, x: string)
    ensures Count(xs + ys, x) == Count(xs, x) + Count(ys, x)
  {
    if xs != [] {
      assert (xs + ys)[1..] == xs[1..] + ys;
      CountAppend(xs[1..], ys, x);
    } else {
      assert xs + ys == ys;
    }
  }

  predicate Distinct(xs: seq<string>) {
    forall i, j :: 0 <= i < j < |xs| ==> xs[i] != xs[j]
  }

  /** First-occurrence de-duplication, as built by the Python idiom
      `if x not in out: out.append(x)`. */
  function Dedup(xs: seq<string>): (r: seq<string>)
    ensures Distinct(r)
    ensures forall x :: x in r <==> x in xs
    ensures |r| <= |xs|
    decreases |xs|
  {
    if xs == [] then []
    else
      var d := Dedup(xs[..|xs| - 1]);
      if xs[|xs| - 1] in d then d else d + [xs[|xs| - 1]]
  }

  /** The first element survives de-duplication in first place. */
  lemma {:induction false} DedupHead(xs: seq<string>)
    requires xs != []
    ensures Dedup(xs) != [] && Dedup(xs)[0] == xs[0]
    decreases |xs|
  {
    if |xs| > 1 {
      var init := xs[..|xs| - 1];
      DedupHead(init);
      assert init[0] == xs[0];
    }
  }

  /** De-duplicating a prefix gives a prefix of the de-duplicated whole. */
  lemma {:induction false} DedupAppendOne(xs: seq<string>, x: string)
    ensures Dedup(xs + [x]) == if x in Dedup(xs) then Dedup(xs) else Dedup(xs) + [x]
  {
    assert (xs + [x])[..|xs + [x]| - 1] == xs;
  }

  /** Position of the first occurrence of `x` in `xs` (`|xs|` when absent):
      `xs.index(x)`. */
  function IndexOf(xs: seq<string>, x: string): (i: nat)
    ensures i <= |xs|
    ensures i < |xs| <==> x in xs
    ensures i < |xs| ==> xs[i] == x
    ensures forall k :: 0 <= k < i ==> xs[k] != x
  {
    if xs == [] then 0
    else if xs[0] == x then 0
    else
      assert forall k :: 1 <= k < |xs| ==> xs[k] == xs[1..][k - 1];
      1 + IndexOf(xs[1..], x)
  }

  /** Appending at the end does not move a first occurrence. */
  lemma IndexOfSnoc(xs: seq<string>, y: string, x: string)
    ensures IndexOf(xs + [y], x) == if x in xs then IndexOf(xs, x) else if x == y then |xs| else |xs| + 1
  {
    var i, j := IndexOf(xs + [y], x), IndexOf(xs, x);
    if x in xs {
      assert (xs + [y])[j] == x;
    } else if x == y {
      assert (xs + [y])[|xs|] == x;
    }
  }

  /** `Dedup` lists the elements in the order of their first occurrence. */
  lemma {:induction false} DedupOrder(xs: seq<string>, p: nat, q: nat)
    requires p < q < |Dedup(xs)|
    ensures IndexOf(xs, Dedup(xs)[p]) < IndexOf(xs, Dedup(xs)[q])
    decreases |xs|
  {
    var init, l := xs[..|xs| - 1], xs[|xs| - 1];
    assert xs == init + [l];
    var d := Dedup(init);
    var a, b := Dedup(xs)[p], Dedup(xs)[q];
    assert a == d[p] && a in d;
    IndexOfSnoc(init, l, a);
    IndexOfSnoc(init, l, b);
    if q < |d| {
      assert b == d[q] && b in d;
      DedupOrder(init, p, q);
    }
  }

  /** `sep.join(parts)`. */
  function JoinWith(parts: seq<string>, sep: string): (r: string)
    ensures parts == [] ==> r == []
    ensures |parts| == 1 ==> r == parts[0]
  {
    if parts == [] then []
    else if |parts| == 1 then parts[0]
    else parts[0] + sep + JoinWith(parts[1..], sep)
  }

  /** Joining two or three parts. */
  lemma JoinWithSmall(parts: seq<string>, sep: string)
    requires 2 <= |parts| <= 3
    ensures |parts| == 2 ==> JoinWith(parts, sep) == parts[0] + sep + parts[1]
    ensures |parts| == 3 ==> JoinWith(parts, sep) == parts[0] + sep + parts[1] + sep + parts[2]
  {
    assert JoinWith(parts, sep) == parts[0] + sep + JoinWith(parts[1..], sep);
    if |parts| == 3 {
      assert JoinWith(parts[1..], sep) == parts[1] + sep + JoinWith(parts[2..], sep);
    }
  }

  function DigitChar(d: nat): (c: char)
    requires d < 10
    ensures IsAsciiDigit(c)
  {
    (48 + d) as char
  }

  /** `str(n)` for a natural number: its decimal digits. */
  function NatToString(n: nat): (r: string)
    ensures 1 <= |r|
    ensures forall i :: 0 <= i < |r| ==> IsAsciiDigit(r[i])
    ensures |r| == 1 <==> n < 10
    decreases n
  {
    if n < 10 then [DigitChar(n)] else NatToString(n / 10) + [DigitChar(n % 10)]
  }

  /** Distinct numbers print differently, so `_v2`, `_v3`, ... never repeat. */
  lemma {:induction false} NatToStringDistinct(a: nat, b: nat)
    requires a != b
    ensures NatToString(a) != NatToString(b)
    decreases a
  {
    if a >= 10 && b >= 10 {
      var s, t := NatToString(a), NatToString(b);
      assert s[..|s| - 1] == NatToString(a / 10) && s[|s| - 1] == DigitChar(a % 10);
      assert t[..|t| - 1] == NatToString(b / 10) && t[|t| - 1] == DigitChar(b % 10);
      if a % 10 == b % 10 {
        NatToStringDistinct(a / 10, b / 10);
      }
    }
  }

  /** The last index of `c` in a concatenation. */
  lemma {:induction false} LastIndexOfAppend(a: string, b: string, c: char)
    ensures LastIndexOf(a + b, c) == if c in b then |a| + LastIndexOf(b, c) else LastIndexOf(a, c)
    decreases |b|
  {
    if b == [] {
      assert a + b == a;
    } else {
      var init := b[..|b| - 1];
      assert (a + b)[..|a + b| - 1] == a + init;
      LastIndexOfAppend(a, init, c);
    }
  }

  /** `s.rfind(c)`: the last index holding `c`, or -1. */
  function LastIndexOf(s: string, c: char): (r: int)
    ensures -1 <= r < |s|
    ensures r == -1 <==> c !in s
    ensures r >= 0 ==> s[r] == c
    ensures forall i :: r < i < |s| ==> s[i] != c
    decreases |s|
  {
    if s == [] then -1
    else if s[|s| - 1] == c then |s| - 1
    else
      var t := s[..|s| - 1];
      assert s == t + [s[|s| - 1]];
      assert forall i :: 0 <= i < |t| ==> t[i] == s[i];
      LastIndexOf(t, c)
  }

  /** Keeps only the characters satisfying `keep`, in order. */
  function Filter(s: string, keep: char -> bool): (r: string)
    ensures |r| <= |s|
  {
    if s == [] then [] else (if keep(s[0]) then [s[0]] else []) + Filter(s[1..], keep)
  }

  /** `Filter` keeps exactly the characters of `s` that satisfy `keep`. */
  lemma {:induction false} FilterMembers(s: string, keep: char -> bool)
    ensures forall x :: x in Filter(s, keep) <==> x in s && keep(x)
    decreases |s|
  {
    if s != [] {
      FilterMembers(s[1..], keep);
      assert forall x :: x in s <==> x == s[0] || x in s[1..];
    }
  }

  /** When every character satisfies `keep`, `Filter` changes nothing. */
  lemma {:induction false} FilterAll(s: string, keep: char -> bool)
    requires forall i :: 0 <= i < |s| ==> keep(s[i])
    ensures Filter(s, keep) == s
    decreases |s|
  {
    if s != [] {
      assert forall i :: 0 <= i < |s[1..]| ==> s[1..][i] == s[i + 1];
      FilterAll(s[1..], keep);
      assert [s[0]] + s[1..] == s;
    }
  }

  /** `Filter` distributes over concatenation. */
  lemma {:induction false} FilterAppend(a: string, b: string, keep: char -> bool)
    ensures Filter(a + b, keep) == Filter(a, keep) + Filter(b, keep)
    decreases |a|
  {
    if a == [] {
      assert a + b == b;
    } else {
      FilterAppend(a[1..], b, keep);
      var h := if keep(a[0]) then [a[0]] else [];
      assert (a + b)[0] == a[0];
      assert (a + b)[1..] == a[1..] + b;
      assert Filter(a + b, keep) == h + Filter(a[1..] + b, keep);
      assert Filter(a, keep) == h + Filter(a[1..], keep);
    }
  }

  /** Filtering by a stricter predicate first changes nothing. */
  lemma {:induction false} FilterFilter(s: string, weak: char -> bool, strict: char -> bool)
    requires forall x :: strict(x) ==> weak(x)
    ensures Filter(Filter(s, weak), strict) == Filter(s, strict)
    decreases |s|
  {
    if s != [] {
      FilterFilter(s[1..], weak, strict);
      FilterAppend(if weak(s[0]) then [s[0]] else [], Filter(s[1..], weak), strict);
    }
  }

  /** Removing a character the filter drops anyway changes nothing. */
  lemma {:induction false} FilterWithout(s: string, c: char, keep: char -> bool)
    requires !keep(c)
    ensures Filter(Without(s, c), keep) == Filter(s, keep)
    decreases |s|
  {
    if s != [] {
      FilterWithout(s[1..], c, keep);
      FilterAppend(if s[0] == c then [] else [s[0]], Without(s[1..], c), keep);
    }
  }

  /** Replacing one dropped character by another changes nothing. */
  lemma {:induction false} FilterReplaceDropped(s: string, a: char, b: char, keep: char -> bool)
    requires !keep(a) && !keep(b)
    ensures Filter(ReplaceChar(s, a, b), keep) == Filter(s, keep)
    decreases |s|
  {
    if s != [] {
      var r := ReplaceChar(s, a, b);
      assert r[1..] == ReplaceChar(s[1..], a, b);
      FilterReplaceDropped(s[1..], a, b, keep);
    }
  }

  lemma {:induction false} FilterNone(s: string, keep: char -> bool)
    requires forall i :: 0 <= i < |s| ==> !keep(s[i])
    ensures Filter(s, keep) == []
    decreases |s|
  {
    if s != [] {
      assert forall i :: 0 <= i < |s[1..]| ==> s[1..][i] == s[i + 1];
      FilterNone(s[1..], keep);
    }
  }

  /** Cutting away a dropped prefix filters the same. */
  lemma {:induction false} FilterDropPrefix(s: string, lo: nat, keep: char -> bool)
    requires lo <= |s|
    requires forall i :: 0 <= i < lo ==> !keep(s[i])
    ensures Filter(s[lo..], keep) == Filter(s, keep)
    decreases lo
  {
    if lo > 0 {
      var t := s[1..];
      assert forall i :: 0 <= i < lo - 1 ==> t[i] == s[i + 1];
      FilterDropPrefix(t, lo - 1, keep);
      assert t[lo - 1..] == s[lo..];
      assert Filter(s, keep) == Filter(t, keep);
    }
  }

  /** Cutting away a dropped suffix filters the same. */
  lemma FilterDropSuffix(s: string, hi: nat, keep: char -> bool)
    requires hi <= |s|
    requires forall i :: hi <= i < |s| ==> !keep(s[i])
    ensures Filter(s[..hi], keep) == Filter(s, keep)
  {
    var t := s[hi..];
    assert forall i :: 0 <= i < |t| ==> t[i] == s[hi + i];
    FilterNone(t, keep);
    assert s == s[..hi] + t;
    FilterAppend(s[..hi], t, keep);
  }

  /** A piece of `s` whose cut-away ends are all dropped filters the same. */
  lemma FilterSlice(s: string, lo: nat, hi: nat, keep: char -> bool, dropped: set<char>)
    requires lo <= hi <= |s|
    requires forall x :: x in dropped ==> !keep(x)
    requires forall i :: 0 <= i < lo ==> s[i] in dropped
    requires forall i :: hi <= i < |s| ==> s[i] in dropped
    ensures Filter(s[lo..hi], keep) == Filter(s, keep)
  {
    var u := s[..hi];
    forall i | hi <= i < |s|
      ensures !keep(s[i])
    {
      assert s[i] in dropped;
    }
    FilterDropSuffix(s, hi, keep);
    forall i | 0 <= i < lo
      ensures !keep(u[i])
    {
      assert u[i] == s[i] && s[i] in dropped;
    }
    FilterDropPrefix(u, lo, keep);
    assert u[lo..] == s[lo..hi];
  }

  /** `replace` works piece by piece over a concatenation. */
  lemma ReplaceCharAppend(s: string, t: string, a: char, b: char)
    ensures ReplaceChar(s + t, a, b) == ReplaceChar(s, a, b) + ReplaceChar(t, a, b)
  {
    var l, r := ReplaceChar(s + t, a, b), ReplaceChar(s, a, b) + ReplaceChar(t, a, b);
    forall i | 0 <= i < |l|
      ensures l[i] == r[i]
    {
      if i < |s| {
        assert (s + t)[i] == s[i];
      } else {
        assert (s + t)[i] == t[i - |s|];
      }
    }
  }

  /** One `c` of a doubled pair can be dropped before collapsing: both
      belong to the same run. */
  lemma {:induction false} CollapseRunsPair(x: string, y: string, c: char)
    ensures CollapseRuns(x + [c, c] + y, c) == CollapseRuns(x + [c] + y, c)
    decreases |x|
  {
    var s, u := x + [c, c] + y, x + [c] + y;
    if x == [] {
      assert s == [c, c] + y && s[1..] == u;
    } else {
      assert s[0] == u[0] == x[0];
      assert s[1..] == x[1..] + [c, c] + y;
      assert u[1..] == x[1..] + [c] + y;
      assert s[1] == u[1];
      CollapseRunsPair(x[1..], y, c);
    }
  }

  lemma ConcatAssoc(a: string, b: string, c: string)
    ensures a + (b + c) == (a + b) + c
  {
  }
}

=== FILE: rule_classifier.dfy ===
/** The rule-based classifier: every document type has required, strong and
    weak keywords; the text is scored against each type by case-insensitive
    substring matching, the types are ranked by a stable descending sort, and
    the best one is kept if it clears the confidence threshold.

    Scores and confidences are integer tenths (`6` is 0.6). */
module RuleClassifier {
  import opened PyText
  import opened StableSort

  datatype Rule = Rule(docType: string, required: seq<string>, strong: seq<string>, weak: seq<string>)

  /** A classification: the document type and its confidence in tenths. */
  datatype Classification = Classification(documentType: string, confidence: int)

  /** What an empty text, or a text whose best score misses the threshold,
      is classified as. */
  const UnknownResult := Classification("Unknown", 1)

  /** The default threshold, 0.5. */
  const DefaultThreshold: int := 5

  /** The rule table, in declaration order (which is also the tie-break order). */
  const Rules: seq<Rule> := [
    Rule("Invoice", ["invoice"], ["invoice", "amount", "total", "due", "bill"],
         ["payment", "price", "cost", "charge"]),
    Rule("Contract", ["agreement", "contract"], ["agreement", "contract", "terms", "conditions", "party"],
         ["signed", "effective", "date"]),
    Rule("ID", ["passport", "license", "identification"],
         ["passport", "driver", "license", "identification", "id number"],
         ["issued", "expires", "birth"]),
    Rule("BankStatement", ["statement"], ["statement", "bank", "account", "balance", "transaction"],
         ["deposit", "withdrawal", "credit", "debit"]),
    Rule("Receipt", ["receipt"], ["receipt", "purchased", "paid", "transaction"],
         ["store", "shop", "cashier"]),
    Rule("Resume", ["resume", "curriculum vitae", "cv"], ["education", "experience", "skills", "employment"],
         ["university", "degree", "job"]),
    Rule("Report", ["report"], ["report", "analysis", "findings", "summary", "conclusion"],
         ["data", "results", "study"])
  ]

  /** Index of the Resume rule, the only one whose required keywords are not
      all strong keywords. */
  const ResumeIndex: nat := 5

  /** The scores a type can get: 0, 0.3, 0.4, 0.6, 0.7, 0.8, 0.9, 1.0. */
  const ScoreValues: set<int> := {0, 3, 4, 6, 7, 8, 9, 10}

  /** `any(k in text for k in keywords)`. */
  predicate AnyOccurs(text: string, keywords: seq<string>) {
    exists i :: 0 <= i < |keywords| && Contains(text, keywords[i])
  }

  /** `sum(1 for k in keywords if k in text)`. */
  function CountOccurring(text: string, keywords: seq<string>): (n: nat)
    ensures n <= |keywords|
    ensures n > 0 <==> AnyOccurs(text, keywords)
  {
    if keywords == [] then 0
    else
      assert forall i :: 1 <= i < |keywords| ==> keywords[i] == keywords[1..][i - 1];
      (if Contains(text, keywords[0]) then 1 else 0) + CountOccurring(text, keywords[1..])
  }

  /** The tier for a number of strong matches. */
  function Tier(strongMatches: nat): int {
    if strongMatches >= 3 then 9
    else if strongMatches >= 2 then 7
    else if strongMatches >= 1 then 6
    else 3
  }

  /** `_calculate_score` on already lower-cased text: 0 without a required
      keyword; otherwise 0.9, 0.7, 0.6 or 0.3 for three or more, two, one or
      no strong matches, plus 0.1 when at least two weak keywords occur. */
  function Score(text: string, rule: Rule): (score: int)
    ensures score in ScoreValues
    ensures 0 <= score <= 10
    ensures score == 0 <==> !AnyOccurs(text, rule.required)
    ensures score >= 6 <==> AnyOccurs(text, rule.required) && AnyOccurs(text, rule.strong)
    ensures AnyOccurs(text, rule.required) ==>
      var s, boost := CountOccurring(text, rule.strong), if CountOccurring(text, rule.weak) >= 2 then 1 else 0;
      && (s >= 3 ==> score == 9 + boost)
      && (s == 2 ==> score == 7 + boost)
      && (s == 1 ==> score == 6 + boost)
      && (s == 0 ==> score == 3 + boost)
  {
    if !AnyOccurs(text, rule.required) then 0
    else
      var base := Tier(CountOccurring(text, rule.strong));
      if CountOccurring(text, rule.weak) >= 2 then (if base + 1 < 10 then base + 1 else 10) else base
  }

  /** The (type, score) list built by `classify`, in rule-table order. */
  function Scored(text: string): (s: seq<Entry>)
    ensures |s| == |Rules|
    ensures forall i :: 0 <= i < |Rules| ==> s[i] == Entry(Rules[i].docType, Score(text, Rules[i]))
  {
    seq(|Rules|, i requires 0 <= i < |Rules| => Entry(Rules[i].docType, Score(text, Rules[i])))
  }

  /** Python's `score < threshold` on the floats the source computes, for a
      threshold of `threshold` tenths. Every score is the double nearest its
      tenths value except 0.8, which arises only as 0.7 + 0.1 and evaluates to
      0.7999999999999999; it therefore falls below a threshold of 0.8. */
  predicate BelowThreshold(score: int, threshold: int) {
    score < threshold || (score == 8 && threshold == 8)
  }

  /** `classify`: empty text is Unknown at 0.1; otherwise the head of the
      stably sorted score list wins if it clears the threshold. The confidence
      is the score (its rounding to two places is exact in tenths). */
  function Classify(text: string, threshold: int): (r: Classification)
    ensures text == [] ==> r == UnknownResult
    ensures r == UnknownResult || exists i :: 0 <= i < |Rules| && r.documentType == Rules[i].docType
    ensures r != UnknownResult ==> r.confidence >= threshold && r.confidence in ScoreValues
  {
    if text == [] then UnknownResult
    else
      var ranked := SortDesc(Scored(Lower(text)));
      var best := ranked[0];
      assert best in multiset(Scored(Lower(text)));
      if BelowThreshold(best.weight, threshold) then UnknownResult
      else Classification(best.key, best.weight)
  }

  /** Ties at the top go to the type declared first, and the result is that
      type exactly when its score clears the threshold. */
  lemma ClassifyPicksFirstBest(text: string, threshold: int)
    requires text != []
    ensures var s := Scored(Lower(text)); var k := FirstMax(s);
      && (forall j :: 0 <= j < |Rules| ==> s[j].weight <= s[k].weight)
      && (forall j :: 0 <= j < k ==> s[j].weight < s[k].weight)
      && Classify(text, threshold) ==
           (if BelowThreshold(s[k].weight, threshold) then UnknownResult
            else Classification(Rules[k].docType, s[k].weight))
  {
    SortDescHead(Scored(Lower(text)));
  }

  /** More strong or weak matches never lower the score of a type whose
      required keywords occur. */
  lemma ScoreMonotone(text1: string, text2: string, rule: Rule)
    requires AnyOccurs(text1, rule.required) && AnyOccurs(text2, rule.required)
    requires CountOccurring(text1, rule.strong) <= CountOccurring(text2, rule.strong)
    requires CountOccurring(text1, rule.weak) <= CountOccurring(text2, rule.weak)
    ensures Score(text1, rule) <= Score(text2, rule)
  {
  }

  /** Every listed keyword of `text1` also occurring in `text2`. */
  predicate OccurIn(text1: string, text2: string, keywords: seq<string>) {
    forall i :: 0 <= i < |keywords| && Contains(text1, keywords[i]) ==> Contains(text2, keywords[i])
  }

  /** A text that contains every keyword another one contains matches at
      least as many of them. */
  lemma {:induction false} CountOccurringMonotone(text1: string, text2: string, keywords: seq<string>)
    requires OccurIn(text1, text2, keywords)
    ensures CountOccurring(text1, keywords) <= CountOccurring(text2, keywords)
    decreases |keywords|
  {
    if keywords != [] {
      var tail := keywords[1..];
      assert Contains(text1, keywords[0]) ==> Contains(text2, keywords[0]);
      forall i | 0 <= i < |tail| && Contains(text1, tail[i])
        ensures Contains(text2, tail[i])
      {
        assert tail[i] == keywords[i + 1];
      }
      CountOccurringMonotone(text1, text2, tail);
    }
  }

  /** A text containing every keyword of the rule that another text
      contains scores at least as high: adding words never lowers a score. */
  lemma ScoreGrowsWithText(text1: string, text2: string, rule: Rule)
    requires OccurIn(text1, text2, rule.required)
    requires OccurIn(text1, text2, rule.strong)
    requires OccurIn(text1, text2, rule.weak)
    ensures Score(text1, rule) <= Score(text2, rule)
  {
    if AnyOccurs(text1, rule.required) {
      CountOccurringMonotone(text1, text2, rule.strong);
      CountOccurringMonotone(text1, text2, rule.weak);
      ScoreMonotone(text1, text2, rule);
    }
  }

  /** The document types of the table are pairwise distinct, so a returned
      type names exactly one rule. */
  lemma RuleTypesDistinct()
    ensures forall i, j :: 0 <= i < j < |Rules| ==> Rules[i].docType != Rules[j].docType
    ensures forall i :: 0 <= i < |Rules| ==> Rules[i].docType != "Unknown"
  {
  }

  /** With a positive threshold, a type none of whose required keywords
      occurs in the lower-cased text is never returned. */
  lemma NoRequiredNeverReturned(text: string, threshold: int, i: nat)
    requires threshold > 0 && i < |Rules|
    requires !AnyOccurs(Lower(text), Rules[i].required)
    ensures Classify(text, threshold).documentType != Rules[i].docType
  {
    RuleTypesDistinct();
    if text != [] {
      ClassifyPicksFirstBest(text, threshold);
    }
  }

  /** With a threshold of zero or less, an empty score table still returns
      the first type, Invoice, at confidence 0. */
  lemma ZeroThresholdReturnsInvoice(text: string, threshold: int)
    requires text != [] && threshold <= 0
    requires forall i :: 0 <= i < |Rules| ==> !AnyOccurs(Lower(text), Rules[i].required)
    ensures Classify(text, threshold) == Classification("Invoice", 0)
  {
    ClassifyPicksFirstBest(text, threshold);
    var s := Scored(Lower(text));
    assert s[0].weight == 0;
    assert FirstMax(s) == 0;
  }

  /** Every required keyword of every type except Resume is also a strong
      keyword of that type. */
  lemma RequiredAreStrong(i: nat, k: nat)
    requires i < |Rules| && i != ResumeIndex && k < |Rules[i].required|
    ensures Rules[i].required[k] in Rules[i].strong
  {
  }

  /** So a text meeting the required set of any type except Resume scores at
      least 0.6 for it. */
  lemma RequiredScoresAtLeastSix(text: string, i: nat)
    requires i < |Rules| && i != ResumeIndex
    requires AnyOccurs(text, Rules[i].required)
    ensures Score(text, Rules[i]) >= 6
  {
    var k :| 0 <= k < |Rules[i].required| && Contains(text, Rules[i].required[k]);
    RequiredAreStrong(i, k);
    var j :| 0 <= j < |Rules[i].strong| && Rules[i].strong[j] == Rules[i].required[k];
    assert AnyOccurs(text, Rules[i].strong);
  }

  /** Classification ignores ASCII case. */
  lemma ClassifyCaseInsensitive(text: string, threshold: int)
    ensures Classify(Lower(text), threshold) == Classify(text, threshold)
  {
    LowerIdempotent(text);
  }

  /** Matching has no word boundaries: any text containing `cv`, even inside
      a longer word, meets Resume's required set. */
  lemma CvInsideWordCounts(before: string, after: string)
    ensures AnyOccurs(before + "cv" + after, Rules[ResumeIndex].required)
    ensures Score(before + "cv" + after, Rules[ResumeIndex]) >= 3
  {
    var t := before + "cv" + after;
    assert t[|before|..|before| + 2] == "cv";
    ContainsAt(t, "cv", |before|);
    assert Rules[ResumeIndex].required[2] == "cv";
  }
}

=== FILE: stable_sort.dfy ===
/** Python's `sorted(items, key=weight, reverse=True)`: a stable sort into
    non-increasing weight. Both the classifier (types by score) and the
    keyword extractor (words by frequency) rank with it, and both rely on its
    stability to break ties by original order. */
module StableSort {

  /** A keyed item: a document type with its score, or a word with its count. */
  datatype Entry = Entry(key: string, weight: int)

  predicate NonIncreasing(s: seq<Entry>) {
    forall i, j :: 0 <= i < j < |s| ==> s[i].weight >= s[j].weight
  }

  lemma NonIncreasingTail(s: seq<Entry>)
    requires s != [] && NonIncreasing(s)
    ensures NonIncreasing(s[1..])
  {
    forall i, j | 0 <= i < j < |s[1..]|
      ensures s[1..][i].weight >= s[1..][j].weight
    {
      assert s[1..][i] == s[i + 1] && s[1..][j] == s[j + 1];
    }
  }

  /** The entries of weight `w`, in order. */
  function WithWeight(s: seq<Entry>, w: int): (r: seq<Entry>)
    ensures forall i :: 0 <= i < |r| ==> r[i].weight == w
  {
    if s == [] then [] else (if s[0].weight == w then [s[0]] else []) + WithWeight(s[1..], w)
  }

  lemma {:induction false} WithWeightAppend(s: seq<Entry>, t: seq<Entry>, w: int)
    ensures WithWeight(s + t, w) == WithWeight(s, w) + WithWeight(t, w)
    decreases |s|
  {
    if s == [] {
      assert s + t == t;
    } else {
      assert (s + t)[0] == s[0];
      assert (s + t)[1..] == s[1..] + t;
      WithWeightAppend(s[1..], t, w);
    }
  }

  /** Inserts `x` after every entry at least as heavy, so that `x`, coming
      last in the input, also comes last among its equals. */
  function Insert(s: seq<Entry>, x: Entry): (r: seq<Entry>)
    ensures |r| == |s| + 1
    ensures r[0] == x || (s != [] && r[0] == s[0])
    decreases |s|
  {
    if s == [] then [x]
    else if s[0].weight >= x.weight then [s[0]] + Insert(s[1..], x)
    else [x] + s
  }

  /** Insertion adds `x` and loses nothing. */
  lemma {:induction false} InsertPerm(s: seq<Entry>, x: Entry)
    ensures multiset(Insert(s, x)) == multiset(s) + multiset{x}
    decreases |s|
  {
    if s != [] && s[0].weight >= x.weight {
      InsertPerm(s[1..], x);
      assert s == [s[0]] + s[1..];
    }
  }

  lemma {:induction false} InsertNonIncreasing(s: seq<Entry>, x: Entry)
    requires NonIncreasing(s)
    ensures NonIncreasing(Insert(s, x))
    decreases |s|
  {
    if s != [] && s[0].weight >= x.weight {
      var tail := Insert(s[1..], x);
      NonIncreasingTail(s);
      InsertNonIncreasing(s[1..], x);
      forall i | 0 <= i < |s[1..]|
        ensures s[1..][i].weight <= s[0].weight
      {
        assert s[1..][i] == s[i + 1];
      }
      InsertBounded(s[1..], x, s[0].weight);
      var r := [s[0]] + tail;
      forall i, j | 0 <= i < j < |r|
        ensures r[i].weight >= r[j].weight
      {
        assert r[j] == tail[j - 1];
        if i > 0 {
          assert r[i] == tail[i - 1];
        }
      }
    }
  }

  /** Inserting an entry no heavier than `b` into entries no heavier than
      `b` gives entries no heavier than `b`. */
  lemma {:induction false} InsertBounded(s: seq<Entry>, x: Entry, b: int)
    requires forall i :: 0 <= i < |s| ==> s[i].weight <= b
    requires x.weight <= b
    ensures forall k :: 0 <= k < |Insert(s, x)| ==> Insert(s, x)[k].weight <= b
    decreases |s|
  {
    var r := Insert(s, x);
    if s != [] && s[0].weight >= x.weight {
      var t := Insert(s[1..], x);
      assert forall i :: 0 <= i < |s[1..]| ==> s[1..][i] == s[i + 1];
      InsertBounded(s[1..], x, b);
      assert r == [s[0]] + t;
      forall k | 1 <= k < |r|
        ensures r[k].weight <= b
      {
        assert r[k] == t[k - 1];
      }
    } else if s != [] {
      assert r == [x] + s;
      forall k | 1 <= k < |r|
        ensures r[k].weight <= b
      {
        assert r[k] == s[k - 1];
      }
    }
  }

  /** No entry of a non-increasing sequence whose head is lighter than `w`
      weighs `w`. */
  lemma WithWeightLighter(s: seq<Entry>, w: int)
    requires NonIncreasing(s) && (s == [] || s[0].weight < w)
    ensures WithWeight(s, w) == []
    decreases |s|
  {
    if s != [] {
      NonIncreasingTail(s);
      if |s| > 1 {
        assert s[1..][0] == s[1];
      }
      WithWeightLighter(s[1..], w);
    }
  }

  /** Insertion keeps the entries of each weight in their order and puts `x`
      after the others of its weight. */
  lemma {:induction false} InsertStable(s: seq<Entry>, x: Entry, w: int)
    requires NonIncreasing(s)
    ensures WithWeight(Insert(s, x), w) == WithWeight(s, w) + (if x.weight == w then [x] else [])
    decreases |s|
  {
    if s == [] {
    } else if s[0].weight >= x.weight {
      NonIncreasingTail(s);
      InsertStable(s[1..], x, w);
      var r := [s[0]] + Insert(s[1..], x);
      assert r[0] == s[0] && r[1..] == Insert(s[1..], x);
      var h := if s[0].weight == w then [s[0]] else [];
      assert WithWeight(r, w) == h + WithWeight(Insert(s[1..], x), w);
      assert WithWeight(s, w) == h + WithWeight(s[1..], w);
    } else {
      var r := [x] + s;
      assert r[0] == x && r[1..] == s;
      if x.weight == w {
        WithWeightLighter(s, w);
      }
    }
  }

  /** `sorted(s, key=weight, reverse=True)`. */
  function SortDesc(s: seq<Entry>): (r: seq<Entry>)
    ensures |r| == |s|
    ensures multiset(r) == multiset(s)
    decreases |s|
  {
    if s == [] then []
    else
      var init := s[..|s| - 1];
      assert s == init + [s[|s| - 1]];
      InsertPerm(SortDesc(init), s[|s| - 1]);
      Insert(SortDesc(init), s[|s| - 1])
  }

  /** The sort produces a non-increasing sequence. */
  lemma {:induction false} SortDescSorted(s: seq<Entry>)
    ensures NonIncreasing(SortDesc(s))
    decreases |s|
  {
    if s != [] {
      SortDescSorted(s[..|s| - 1]);
      InsertNonIncreasing(SortDesc(s[..|s| - 1]), s[|s| - 1]);
    }
  }

  /** The sort is stable: for every weight, the entries of that weight come
      out in the order they went in. */
  lemma {:induction false} SortDescStable(s: seq<Entry>, w: int)
    ensures WithWeight(SortDesc(s), w) == WithWeight(s, w)
    decreases |s|
  {
    if s != [] {
      var init := s[..|s| - 1];
      var x := s[|s| - 1];
      assert s == init + [x];
      SortDescSorted(init);
      calc {
        WithWeight(SortDesc(s), w);
        WithWeight(Insert(SortDesc(init), x), w);
        { InsertStable(SortDesc(init), x, w); }
        WithWeight(SortDesc(init), w) + (if x.weight == w then [x] else []);
        { SortDescStable(init, w); WithWeightSingle(x, w); }
        WithWeight(init, w) + WithWeight([x], w);
        { WithWeightAppend(init, [x], w); }
        WithWeight(s, w);
      }
    }
  }

  lemma WithWeightSingle(x: Entry, w: int)
    ensures WithWeight([x], w) == (if x.weight == w then [x] else [])
  {
    assert [x][1..] == [];
  }

  /** Where `Insert` puts `x`: after the leading entries at least as heavy,
      before the first lighter one. */
  function InsertPos(s: seq<Entry>, x: Entry): (m: nat)
    ensures m <= |s|
    ensures forall k :: 0 <= k < m ==> s[k].weight >= x.weight
    ensures m < |s| ==> s[m].weight < x.weight
    decreases |s|
  {
    if s == [] then 0
    else if s[0].weight >= x.weight then
      var m := InsertPos(s[1..], x);
      assert forall k :: 1 <= k < m + 1 ==> s[k] == s[1..][k - 1];
      m + 1
    else 0
  }

  /** `Insert(s, x)[k]` is where `InsertPos(s, x)` says: an unmoved entry of
      `s` before it, `x` at it, a shifted one after it. */
  predicate InsertedAt(s: seq<Entry>, x: Entry, k: nat)
    requires k <= |s|
  {
    var m := InsertPos(s, x);
    && (k < m ==> Insert(s, x)[k] == s[k])
    && (k == m ==> Insert(s, x)[k] == x)
    && (k > m ==> Insert(s, x)[k] == s[k - 1])
  }

  /** The entries of `Insert(s, x)`: those of `s` before `InsertPos(s, x)`
      unmoved, then `x`, then the rest of `s` shifted by one. */
  lemma {:induction false} InsertAt(s: seq<Entry>, x: Entry, k: nat)
    requires k <= |s|
    ensures InsertedAt(s, x, k)
    decreases |s|
  {
    if s == [] || s[0].weight < x.weight {
      InsertAtFront(s, x, k);
    } else if k == 0 {
      assert Insert(s, x) == [s[0]] + Insert(s[1..], x);
    } else {
      InsertAt(s[1..], x, k - 1);
      InsertAtStep(s, x, k);
    }
  }

  lemma InsertAtFront(s: seq<Entry>, x: Entry, k: nat)
    requires k <= |s| && (s == [] || s[0].weight < x.weight)
    ensures InsertedAt(s, x, k)
  {
    assert InsertPos(s, x) == 0;
    assert Insert(s, x) == [x] + s;
  }

  /** One step of `InsertAt` past a heavier head. */
  lemma InsertAtStep(s: seq<Entry>, x: Entry, k: nat)
    requires 0 < k <= |s| && s[0].weight >= x.weight
    requires InsertedAt(s[1..], x, k - 1)
    ensures InsertedAt(s, x, k)
  {
    assert InsertPos(s, x) == InsertPos(s[1..], x) + 1;
    assert Insert(s, x) == [s[0]] + Insert(s[1..], x);
    assert k < |s| ==> s[1..][k - 1] == s[k];
    assert k > 1 ==> s[1..][k - 2] == s[k - 1];
  }

  /** Where the sort of `s` puts its last entry among the sorted others. */
  function LastPos(s: seq<Entry>): (m: nat)
    requires s != []
    ensures m < |s|
  {
    InsertPos(SortDesc(s[..|s| - 1]), s[|s| - 1])
  }

  /** The `k`-th sorted entry of `s`, read off the sort of all but the last
      entry: before `LastPos(s)` it is unmoved, at it is the last entry,
      after it is shifted by one. */
  lemma {:induction false} SortDescAt(s: seq<Entry>, k: nat)
    requires k < |s|
    ensures var init, m := s[..|s| - 1], LastPos(s);
      && (k < m ==> SortDesc(s)[k] == SortDesc(init)[k])
      && (k == m ==> SortDesc(s)[k] == s[|s| - 1])
      && (k > m ==> SortDesc(s)[k] == SortDesc(init)[k - 1])
  {
    var init, x := s[..|s| - 1], s[|s| - 1];
    assert SortDesc(s) == Insert(SortDesc(init), x);
    InsertAt(SortDesc(init), x, k);
  }

  /** The input position the `i`-th sorted entry comes from. */
  function Origin(s: seq<Entry>, i: nat): (p: nat)
    requires i < |s|
    ensures p < |s|
    decreases |s|
  {
    var m := LastPos(s);
    if i < m then Origin(s[..|s| - 1], i)
    else if i == m then |s| - 1
    else Origin(s[..|s| - 1], i - 1)
  }

  /** Every sorted entry is the input entry at its origin. */
  lemma {:induction false} OriginSpec(s: seq<Entry>, i: nat)
    requires i < |s|
    ensures s[Origin(s, i)] == SortDesc(s)[i]
    decreases |s|
  {
    var init, p := s[..|s| - 1], Prev(s, i);
    PrevSpec(s, i);
    if p >= 0 {
      OriginSpec(init, p);
      assert s[Origin(init, p)] == init[Origin(init, p)];
    }
  }

  /** In a non-increasing sequence, everything from a position lighter than
      `x` on is lighter than `x`. */
  lemma {:induction false} LighterAfter(rs: seq<Entry>, x: Entry, m: nat, k: nat)
    requires NonIncreasing(rs) && m <= k < |rs| && rs[m].weight < x.weight
    ensures rs[k].weight < x.weight
  {
  }

  /** Entries sorted after the last input entry are strictly lighter. */
  lemma {:induction false} AfterLastLighter(s: seq<Entry>, j: nat)
    requires s != [] && LastPos(s) < j < |s|
    ensures SortDesc(s)[j].weight < s[|s| - 1].weight
  {
    var init := s[..|s| - 1];
    SortDescSorted(init);
    assert SortDesc(s) == Insert(SortDesc(init), s[|s| - 1]);
    InsertAfterLighter(SortDesc(init), s[|s| - 1], j);
  }

  /** Inserting into a non-increasing sequence puts only strictly lighter
      entries after `x`. */
  lemma {:induction false} InsertAfterLighter(t: seq<Entry>, x: Entry, k: nat)
    requires NonIncreasing(t) && InsertPos(t, x) < k <= |t|
    ensures Insert(t, x)[k].weight < x.weight
  {
    InsertAt(t, x, k);
    LighterAfter(t, x, InsertPos(t, x), k - 1);
  }

  /** Where the `k`-th sorted entry of `s` sits in the sort of all but the
      last entry, or -1 when it is the last entry itself. */
  function Prev(s: seq<Entry>, k: nat): int
    requires k < |s|
  {
    var m := LastPos(s);
    if k < m then k else if k == m then -1 else k - 1
  }

  /** One step back from the sort of `s` to the sort of all but its last
      entry, for entries and their origins alike. */
  lemma {:induction false} PrevSpec(s: seq<Entry>, k: nat)
    requires k < |s|
    ensures var init, pk := s[..|s| - 1], Prev(s, k);
      && (pk >= 0 ==> pk < |init| && Origin(s, k) == Origin(init, pk) && SortDesc(s)[k] == SortDesc(init)[pk])
      && (pk < 0 ==> k == LastPos(s) && Origin(s, k) == |init| && SortDesc(s)[k] == s[|s| - 1])
  {
    SortDescAt(s, k);
  }

  /** Ties keep their input order: of two equally heavy sorted entries, the
      earlier one comes from the earlier input position. */
  lemma {:induction false} SortDescTies(s: seq<Entry>, i: nat, j: nat)
    requires i < j < |s| && SortDesc(s)[i].weight == SortDesc(s)[j].weight
    ensures Origin(s, i) < Origin(s, j)
    decreases |s|
  {
    var init, pi, pj := s[..|s| - 1], Prev(s, i), Prev(s, j);
    PrevSpec(s, i);
    PrevSpec(s, j);
    if pi >= 0 && pj >= 0 {
      SortDescTies(init, pi, pj);
    } else if pi < 0 {
      AfterLastLighter(s, j);
    }
  }

  /** Index of the first entry of maximal weight. */
  function FirstMax(s: seq<Entry>): (i: nat)
    requires s != []
    ensures i < |s|
    ensures forall j :: 0 <= j < |s| ==> s[j].weight <= s[i].weight
    ensures forall j :: 0 <= j < i ==> s[j].weight < s[i].weight
    decreases |s|
  {
    if |s| == 1 then 0
    else
      var j := FirstMax(s[..|s| - 1]);
      if s[|s| - 1].weight > s[j].weight then |s| - 1 else j
  }

  /** The entries of weight `w` start with the first entry of that weight. */
  lemma {:induction false} WithWeightHead(s: seq<Entry>, k: nat)
    requires k < |s| && forall j :: 0 <= j < k ==> s[j].weight != s[k].weight
    ensures WithWeight(s, s[k].weight) != [] && WithWeight(s, s[k].weight)[0] == s[k]
    decreases k
  {
    if k > 0 {
      assert s[1..][k - 1] == s[k];
      WithWeightHead(s[1..], k - 1);
    }
  }

  /** The head of the stable descending sort is the first entry of maximal
      weight: ties at the top go to the earliest entry. */
  lemma SortDescHead(s: seq<Entry>)
    requires s != []
    ensures SortDesc(s)[0] == s[FirstMax(s)]
  {
    var r := SortDesc(s);
    var k := FirstMax(s);
    SortDescSorted(s);
    assert r[0] in multiset(s);
    var m :| 0 <= m < |s| && s[m] == r[0];
    assert s[k] in multiset(r);
    var n :| 0 <= n < |r| && r[n] == s[k];
    assert r[0].weight == s[k].weight;
    WithWeightHead(s, k);
    WithWeightHead(r, 0);
    SortDescStable(s, s[k].weight);
  }
}

=== FILE: template_generator.dfy ===
/** The template filename generator: choose a template for the document type,
    fill it through a fixed alias table or fall back as a whole, then sanitise
    the name and cap its length with a middle ellipsis. */
module TemplateGenerator {
  import opened Wrappers
  import opened PyText

  /** A template, already split into literal text and `{name}` placeholders. */
  datatype Piece = Lit(text: string) | Field(name: string)
  type Template = seq<Piece>

  /** The string-valued part of the metadata dictionary: a key is absent,
      holds `None`, or holds text. */
  type Fields = map<string, Option<string>>

  /** `metadata.get(key, '')` read for its truth value and text: the empty
      string stands for absent, `None` and `''` alike. */
  function FieldText(m: Fields, key: string): string {
    if key in m && m[key].Some? then m[key].value else ""
  }

  const DefaultMaxLength: int := 150

  /** The built-in template table, used when the configuration has none. */
  const DefaultTemplates: map<string, Template> := map[
    "Invoice" := [Field("vendor"), Lit("_Invoice_"), Field("invoice_number"), Lit("_"), Field("date")],
    "Contract" := [Lit("Contract_"), Field("parties"), Lit("_"), Field("date")],
    "ID" := [Field("doc_type"), Lit("_"), Field("person_name"), Lit("_"), Field("issue_date")],
    "BankStatement" := [Field("bank"), Lit("_Statement_"), Field("year"), Lit("-"), Field("month")],
    "Receipt" := [Lit("Receipt_"), Field("vendor"), Lit("_"), Field("amount"), Lit("_"), Field("date")],
    "Unknown" := [Lit("Unknown_"), Field("date")],
    "default" := [Field("doc_type"), Lit("_"), Field("primary_entity"), Lit("_"), Field("date")]
  ]

  /** The variables a template may reference, each read from the metadata
      through the alias table or from the document type. */
  function Variables(m: Fields, docType: string): map<string, string> {
    var org := FieldText(m, "organization_name");
    map[
      "doc_type" := docType,
      "vendor" := org,
      "parties" := org,
      "person_name" := FieldText(m, "person_name"),
      "primary_entity" := if org != "" then org else FieldText(m, "person_name"),
      "date" := FieldText(m, "date"),
      "issue_date" := FieldText(m, "date"),
      "invoice_number" := FieldText(m, "invoice_number"),
      "amount" := FieldText(m, "amount"),
      "bank" := org,
      "year" := FieldText(m, "year"),
      "month" := FieldText(m, "month")
    ]
  }

  /** The alias table: three names for the organisation, two for the date,
      and `primary_entity` preferring the organisation over the person. */
  lemma VariableAliases(m: Fields, docType: string)
    ensures var v, org := Variables(m, docType), FieldText(m, "organization_name");
      && v["vendor"] == org && v["parties"] == org && v["bank"] == org
      && v["date"] == FieldText(m, "date") && v["issue_date"] == FieldText(m, "date")
      && (org != "" ==> v["primary_entity"] == org)
      && (org == "" ==> v["primary_entity"] == FieldText(m, "person_name"))
      && v["doc_type"] == docType
      && forall k :: k in v.Keys <==> k in VariableNames
  {
  }

  const VariableNames: set<string> := {
    "doc_type", "vendor", "parties", "person_name", "primary_entity", "date",
    "issue_date", "invoice_number", "amount", "bank", "year", "month"
  }

  /** Every placeholder names a variable whose value is non-empty. */
  predicate AllPresent(t: Template, vars: map<string, string>) {
    forall i :: 0 <= i < |t| && t[i].Field? ==> t[i].name in vars && vars[t[i].name] != ""
  }

  /** `template.format(**vars)` for a template whose placeholders are all set. */
  function Render(t: Template, vars: map<string, string>): string
    requires AllPresent(t, vars)
    decreases |t|
  {
    if t == [] then "" else PieceText(t[0], vars) + Render(t[1..], vars)
  }

  function PieceText(p: Piece, vars: map<string, string>): string
    requires p.Field? ==> p.name in vars
  {
    match p
    case Lit(x) => x
    case Field(n) => vars[n]
  }

  /** Rendering distributes over concatenation of templates: each piece
      contributes its own text, independently of the others. */
  lemma {:induction false} RenderAppend(t1: Template, t2: Template, vars: map<string, string>)
    requires AllPresent(t1 + t2, vars)
    ensures AllPresent(t1, vars) && AllPresent(t2, vars)
    ensures Render(t1 + t2, vars) == Render(t1, vars) + Render(t2, vars)
    decreases |t1|
  {
    AllPresentAppend(t1, t2, vars);
    if t1 == [] {
      assert t1 + t2 == t2;
    } else {
      var t := t1[1..];
      assert (t1 + t2)[0] == t1[0] && (t1 + t2)[1..] == t + t2;
      RenderCons(t1 + t2, vars);
      RenderAppend(t, t2, vars);
      ConcatAssoc(PieceText(t1[0], vars), Render(t, vars), Render(t2, vars));
    }
  }

  /** The first piece's text, then the rest rendered. */
  lemma RenderCons(t: Template, vars: map<string, string>)
    requires t != [] && AllPresent(t, vars)
    ensures AllPresent(t[1..], vars)
    ensures Render(t, vars) == PieceText(t[0], vars) + Render(t[1..], vars)
  {
    AllPresentTail(t, vars);
  }

  lemma AllPresentTail(t: Template, vars: map<string, string>)
    requires t != [] && AllPresent(t, vars)
    ensures AllPresent(t[1..], vars)
  {
    forall i | 0 <= i < |t[1..]| && t[1..][i].Field?
      ensures t[1..][i].name in vars && vars[t[1..][i].name] != ""
    {
      assert t[1..][i] == t[i + 1];
    }
  }

  /** Every placeholder of a concatenation is set exactly when those of both
      parts are. */
  lemma AllPresentAppend(t1: Template, t2: Template, vars: map<string, string>)
    requires AllPresent(t1 + t2, vars)
    ensures AllPresent(t1, vars) && AllPresent(t2, vars)
  {
    forall i | 0 <= i < |t1| && t1[i].Field?
      ensures t1[i].name in vars && vars[t1[i].name] != ""
    {
      assert t1[i] == (t1 + t2)[i];
    }
    forall i | 0 <= i < |t2| && t2[i].Field?
      ensures t2[i].name in vars && vars[t2[i].name] != ""
    {
      assert t2[i] == (t1 + t2)[|t1| + i];
    }
  }

  /** The parts of the fallback name, in the order `_apply_fallback_logic`
      appends them. */
  function FallbackParts(m: Fields, docType: string, now: string): (parts: seq<string>)
    ensures var entity, date := EntityOf(m), FieldText(m, "date");
      && |parts| == 2 + (if entity != "" then 1 else 0) + (if entity == "" && date == "" then 1 else 0)
      && parts[0] == docType
      && (entity != "" ==> parts[1] == entity)
      && parts[if entity != "" then 2 else 1] ==
           (if date != "" then date
            else if FieldText(m, "file_modified_date") != "" then FieldText(m, "file_modified_date")
            else now)
      && (entity == "" && date == "" ==> parts[2] == "NoMetadata")
  {
    var entity := EntityOf(m);
    var date := FieldText(m, "date");
    var stamp :=
      if date != "" then date
      else if FieldText(m, "file_modified_date") != "" then FieldText(m, "file_modified_date")
      else now;
    [docType] + (if entity != "" then [entity] else []) + [stamp]
      + (if entity == "" && date == "" then ["NoMetadata"] else [])
  }

  /** The organisation name if it is set, else the person name. */
  function EntityOf(m: Fields): string {
    var org := FieldText(m, "organization_name");
    if org != "" then org else FieldText(m, "person_name")
  }

  /** `_apply_fallback_logic`: the parts joined by underscores. The type
      comes first, then the entity if there is one, then the first of the
      date, the modification date and the clock that is set; `NoMetadata`
      ends the name when there is neither entity nor date. */
  function ApplyFallbackLogic(m: Fields, docType: string, now: string): (r: string)
    ensures StartsWith(r, docType + "_")
    ensures var entity, date, modified := EntityOf(m), FieldText(m, "date"), FieldText(m, "file_modified_date");
      var stamp := if date != "" then date else if modified != "" then modified else now;
      && (entity != "" ==> r == docType + "_" + entity + "_" + stamp)
      && (entity == "" && date != "" ==> r == docType + "_" + date)
      && (entity == "" && date == "" ==> r == docType + "_" + stamp + "_NoMetadata")
  {
    var parts := FallbackParts(m, docType, now);
    JoinWithSmall(parts, "_");
    JoinWith(parts, "_")
  }

  /** `_fill_template`: all-or-nothing. The template is rendered only when
      every placeholder has a non-empty value; otherwise the whole name comes
      from the fallback logic and no placeholder is substituted. */
  function FillTemplate(t: Template, m: Fields, docType: string, now: string): (r: string)
    ensures AllPresent(t, Variables(m, docType)) ==> r == Render(t, Variables(m, docType))
    ensures !AllPresent(t, Variables(m, docType)) ==> r == ApplyFallbackLogic(m, docType, now)
  {
    var vars := Variables(m, docType);
    if AllPresent(t, vars) then Render(t, vars) else ApplyFallbackLogic(m, docType, now)
  }

  /** `name.rsplit('.', 1)[0]`: everything before the last dot, or the whole
      name when it has none. */
  function Stem(name: string): (r: string)
    ensures StartsWith(name, r)
  {
    var i := LastIndexOf(name, '.');
    if i < 0 then name else name[..i]
  }

  /** `_generate_fallback`: the original name without its extension, then the
      timestamp. */
  function LastResort(originalFilename: string, now: string): string {
    Stem(originalFilename) + "_" + now
  }

  /** The last-resort name recovers the stem: appending an extension without
      dots to a name changes nothing in it, and a name without dots is kept
      whole. */
  lemma LastResortStem(stem: string, ext: string, now: string)
    requires '.' !in ext
    ensures LastResort(stem + "." + ext, now) == stem + "_" + now
    ensures '.' !in stem ==> LastResort(stem, now) == stem + "_" + now
  {
    var name := stem + "." + ext;
    assert name[|stem|] == '.';
    var i := LastIndexOf(name, '.');
    forall k | |stem| < k < |name|
      ensures name[k] != '.'
    {
      assert name[k] == ext[k - |stem| - 1];
    }
    forall k | i < k < |name|
      ensures name[k] != '.'
    {
      assert name[k] == name[i + 1..][k - i - 1];
    }
    assert i == |stem|;
    assert name[..i] == stem;
  }

  /** Characters a file name may not contain. */
  const Invalid: set<char> := {'<', '>', ':', '"', '/', '\\', '|', '?', '*'}

  /** Characters trimmed from both ends of a name. */
  const Trimmed: set<char> := {'_', '.'}

  predicate IsValidChar(c: char) {
    c !in Invalid
  }

  /** What `_sanitize_filename` guarantees of every name it returns. */
  predicate IsClean(s: string) {
    && (forall c :: c in s ==> c !in Invalid && c != ' ')
    && NoDoubled(s, '_')
    && (s == [] || (s[0] !in Trimmed && s[|s| - 1] !in Trimmed))
  }

  /** A character the sanitiser never touches, wherever it stands: neither
      invalid, nor a space, nor one of the trimmed characters. */
  predicate IsNameChar(c: char) {
    c !in Invalid && c != ' ' && c !in Trimmed
  }

  /** `_sanitize_filename`: drop invalid characters, turn spaces into
      underscores, collapse underscore runs, trim underscores and dots.
      Every other character of the input survives, in order. */
  function Sanitize(s: string): (r: string)
    ensures IsClean(r)
    ensures forall c :: c in r ==> c in s || c == '_'
    ensures |r| <= |s|
    ensures Filter(r, IsNameChar) == Filter(s, IsNameChar)
  {
    SanitizeSteps(s);
    SanitizeKeepsNameChars(s);
    Strip(CollapseRuns(ReplaceChar(Filter(s, IsValidChar), ' ', '_'), '_'), Trimmed)
  }

  /** A name of valid characters whose spaces, once turned into underscores,
      leave no doubled underscore, and whose ends are untouched characters,
      comes out with each space turned into an underscore and nothing else
      changed: existing underscores and interior dots stay where they are. */
  lemma SanitizeWords(s: string)
    requires forall i :: 0 <= i < |s| ==> IsValidChar(s[i])
    requires NoDoubled(ReplaceChar(s, ' ', '_'), '_')
    requires s == [] || (IsNameChar(s[0]) && IsNameChar(s[|s| - 1]))
    ensures Sanitize(s) == ReplaceChar(s, ' ', '_')
  {
    FilterAll(s, IsValidChar);
    var u := ReplaceChar(s, ' ', '_');
    CollapseRunsNoop(u, '_');
    if s != [] {
      assert u[0] == s[0] && u[|u| - 1] == s[|s| - 1];
    }
    StripNoop(u, Trimmed);
  }

  /** A doubled underscore sanitises like a single one: the collapse step
      merges it into one run. */
  lemma SanitizeCollapsesUnderscores(a: string, b: string)
    ensures Sanitize(a + "__" + b) == Sanitize(a + "_" + b)
  {
    var ra, rb := ReplaceChar(Filter(a, IsValidChar), ' ', '_'), ReplaceChar(Filter(b, IsValidChar), ' ', '_');
    SpacedJoin(a, "__", b);
    SpacedJoin(a, "_", b);
    UnderscoresUnchanged();
    CollapseRunsPair(ra, rb, '_');
  }

  lemma UnderscoresUnchanged()
    ensures ReplaceChar("__", ' ', '_') == "__" == ['_', '_']
    ensures ReplaceChar("_", ' ', '_') == "_" == ['_']
  {
  }

  /** A space sanitises like an underscore: the second step turns it into one. */
  lemma SanitizeSpaceIsUnderscore(a: string, b: string)
    ensures Sanitize(a + " " + b) == Sanitize(a + "_" + b)
  {
    SpacedJoin(a, " ", b);
    SpacedJoin(a, "_", b);
    SpaceBecomesUnderscore();
  }

  lemma SpaceBecomesUnderscore()
    ensures ReplaceChar(" ", ' ', '_') == ReplaceChar("_", ' ', '_') == "_"
  {
  }

  /** The first two steps of the sanitiser around a separator of valid
      characters: each side is processed on its own. */
  lemma SpacedJoin(a: string, sep: string, b: string)
    requires forall i :: 0 <= i < |sep| ==> IsValidChar(sep[i])
    ensures ReplaceChar(Filter(a + sep + b, IsValidChar), ' ', '_') ==
      ReplaceChar(Filter(a, IsValidChar), ' ', '_') + ReplaceChar(sep, ' ', '_') + ReplaceChar(Filter(b, IsValidChar), ' ', '_')
  {
    var fa, fb := Filter(a, IsValidChar), Filter(b, IsValidChar);
    FilterAll(sep, IsValidChar);
    FilterJoin(a, sep, b);
    ReplaceCharAppend(fa + sep, fb, ' ', '_');
    ReplaceCharAppend(fa, sep, ' ', '_');
  }

  /** Dropping invalid characters around a separator of valid ones. */
  lemma FilterJoin(a: string, sep: string, b: string)
    requires Filter(sep, IsValidChar) == sep
    ensures Filter(a + sep + b, IsValidChar) == Filter(a, IsValidChar) + sep + Filter(b, IsValidChar)
  {
    FilterAppend(a + sep, b, IsValidChar);
    FilterAppend(a, sep, IsValidChar);
  }

  /** Each of the four steps keeps the untouched characters: the first drops
      only invalid ones, the second rewrites only spaces, the third removes
      only underscores, and the last cuts only underscores and dots. */
  lemma SanitizeKeepsNameChars(s: string)
    ensures var r := Strip(CollapseRuns(ReplaceChar(Filter(s, IsValidChar), ' ', '_'), '_'), Trimmed);
      Filter(r, IsNameChar) == Filter(s, IsNameChar)
  {
    var kept := Filter(s, IsValidChar);
    FilterFilter(s, IsValidChar, IsNameChar);
    var spaced := ReplaceChar(kept, ' ', '_');
    FilterReplaceDropped(kept, ' ', '_', IsNameChar);
    var collapsed := CollapseRuns(spaced, '_');
    FilterWithout(collapsed, '_', IsNameChar);
    FilterWithout(spaced, '_', IsNameChar);
    TrimKeepsNameChars(collapsed);
  }

  /** Trimming underscores and dots keeps the untouched characters. */
  lemma TrimKeepsNameChars(c: string)
    ensures Filter(Strip(c, Trimmed), IsNameChar) == Filter(c, IsNameChar)
  {
    StripSpec(c, Trimmed);
    var r, lo := Strip(c, Trimmed), |c| - |StripLeft(c, Trimmed)|;
    FilterSlice(c, lo, lo + |r|, IsNameChar, Trimmed);
  }

  /** The four steps of the sanitiser, composed: a clean name, of
      characters from the input or underscores, no longer than the input. */
  lemma SanitizeSteps(s: string)
    ensures var r := Strip(CollapseRuns(ReplaceChar(Filter(s, IsValidChar), ' ', '_'), '_'), Trimmed);
      && IsClean(r) && (forall c :: c in r ==> c in s || c == '_') && |r| <= |s|
  {
    var spaced := ReplaceChar(Filter(s, IsValidChar), ' ', '_');
    var collapsed := CollapseRuns(spaced, '_');
    var r := Strip(collapsed, Trimmed);
    SpacedChars(s);
    TrimCollapsed(collapsed);
    forall c | c in r
      ensures c !in Invalid && c != ' ' && (c in s || c == '_')
    {
      assert c in collapsed;
      assert c in spaced;
    }
    assert |spaced| <= |s|;
  }

  /** After dropping invalid characters and replacing spaces, neither is left. */
  lemma SpacedChars(s: string)
    ensures forall c :: c in ReplaceChar(Filter(s, IsValidChar), ' ', '_') ==>
      c !in Invalid && c != ' ' && (c in s || c == '_')
  {
    var kept := Filter(s, IsValidChar);
    FilterMembers(s, IsValidChar);
    var spaced := ReplaceChar(kept, ' ', '_');
    forall c | c in spaced
      ensures c !in Invalid && c != ' ' && (c in s || c == '_')
    {
      var k :| 0 <= k < |spaced| && spaced[k] == c;
      assert kept[k] in kept;
    }
  }

  /** Trimming a collapsed name yields a clean piece of it. */
  lemma TrimCollapsed(collapsed: string)
    requires NoDoubled(collapsed, '_')
    ensures var r := Strip(collapsed, Trimmed);
      && NoDoubled(r, '_') && (r == [] || (r[0] !in Trimmed && r[|r| - 1] !in Trimmed))
      && (forall c :: c in r ==> c in collapsed) && |r| <= |collapsed|
  {
    var lo := |collapsed| - |StripLeft(collapsed, Trimmed)|;
    var r := Strip(collapsed, Trimmed);
    StripIsSlice(collapsed, Trimmed);
    StripEnds(collapsed, Trimmed);
    SliceNoDoubled(collapsed, r, lo, '_');
    SliceMembers(collapsed, lo, r);
  }

  /** A piece of `s` has only characters of `s`. */
  lemma SliceMembers(s: string, lo: nat, r: string)
    requires lo + |r| <= |s| && r == s[lo..lo + |r|]
    ensures forall c :: c in r ==> c in s
  {
    forall c | c in r
      ensures c in s
    {
      var k :| 0 <= k < |r| && r[k] == c;
      assert s[lo + k] == c;
    }
  }

  /** The sanitiser changes a name exactly when the name is not already
      clean; in particular it is idempotent. */
  lemma SanitizeFixedPoint(s: string)
    ensures Sanitize(s) == s <==> IsClean(s)
    ensures Sanitize(Sanitize(s)) == Sanitize(s)
  {
    if IsClean(s) {
      SanitizeClean(s);
    }
    SanitizeClean(Sanitize(s));
  }

  lemma SanitizeClean(s: string)
    requires IsClean(s)
    ensures Sanitize(s) == s
  {
    assert forall i :: 0 <= i < |s| ==> s[i] in s;
    assert forall i :: 0 <= i < |s| ==> IsValidChar(s[i]);
    FilterAll(s, IsValidChar);
    assert forall i :: 0 <= i < |s| ==> s[i] != ' ';
    assert ReplaceChar(s, ' ', '_') == s;
    CollapseRunsNoop(s, '_');
    StripNoop(s, Trimmed);
  }

  /** Half the room left beside the ellipsis: Python's `(max_length - 3) // 2`.
      Dafny's division by a positive divisor floors, as Python's does. */
  function Half(maxLength: int): int {
    (maxLength - 3) / 2
  }

  /** `_enforce_length`: short names pass through; longer ones keep `h`
      characters from each end around `"..."`, with Python slice semantics
      for every value of `h`. */
  function EnforceLength(name: string, maxLength: int): (r: string)
    ensures |name| <= maxLength ==> r == name
    ensures |name| > maxLength && maxLength >= 5 ==>
      var h := Half(maxLength);
      && 1 <= h && |r| == 2 * h + 3 && |r| <= maxLength
      && r[..h] == name[..h] && r[h..h + 3] == "..." && r[h + 3..] == name[|name| - h..]
    ensures |name| > maxLength && 3 <= maxLength <= 4 ==> r == "..." + name
  {
    if |name| <= maxLength then name
    else
      var h := Half(maxLength);
      PyPrefix(name, h) + "..." + PySuffix(name, -h)
  }

  /** The length bound holds after truncation exactly when there is room for
      the ellipsis and one character on each side. */
  lemma EnforceLengthBoundIff(name: string, maxLength: int)
    requires |name| > maxLength
    ensures |EnforceLength(name, maxLength)| <= maxLength <==> maxLength >= 5
  {
  }

  /** Truncating a clean name with room for the ellipsis keeps it clean. */
  lemma EnforceLengthKeepsClean(name: string, maxLength: int)
    requires IsClean(name) && maxLength >= 5
    ensures IsClean(EnforceLength(name, maxLength))
  {
    if |name| > maxLength {
      var h := Half(maxLength);
      var pre, post := name[..h], name[|name| - h..];
      assert EnforceLength(name, maxLength) == pre + "..." + post;
      EllipsisNoDoubled(name, h);
      EllipsisChars(name, pre, post);
      assert (pre + "..." + post)[0] == name[0];
      assert (pre + "..." + post)[2 * h + 2] == name[|name| - 1];
    }
  }

  /** A name too long for a bound with room for the ellipsis keeps its
      first and last `Half(maxLength)` characters around `"..."`. */
  lemma EnforceLengthCut(name: string, maxLength: int)
    ensures |name| > maxLength >= 5 ==>
      var h := Half(maxLength);
      EnforceLength(name, maxLength) == name[..h] + "..." + name[|name| - h..]
  {
  }

  /** With room for the ellipsis, the length step gives a clean name within
      the bound from a clean one. */
  lemma EnforceLengthOfClean(name: string, maxLength: int)
    requires IsClean(name)
    ensures maxLength >= 5 ==> IsClean(EnforceLength(name, maxLength)) && |EnforceLength(name, maxLength)| <= maxLength
  {
    if maxLength >= 5 {
      EnforceLengthKeepsClean(name, maxLength);
    }
  }

  /** Cutting a name without doubled underscores around an ellipsis joins
      no two underscores. */
  lemma EllipsisNoDoubled(name: string, h: nat)
    requires NoDoubled(name, '_') && 1 <= h <= |name|
    ensures NoDoubled(name[..h] + "..." + name[|name| - h..], '_')
  {
    var pre, post := name[..h], name[|name| - h..];
    NoDoubledSlice(name, '_', 0, h);
    NoDoubledSlice(name, '_', |name| - h, h);
    assert name[0..h] == pre && name[|name| - h..|name| - h + h] == post;
    NoDoubledAppend(pre, "...", '_');
    NoDoubledAppend(pre + "...", post, '_');
  }

  /** A name cut around an ellipsis has only characters of the name and dots. */
  lemma EllipsisChars(name: string, pre: string, post: string)
    requires forall c :: c in name ==> c !in Invalid && c != ' '
    requires |pre| <= |name| && pre == name[..|pre|]
    requires |post| <= |name| && post == name[|name| - |post|..]
    ensures forall c :: c in pre + "..." + post ==> c !in Invalid && c != ' '
  {
    forall c | c in pre + "..." + post
      ensures c !in Invalid && c != ' '
    {
      if c in pre {
        var k :| 0 <= k < |pre| && pre[k] == c;
        assert name[k] == c;
      } else if c in post {
        var k :| 0 <= k < |post| && post[k] == c;
        assert name[|name| - |post| + k] == c;
      }
    }
  }

  /** `self.templates.get(doc_type, self.templates.get('default'))`: the
      type's own template, else the default one, else nothing. */
  function ChooseTemplate(templates: map<string, Template>, docType: string): (r: Option<Template>)
    ensures docType in templates ==> r == Some(templates[docType])
    ensures docType !in templates ==> r == (if "default" in templates then Some(templates["default"]) else None)
  {
    if docType in templates then Some(templates[docType])
    else if "default" in templates then Some(templates["default"])
    else None
  }

  /** `generate`. A missing template (no entry for the type and no default)
      makes `_fill_template` raise, which selects the last-resort name. */
  function Generate(templates: map<string, Template>, maxLength: int, m: Fields,
                    docType: string, originalFilename: string, now: string): (g: string)
    ensures maxLength >= 5 ==> IsClean(g) && |g| <= maxLength
    ensures var raw := RawName(templates, m, docType, originalFilename, now);
      IsClean(raw) && |raw| <= maxLength ==> g == raw
    ensures var s := Sanitize(RawName(templates, m, docType, originalFilename, now));
      && (|s| <= maxLength ==> g == s)
      && (|s| > maxLength && maxLength >= 5 ==> g == s[..Half(maxLength)] + "..." + s[|s| - Half(maxLength)..])
      && (|s| > maxLength && 3 <= maxLength <= 4 ==> g == "..." + s)
    ensures var raw := RawName(templates, m, docType, originalFilename, now);
      |Sanitize(raw)| <= maxLength ==> Filter(g, IsNameChar) == Filter(raw, IsNameChar)
  {
    var raw := RawName(templates, m, docType, originalFilename, now);
    var s := Sanitize(raw);
    SanitizeFixedPoint(raw);
    EnforceLengthOfClean(s, maxLength);
    EnforceLengthCut(s, maxLength);
    EnforceLength(s, maxLength)
  }

  /** The name before sanitising and truncation. */
  function RawName(templates: map<string, Template>, m: Fields, docType: string,
                   originalFilename: string, now: string): string
  {
    match ChooseTemplate(templates, docType)
    case Some(t) => FillTemplate(t, m, docType, now)
    case None => LastResort(originalFilename, now)
  }

  /** Where a generated name comes from: the type's own template if there is
      one, else the default template, else the last-resort name; a chosen
      template is rendered only when all its placeholders are set, and the
      fallback logic names the file otherwise. */
  lemma GenerateSource(templates: map<string, Template>, m: Fields,
                       docType: string, originalFilename: string, now: string)
    ensures var raw, vars := RawName(templates, m, docType, originalFilename, now), Variables(m, docType);
      && (docType !in templates && "default" !in templates ==> raw == LastResort(originalFilename, now))
      && (docType in templates && AllPresent(templates[docType], vars) ==>
            raw == Render(templates[docType], vars))
      && (docType !in templates && "default" in templates && AllPresent(templates["default"], vars) ==>
            raw == Render(templates["default"], vars))
      && ((docType in templates && !AllPresent(templates[docType], vars)) ||
          (docType !in templates && "default" in templates && !AllPresent(templates["default"], vars)) ==>
            raw == ApplyFallbackLogic(m, docType, now))
  {
  }

  /** The extractor never sets `invoice_number`, `amount`, `year` or
      `month`, so with the built-in table an Invoice, Receipt or
      BankStatement is always named by the fallback logic. */
  lemma DefaultTemplatesNeedUnextractedFields(m: Fields, docType: string, now: string)
    requires "invoice_number" !in m && "amount" !in m && "year" !in m
    ensures FillTemplate(DefaultTemplates["Invoice"], m, docType, now) == ApplyFallbackLogic(m, docType, now)
    ensures FillTemplate(DefaultTemplates["Receipt"], m, docType, now) == ApplyFallbackLogic(m, docType, now)
    ensures FillTemplate(DefaultTemplates["BankStatement"], m, docType, now) == ApplyFallbackLogic(m, docType, now)
  {
    var vars := Variables(m, docType);
    assert vars["invoice_number"] == "" && vars["amount"] == "" && vars["year"] == "";
    MissingFieldFallsBack(DefaultTemplates["Invoice"], m, docType, now, 2);
    MissingFieldFallsBack(DefaultTemplates["Receipt"], m, docType, now, 3);
    MissingFieldFallsBack(DefaultTemplates["BankStatement"], m, docType, now, 2);
  }

  /** One placeholder without a value sends the whole template to the
      fallback logic. */
  lemma MissingFieldFallsBack(t: Template, m: Fields, docType: string, now: string, i: nat)
    requires i < |t| && t[i].Field?
    requires var vars := Variables(m, docType); t[i].name !in vars || vars[t[i].name] == ""
    ensures FillTemplate(t, m, docType, now) == ApplyFallbackLogic(m, docType, now)
  {
  }
}

=== FILE: text_cleaner.dfy ===
/** The text cleaner: drops non-printable characters, collapses runs of
    spaces, turns tabs into spaces, normalises line breaks, caps blank lines
    and trims the ends. */
module TextCleaner {
  import opened PyText

  /** `str.isprintable` for one character: false for the control
      characters, the separators other than the space (U+00A0, U+1680,
      U+2000 to U+200A, U+2028, U+2029, U+202F, U+205F, U+3000), the soft
      hyphen, the zero-width, bidirectional and other format characters, the
      byte order mark, the non-characters U+FFFE and U+FFFF and the
      private-use areas. */
  predicate IsPrintable(c: char) {
    !(|| c < ' '
      || ('\U{7f}' <= c <= '\U{a0}')
      || c == '\U{ad}'
      || c == '\U{1680}'
      || ('\U{2000}' <= c <= '\U{200f}')
      || ('\U{2028}' <= c <= '\U{202f}')
      || ('\U{205f}' <= c <= '\U{206f}')
      || c == '\U{3000}'
      || c == '\U{feff}'
      || ('\U{e000}' <= c <= '\U{f8ff}')
      || ('\U{fff9}' <= c <= '\U{fffb}')
      || c == '\U{fffe}' || c == '\U{ffff}'
      || c >= '\U{f0000}')
  }

  /** The only printable whitespace character is the space. */
  lemma WhitespaceInvisible()
    ensures forall c :: c in Whitespace ==> !IsVisible(c)
  {
  }

  /** What the first step keeps: printable characters, newline, tab and
      space. */
  predicate Kept(c: char) {
    IsPrintable(c) || c == '\n' || c == '\t' || c == ' '
  }

  /** The characters that carry the text: printable and not a space. */
  predicate IsVisible(c: char) {
    IsPrintable(c) && c != ' '
  }

  /** `_remove_non_printable`. */
  function RemoveNonPrintable(s: string): (r: string)
    ensures forall i :: 0 <= i < |r| ==> Kept(r[i])
    ensures forall x :: x in r <==> x in s && Kept(x)
  {
    FilterMembers(s, Kept);
    Filter(s, Kept)
  }

  /** `_normalize_whitespace`: runs of spaces become one space, then each
      tab becomes a space (so a tab next to a space leaves two). */
  function NormalizeWhitespace(s: string): (r: string)
    ensures '\t' !in r
    ensures forall x :: x in r ==> x in s || x == ' '
    ensures '\t' !in s ==> r == CollapseRuns(s, ' ')
  {
    ReplaceChar(CollapseRuns(s, ' '), '\t', ' ')
  }

  /** `s.replace('\r\n', '\n')`, scanning left to right. Only carriage
      returns are removed. */
  function ReplaceCrLf(s: string): (r: string)
    ensures |r| <= |s|
    ensures forall x :: x in r ==> x in s
    ensures '\r' !in s ==> r == s
  {
    if s == [] then []
    else if |s| >= 2 && s[0] == '\r' && s[1] == '\n' then
      assert s[1..][1..] == s[2..];
      "\n" + ReplaceCrLf(s[2..])
    else [s[0]] + ReplaceCrLf(s[1..])
  }

  /** The `\r\n` replacement removes carriage returns only. */
  lemma {:induction false} ReplaceCrLfKeepsOthers(s: string)
    ensures Without(ReplaceCrLf(s), '\r') == Without(s, '\r')
    decreases |s|
  {
    if s != [] {
      if |s| >= 2 && s[0] == '\r' && s[1] == '\n' {
        ReplaceCrLfKeepsOthers(s[2..]);
        assert s[1..][1..] == s[2..];
        WithoutCons('\n', ReplaceCrLf(s[2..]), '\r');
      } else {
        ReplaceCrLfKeepsOthers(s[1..]);
        WithoutCons(s[0], ReplaceCrLf(s[1..]), '\r');
      }
    }
  }

  /** One step of the scan at a `\r\n`. */
  lemma ReplaceCrLfAtPair(t: string)
    ensures ReplaceCrLf("\r\n" + t) == "\n" + ReplaceCrLf(t)
  {
    assert ("\r\n" + t)[2..] == t;
  }

  /** One step of the scan at any other character. */
  lemma ReplaceCrLfAtOther(c: char, t: string)
    requires c != '\r' || t == [] || t[0] != '\n'
    ensures ReplaceCrLf([c] + t) == [c] + ReplaceCrLf(t)
  {
    assert ([c] + t)[1..] == t;
  }

  /** The replacement works piece by piece, unless a cut separates a
      carriage return from the line feed after it. */
  lemma {:induction false} ReplaceCrLfAppend(x: string, y: string)
    requires x == [] || y == [] || x[|x| - 1] != '\r' || y[0] != '\n'
    ensures ReplaceCrLf(x + y) == ReplaceCrLf(x) + ReplaceCrLf(y)
    decreases |x|
  {
    if x == [] {
      assert x + y == y;
    } else if |x| >= 2 && x[0] == '\r' && x[1] == '\n' {
      var t := x[2..];
      assert x == "\r\n" + t && x + y == "\r\n" + (t + y);
      assert t != [] ==> t[|t| - 1] == x[|x| - 1];
      ReplaceCrLfAppend(t, y);
      ReplaceCrLfAtPair(t);
      ReplaceCrLfAtPair(t + y);
      ConcatAssoc("\n", ReplaceCrLf(t), ReplaceCrLf(y));
    } else {
      var t := x[1..];
      assert x == [x[0]] + t && x + y == [x[0]] + (t + y);
      assert t != [] ==> t[|t| - 1] == x[|x| - 1];
      ReplaceCrLfAppend(t, y);
      ReplaceCrLfAtOther(x[0], t);
      ReplaceCrLfAtOther(x[0], t + y);
      ConcatAssoc([x[0]], ReplaceCrLf(t), ReplaceCrLf(y));
    }
  }

  /** Each `\r\n` becomes one line feed, wherever it stands. */
  lemma ReplaceCrLfPair(x: string, y: string)
    ensures ReplaceCrLf(x + "\r\n" + y) == ReplaceCrLf(x) + "\n" + ReplaceCrLf(y)
  {
    var p := "\r\n" + y;
    assert x + "\r\n" + y == x + p;
    ReplaceCrLfAppend(x, p);
    ReplaceCrLfAtPair(y);
    ConcatAssoc(ReplaceCrLf(x), "\n", ReplaceCrLf(y));
  }

  /** A carriage return not followed by a line feed is kept. */
  lemma ReplaceCrLfLoneCr(x: string, y: string)
    requires y == [] || y[0] != '\n'
    ensures ReplaceCrLf(x + "\r" + y) == ReplaceCrLf(x) + "\r" + ReplaceCrLf(y)
  {
    var p := "\r" + y;
    assert x + "\r" + y == x + p;
    ReplaceCrLfAppend(x, p);
    ReplaceCrLfAtOther('\r', y);
    ConcatAssoc(ReplaceCrLf(x), "\r", ReplaceCrLf(y));
  }

  /** No three newlines in a row. */
  predicate NoTripleNewline(s: string) {
    forall i :: 0 <= i < |s| - 2 ==> !TripleAt(s, i)
  }

  /** Three newlines start at `i`. */
  predicate TripleAt(s: string, i: nat)
    requires i + 2 < |s|
  {
    s[i] == '\n' && s[i + 1] == '\n' && s[i + 2] == '\n'
  }

  /** `re.sub(r'\n{3,}', '\n\n', s)`: every run of three or more newlines
      becomes two, keeping both ends of the string. */
  function CapNewlines(s: string): (r: string)
    ensures NoTripleNewline(r)
    ensures |r| <= |s|
    ensures forall x :: x in r ==> x in s
    ensures s != [] ==> r != [] && r[0] == s[0] && r[|r| - 1] == s[|s| - 1]
    ensures s == [] ==> r == []
    ensures |s| >= 2 && !(|s| >= 3 && s[0] == '\n' && s[1] == '\n' && s[2] == '\n') ==>
      |r| >= 2 && r[1] == s[1]
    decreases |s|
  {
    if s == [] then []
    else if |s| >= 3 && s[0] == '\n' && s[1] == '\n' && s[2] == '\n' then CapNewlines(s[1..])
    else
      var t := s[1..];
      assert |t| >= 2 ==> t[0] == s[1] && t[1] == s[2];
      var rt := CapNewlines(t);
      var r := [s[0]] + rt;
      assert forall i :: 0 < i < |r| ==> r[i] == rt[i - 1];
      assert forall i :: 0 < i < |r| - 2 ==> (TripleAt(r, i) <==> TripleAt(rt, i - 1));
      assert |r| >= 3 ==> !TripleAt(r, 0);
      r
  }

  /** Capping removes newlines only. */
  lemma {:induction false} CapNewlinesKeepsOthers(s: string)
    ensures Without(CapNewlines(s), '\n') == Without(s, '\n')
    decreases |s|
  {
    if s != [] {
      CapNewlinesKeepsOthers(s[1..]);
      if !(|s| >= 3 && s[0] == '\n' && s[1] == '\n' && s[2] == '\n') {
        WithoutCons(s[0], CapNewlines(s[1..]), '\n');
      }
    }
  }

  /** `n` line feeds. */
  function Newlines(n: nat): (r: string)
    ensures |r| == n
    ensures forall i :: 0 <= i < n ==> r[i] == '\n'
  {
    seq(n, _ => '\n')
  }

  /** Shortening a run of three or more newlines by one changes nothing:
      only the run's length, capped at two, matters. */
  lemma {:induction false} CapNewlinesTriple(a: string, b: string)
    ensures CapNewlines(a + "\n\n\n" + b) == CapNewlines(a + "\n\n" + b)
    decreases |a|
  {
    var s, t := a + "\n\n\n" + b, a + "\n\n" + b;
    if a == [] {
      assert s[1..] == t;
    } else {
      assert s[1..] == a[1..] + "\n\n\n" + b;
      assert t[1..] == a[1..] + "\n\n" + b;
      assert |t| >= 3 && s[..3] == t[..3];
      CapNewlinesTriple(a[1..], b);
    }
  }

  /** A run of `n >= 2` newlines counts as two: every run of three or more
      becomes exactly two. */
  lemma {:induction false} CapNewlinesRun(a: string, n: nat, b: string)
    requires n >= 2
    ensures CapNewlines(a + Newlines(n) + b) == CapNewlines(a + "\n\n" + b)
    decreases n
  {
    if n > 2 {
      var c := Newlines(n - 3) + b;
      assert a + Newlines(n) + b == a + "\n\n\n" + c;
      assert a + Newlines(n - 1) + b == a + "\n\n" + c;
      CapNewlinesTriple(a, c);
      CapNewlinesRun(a, n - 1, b);
    } else {
      assert Newlines(n) == "\n\n";
    }
  }

  /** Universal newlines in one pass: each `\r\n`, each other `\r` and
      each `\n` becomes one line feed. */
  function LineFeeds(s: string): (r: string)
    ensures '\r' !in r
    decreases |s|
  {
    if s == [] then []
    else if |s| >= 2 && s[0] == '\r' && s[1] == '\n' then "\n" + LineFeeds(s[2..])
    else if s[0] == '\r' then "\n" + LineFeeds(s[1..])
    else [s[0]] + LineFeeds(s[1..])
  }

  /** Replacing a character distributes over a leading character. */
  lemma ReplaceCharCons(c: char, u: string, a: char, b: char)
    ensures ReplaceChar([c] + u, a, b) == [if c == a then b else c] + ReplaceChar(u, a, b)
  {
    var l, r := ReplaceChar([c] + u, a, b), [if c == a then b else c] + ReplaceChar(u, a, b);
    assert forall i :: 0 < i < |l| ==> l[i] == r[i] by {
      forall i | 0 < i < |l|
        ensures l[i] == r[i]
      {
        assert ([c] + u)[i] == u[i - 1];
      }
    }
  }

  /** The two replacements of `_normalize_line_breaks` make exactly the
      universal-newline translation. */
  lemma {:induction false} LineFeedsTwoPass(s: string)
    ensures ReplaceChar(ReplaceCrLf(s), '\r', '\n') == LineFeeds(s)
    decreases |s|
  {
    if s != [] {
      if |s| >= 2 && s[0] == '\r' && s[1] == '\n' {
        LineFeedsTwoPass(s[2..]);
        assert ReplaceCrLf(s) == "\n" + ReplaceCrLf(s[2..]) by {
          assert s == "\r\n" + s[2..];
          ReplaceCrLfAtPair(s[2..]);
        }
        ReplaceCharCons('\n', ReplaceCrLf(s[2..]), '\r', '\n');
      } else {
        LineFeedsTwoPass(s[1..]);
        assert ReplaceCrLf(s) == [s[0]] + ReplaceCrLf(s[1..]) by {
          assert s == [s[0]] + s[1..];
          ReplaceCrLfAtOther(s[0], s[1..]);
        }
        ReplaceCharCons(s[0], ReplaceCrLf(s[1..]), '\r', '\n');
      }
    }
  }

  /** Text without three newlines in a row is left alone by the cap. */
  lemma CapNewlinesKeepsClean(s: string)
    ensures NoTripleNewline(s) ==> CapNewlines(s) == s
  {
    if NoTripleNewline(s) {
      CapNewlinesNoop(s);
    }
  }

  /** `_normalize_line_breaks`. */
  function NormalizeLineBreaks(s: string): (r: string)
    ensures '\r' !in r
    ensures NoTripleNewline(r)
    ensures forall x :: x in r ==> x in s || x == '\n'
  {
    CapNewlines(ReplaceChar(ReplaceCrLf(s), '\r', '\n'))
  }

  /** What `_normalize_line_breaks` computes: universal newlines, then every
      run of three or more line feeds cut to two; text already in that
      shape is left alone. */
  lemma NormalizeLineBreaksSpec(s: string)
    ensures NormalizeLineBreaks(s) == CapNewlines(LineFeeds(s))
    ensures '\r' !in s && NoTripleNewline(s) ==> NormalizeLineBreaks(s) == s
  {
    LineFeedsTwoPass(s);
    CapNewlinesKeepsClean(s);
  }

  /** The three normalisation steps of `clean_text`, in order. No tab or
      carriage return survives them, every character left is printable or
      a newline, and each comes from the input or is a space. */
  function Normalized(s: string): (c: string)
    ensures '\t' !in c && '\r' !in c
    ensures NoTripleNewline(c)
    ensures forall x :: x in c ==> (IsPrintable(x) || x == '\n') && (x in s || x == ' ')
  {
    var a := RemoveNonPrintable(s);
    assert !Kept('\r');
    assert '\r' !in a;
    var b := NormalizeWhitespace(a);
    assert '\r' !in b;
    assert ReplaceCrLf(b) == b;
    assert ReplaceChar(b, '\r', '\n') == b;
    var c := NormalizeLineBreaks(b);
    assert c == CapNewlines(b);
    forall x | x in c
      ensures (IsPrintable(x) || x == '\n') && (x in s || x == ' ')
    {
      assert x in b;
      if x != ' ' {
        assert x in a;
      }
    }
    c
  }

  /** The shape of cleaned text: only printable characters and newlines
      (so no tab or carriage return), never three newlines in a row, and no
      whitespace at either end. */
  predicate IsCleanText(r: string) {
    && (forall i :: 0 <= i < |r| ==> IsPrintable(r[i]) || r[i] == '\n')
    && '\t' !in r && '\r' !in r
    && NoTripleNewline(r)
    && (r == [] || (r[0] !in Whitespace && r[|r| - 1] !in Whitespace))
  }

  /** Every character of `r` comes from `s`, or is a space. */
  predicate FromInput(r: string, s: string) {
    forall x :: x in r ==> x in s || x == ' '
  }

  /** `clean_text`: empty input gives empty output; otherwise the
      normalisation steps, then `strip()`. */
  function Clean(s: string): (r: string)
    ensures s == [] ==> r == []
    ensures IsCleanText(r)
    ensures FromInput(r, s)
  {
    if s == [] then []
    else
      StrippedNormalized(s);
      Strip(Normalized(s), Whitespace)
  }

  /** A text of spaces cleans to nothing. */
  lemma CleanOfSpaces(s: string)
    requires forall i :: 0 <= i < |s| ==> s[i] == ' '
    ensures Clean(s) == []
  {
    SpacesCleanToNothing(Clean(s), s);
  }

  lemma SpacesCleanToNothing(r: string, s: string)
    requires IsCleanText(r) && FromInput(r, s)
    requires forall i :: 0 <= i < |s| ==> s[i] == ' '
    ensures r == []
  {
    forall i | 0 <= i < |r|
      ensures r[i] == ' '
    {
      assert r[i] in r;
      if r[i] in s {
        var k :| 0 <= k < |s| && s[k] == r[i];
      }
    }
  }

  /** What stripping the normalised text keeps of the normalisation's
      guarantees. */
  lemma StrippedNormalized(s: string)
    ensures IsCleanText(Strip(Normalized(s), Whitespace))
    ensures FromInput(Strip(Normalized(s), Whitespace), s)
  {
    var c := Normalized(s);
    var r := Strip(c, Whitespace);
    StripMembers(c, Whitespace);
    StripNoTriple(c, Whitespace);
    StripEnds(c, Whitespace);
    forall i | 0 <= i < |r|
      ensures IsPrintable(r[i]) || r[i] == '\n'
    {
      assert r[i] in r;
    }
  }

  /** Stripping keeps the cap on blank lines. */
  lemma StripNoTriple(c: string, cs: set<char>)
    requires NoTripleNewline(c)
    ensures NoTripleNewline(Strip(c, cs))
  {
    var r, lo := Strip(c, cs), |c| - |StripLeft(c, cs)|;
    StripIsSlice(c, cs);
    NoTripleNewlinePiece(c, lo, r);
  }

  /** A piece of a string without three newlines in a row has none. */
  lemma NoTripleNewlinePiece(c: string, lo: nat, r: string)
    requires lo + |r| <= |c| && r == c[lo..lo + |r|] && NoTripleNewline(c)
    ensures NoTripleNewline(r)
  {
    forall i | 0 <= i < |r| - 2
      ensures !TripleAt(r, i)
    {
      assert !TripleAt(c, lo + i);
      assert r[i] == c[lo + i] && r[i + 1] == c[lo + i + 1] && r[i + 2] == c[lo + i + 2];
    }
  }

  // ------------------------------------------------------------ lemmas

  /** The whitespace step keeps the visible text. */
  lemma NormalizeWhitespaceVisible(a: string)
    ensures Filter(NormalizeWhitespace(a), IsVisible) == Filter(a, IsVisible)
  {
    var b0 := CollapseRuns(a, ' ');
    FilterWithout(b0, ' ', IsVisible);
    FilterWithout(a, ' ', IsVisible);
    FilterReplaceDropped(b0, '\t', ' ', IsVisible);
  }

  /** The line-break step keeps the visible text. */
  lemma NormalizeLineBreaksVisible(b: string)
    ensures Filter(NormalizeLineBreaks(b), IsVisible) == Filter(b, IsVisible)
  {
    var c0 := ReplaceCrLf(b);
    ReplaceCrLfKeepsOthers(b);
    FilterWithout(c0, '\r', IsVisible);
    FilterWithout(b, '\r', IsVisible);
    var c1 := ReplaceChar(c0, '\r', '\n');
    FilterReplaceDropped(c0, '\r', '\n', IsVisible);
    CapNewlinesKeepsOthers(c1);
    FilterWithout(CapNewlines(c1), '\n', IsVisible);
    FilterWithout(c1, '\n', IsVisible);
  }

  /** The normalisation steps keep the visible text. */
  lemma NormalizedKeepsVisible(s: string)
    ensures Filter(Normalized(s), IsVisible) == Filter(s, IsVisible)
  {
    var a := RemoveNonPrintable(s);
    FilterFilter(s, Kept, IsVisible);
    var b := NormalizeWhitespace(a);
    NormalizeWhitespaceVisible(a);
    NormalizeLineBreaksVisible(b);
  }

  /** Stripping whitespace keeps the visible text. */
  lemma StripKeepsVisible(c: string, cs: set<char>)
    requires forall x :: x in cs ==> !IsVisible(x)
    ensures Filter(Strip(c, cs), IsVisible) == Filter(c, IsVisible)
  {
    StripIsSlice(c, cs);
    StripRightCut(c, cs);
    var l := StripLeft(c, cs);
    var lo := |c| - |l|;
    FilterSlice(c, lo, lo + |StripRight(l, cs)|, IsVisible, cs);
  }

  /** Cleaning never changes the visible text: the printable characters
      other than the space come out exactly as they went in, in order. Only
      spacing, line breaks and invisible characters change. */
  lemma CleanKeepsVisibleText(s: string)
    ensures Filter(Clean(s), IsVisible) == Filter(s, IsVisible)
  {
    if s != [] {
      NormalizedKeepsVisible(s);
      WhitespaceInvisible();
      StripKeepsVisible(Normalized(s), Whitespace);
    }
  }

  /** Carriage returns are not printable, so the first step already deletes
      them: the `\r\n` and `\r` replacements never apply, and a lone `\r`
      joins the lines it separated. */
  lemma CarriageReturnIgnored(x: string, y: string)
    ensures Clean(x + "\r" + y) == Clean(x + y)
  {
    RemoveNonPrintableDropsCr(x, y);
    assert Normalized(x + "\r" + y) == Normalized(x + y);
    if x + y == [] {
      NormalizedEmpty();
    }
  }

  lemma RemoveNonPrintableDropsCr(x: string, y: string)
    ensures RemoveNonPrintable(x + "\r" + y) == RemoveNonPrintable(x + y)
  {
    var cr := "\r";
    assert !Kept('\r');
    FilterDropPrefix(cr, 1, Kept);
    assert cr[1..] == [];
    assert Filter(cr, Kept) == [];
    calc {
      Filter(x + cr + y, Kept);
      { FilterAppend(x + cr, y, Kept); }
      Filter(x + cr, Kept) + Filter(y, Kept);
      { FilterAppend(x, cr, Kept); }
      Filter(x, Kept) + Filter(cr, Kept) + Filter(y, Kept);
      Filter(x, Kept) + Filter(y, Kept);
      { FilterAppend(x, y, Kept); }
      Filter(x + y, Kept);
    }
  }

  lemma NormalizedEmpty()
    ensures Normalized([]) == []
  {
    assert RemoveNonPrintable([]) == [];
    assert NormalizeWhitespace([]) == [];
    assert ReplaceCrLf([]) == [];
    assert NormalizeLineBreaks([]) == [];
  }

  /** Capping only removes newlines from between newlines, so it joins no
      two copies of another character. */
  lemma {:induction false} CapNewlinesNoDoubled(s: string, c: char)
    requires c != '\n' && NoDoubled(s, c)
    ensures NoDoubled(CapNewlines(s), c)
    decreases |s|
  {
    if s != [] {
      NoDoubledTail(s, c);
      CapNewlinesNoDoubled(s[1..], c);
      if !(|s| >= 3 && s[0] == '\n' && s[1] == '\n' && s[2] == '\n') {
        var rt := CapNewlines(s[1..]);
        assert rt != [] ==> rt[0] == s[1];
        if |s| >= 2 {
          assert !DoubledAt(s, 0, c);
        }
        NoDoubledCons(s[0], rt, c);
      }
    }
  }

  lemma {:induction false} CapNewlinesNoop(s: string)
    requires NoTripleNewline(s)
    ensures CapNewlines(s) == s
    decreases |s|
  {
    if s != [] {
      assert NoTripleNewline(s[1..]) by {
        forall i | 0 <= i < |s[1..]| - 2
          ensures !TripleAt(s[1..], i)
        {
          assert !TripleAt(s, i + 1);
          assert s[1..][i] == s[i + 1] && s[1..][i + 1] == s[i + 2] && s[1..][i + 2] == s[i + 3];
        }
      }
      CapNewlinesNoop(s[1..]);
      if |s| >= 3 {
        assert !TripleAt(s, 0);
      }
    }
  }

  /** Without tabs in the input, the normalised text has no doubled space. */
  lemma NormalizedNoDoubledSpace(s: string)
    requires '\t' !in s
    ensures NoDoubled(Normalized(s), ' ')
  {
    var a := RemoveNonPrintable(s);
    var b := NormalizeWhitespace(a);
    assert b == CollapseRuns(a, ' ');
    assert '\r' !in b;
    assert ReplaceChar(ReplaceCrLf(b), '\r', '\n') == b;
    CapNewlinesNoDoubled(b, ' ');
  }

  /** Without tabs in the input, the cleaned text has no doubled space. */
  lemma CleanNoDoubledSpace(s: string)
    requires '\t' !in s
    ensures NoDoubled(Clean(s), ' ')
  {
    if s != [] {
      NormalizedNoDoubledSpace(s);
      StripNoDoubled(Normalized(s), Whitespace, ' ');
    }
  }

  /** Cleaned text without doubled spaces is left alone by cleaning. */
  lemma CleanFixedPoint(t: string)
    requires IsCleanText(t) && NoDoubled(t, ' ')
    ensures Clean(t) == t
  {
    if t != [] {
      FilterAll(t, Kept);
      CollapseRunsNoop(t, ' ');
      assert NormalizeWhitespace(t) == t;
      CapNewlinesNoop(t);
      assert NormalizeLineBreaks(t) == t;
      StripNoop(t, Whitespace);
    }
  }

  /** Cleaning text without tabs twice is cleaning it once. */
  lemma CleanIdempotentWithoutTabs(s: string)
    requires '\t' !in s
    ensures Clean(Clean(s)) == Clean(s)
  {
    CleanNoDoubledSpace(s);
    CleanFixedPoint(Clean(s));
  }

  /** The letters of the examples below are not whitespace. */
  lemma LettersNotWhitespace()
    ensures 'a' !in Whitespace && 'b' !in Whitespace
  {
  }

  /** Line-break normalisation leaves text without carriage returns or
      triple newlines alone. */
  lemma NormalizeLineBreaksNoop(u: string)
    requires '\r' !in u && NoTripleNewline(u)
    ensures NormalizeLineBreaks(u) == u
  {
    assert ReplaceCrLf(u) == u && ReplaceChar(u, '\r', '\n') == u;
    CapNewlinesNoop(u);
  }

  /** A normalised text whose ends are not whitespace is what cleaning
      returns. */
  lemma CleanOfNormalized(s: string, u: string)
    requires s != [] && Normalized(s) == u
    requires u != [] && u[0] !in Whitespace && u[|u| - 1] !in Whitespace
    ensures Clean(s) == u
  {
    StripNoop(u, Whitespace);
  }

  /** Two tabs between letters survive cleaning as two spaces. */
  lemma CleanOfTwoTabs()
    ensures Clean("a\t\tb") == "a  b"
  {
    NormalizedTwoTabs();
    LettersNotWhitespace();
    CleanOfNormalized("a\t\tb", "a  b");
  }

  lemma NormalizedTwoTabs()
    ensures Normalized("a\t\tb") == "a  b"
  {
    var s, t := "a\t\tb", "a  b";
    FilterAll(s, Kept);
    CollapseRunsNoop(s, ' ');
    assert NormalizeWhitespace(s) == t;
    NormalizedOf(s, t);
  }

  /** Two spaces between letters are collapsed into one. */
  lemma CleanOfTwoSpaces()
    ensures Clean("a  b") == "a b"
  {
    NormalizedTwoSpaces();
    LettersNotWhitespace();
    CleanOfNormalized("a  b", "a b");
  }

  lemma NormalizedTwoSpaces()
    ensures Normalized("a  b") == "a b"
  {
    KeptTwoSpaces();
    WhitespaceOfTwoSpaces();
    NormalizedOf("a  b", "a b");
  }

  lemma KeptTwoSpaces()
    ensures Filter("a  b", Kept) == "a  b"
  {
    FilterAll("a  b", Kept);
  }

  lemma WhitespaceOfTwoSpaces()
    ensures NormalizeWhitespace("a  b") == "a b"
  {
    assert '\t' !in "a  b";
    CollapseTwoSpaces();
  }

  /** Text whose whitespace pass already gives `b`, free of carriage
      returns and triple newlines, normalises to `b`. */
  lemma NormalizedOf(s: string, b: string)
    requires Filter(s, Kept) == s && NormalizeWhitespace(s) == b
    requires '\r' !in b && NoTripleNewline(b)
    ensures Normalized(s) == b
  {
    NormalizeLineBreaksNoop(b);
  }

  lemma CollapseTwoSpaces()
    ensures CollapseRuns("a  b", ' ') == "a b"
  {
    assert CollapseRuns("b", ' ') == "b";
    assert CollapseRuns(" b", ' ') == " b" by { assert " b"[1..] == "b"; }
    assert CollapseRuns("  b", ' ') == " b" by { assert "  b"[1..] == " b"; }
    assert "a  b"[1..] == "  b";
  }

  /** Tabs become spaces after space runs are collapsed, so two tabs leave
      two spaces, which a second cleaning collapses: cleaning is not
      idempotent. */
  lemma CleanNotIdempotentWithTabs()
    ensures Clean(Clean("a\t\tb")) != Clean("a\t\tb")
  {
    CleanOfTwoTabs();
    CleanOfTwoSpaces();
  }
}

=== FILE: wrappers.dfy ===
/** Failure-carrying result types shared by every module of the model.
    A Python `None` becomes `None`; a raised exception becomes `Failure`. */
module Wrappers {

  datatype Option<+T> = None | Some(value: T) {

    /** The wrapped value, or `default` when there is none. */
    function GetOr(default: T): T {
      match this
      case Some(v) => v
      case None => default
    }
  }

  datatype Result<+R, +E> = Success(value: R) | Failure(error: E) {

    predicate IsFailure() {
      Failure?
    }

    function PropagateFailure<U>(): Result<U, E>
      requires Failure?
    {
      Failure(error)
    }

    function Extract(): R
      requires Success?
    {
      value
    }
  }
}
